=== FILE: README.md ===
# Cinemas booking client — a Dafny model

This project models the client-side logic of a movie-ticket web client. The
client lets a visitor do the following:

- browse movies and theaters and search them by name;
- pick a theater, a day and a show time;
- choose seats on a seat grid by pressing and dragging;
- review a price summary with a 6% service charge, then pay through an
  external provider;
- confirm the payment;
- view their orders split into upcoming and past shows.

A session store keeps the login token in browser storage and guards the
protected pages.

The network, browser storage, React state, the router and the toast library
become inputs and outputs of pure functions:

- every server reply is a parameter, with its failure modes spelled out as
  datatype constructors;
- storage is a `map<string, string>`;
- the clock is an integer parameter (milliseconds, or whole days given as
  year, month and day);
- toasts and navigations are emitted `Effect` values.

Modules follow the source:

| module | file | what it covers |
|---|---|---|
| `Common` | `common.dfy` | options and JavaScript truthiness (`a || b`), decimal strings and `Number(...)`, ASCII case, substring search, `find`/`filter` |
| `Types` | `types.dfy` | the records of `src/types.ts` and the emitted effects |
| `Pricing` | `pricing.dfy` | `getPriceForType` with its `||` fallback, the total, the party size |
| `Selection` | `selection.dfy` | the `toggleSeat` reducer and the booked-seat set |
| `Gesture` | `gesture.dfy` | the press/drag/release machine of both seat pages |
| `SeatGrid` | `seat_grid.dfy` | the rendered grid |
| `ScreenPage` | `screen_page.dfy` | loading a show, the countdown, the pay gate and the hand-off |
| `Checkout` | `checkout.dfy` | the booking summary: service charge, session guard, order payload, payment start |
| `Session` | `session.dfy` | the auth provider: init, login, logout, unauthorized events, the expiry timer |
| `Access` | `access.dfy` | the protected-route guard |
| `Validation` | `validation.dfy` | the e-mail and password expressions |
| `LoginPage` | `login_page.dfy` | the login page |
| `SignupPage` | `signup_page.dfy` | the sign-up page |
| `Dates` | `dates.dfy` | day keys `Y-MM-DD` and their string sort |
| `Buckets` | `buckets.dfy` | string-keyed records as association lists |
| `TheaterSchedule` | `theater_schedule.dfy` | a theater's schedule, date slider and booking modal |
| `MovieSchedule` | `movie_schedule.dfy` | the movie page in both variants |
| `Orders` | `orders.dfy` | "My Tickets" |
| `Payment` | `payment.dfy` | the payment-return page |
| `TicketView` | `ticket.dfy` | a single ticket |
| `Search` | `search.dfy` | both home pages |
| `Graphics` | `graphics.dfy` | `getCinemaGraphic` |

Some modelling choices:

- **Seat rows are single characters.** The reducer reads a seat's row as its
  first character.
- **`Number(...)` on a label's tail is `ParseNat`.** It reads decimal digits
  only, gives 0 for the empty string, and gives `None` (NaN) otherwise.
- **JavaScript `||` is `OrElse`.** It falls through on `None`, on the empty
  string and on 0.

## Model

| member | source | states |
|---|---|---|
| Common.ParseNatToString | src/pages/BookingDetails.tsx:42 | `Number` of a column's decimal rendering gives back the column |
| Common.NatToStringInjective | src/features/booking/SeatGrid.tsx:32 | distinct columns render to distinct decimal strings |
| Pricing.PriceFor | src/features/booking/ScreenPage.tsx:147-150 | a seat's price is 0 or the price of some table entry, and it is 0 only when the table is empty or its first entry costs 0 |
| Pricing.PriceForMatch | src/features/booking/ScreenPage.tsx:148-149 | the first entry of the seat's category decides the price when that price is non-zero |
| Pricing.PriceForFallsThrough | src/features/booking/ScreenPage.tsx:148-149 | a missing category, or one whose first entry costs 0, falls through to the first entry of the table |
| Pricing.TotalConcat | src/features/booking/ScreenPage.tsx:152 | the total of two selections put together is the sum of their totals |
| Pricing.TotalBounds | src/features/booking/ScreenPage.tsx:152 | with prices in 0..max, the total lies in 0..count×max |
| Pricing.TotalUniform | src/components/ScreenPage.tsx:151-156 | n seats of one category priced p cost n×p |
| Pricing.SeatLimitOf | src/components/ScreenPage.tsx:25 | the party size is the hand-off's seat count, or 1 when that count is absent or 0 |
| Selection.SectionType | src/features/booking/ScreenPage.tsx:98-102 | a non-empty section type comes from a section whose rows hold the seat's first character; a seat in no section gets "" |
| Selection.SectionTypeFirstWins | src/features/booking/ScreenPage.tsx:100 | when several sections hold the row, the first one's type is used |
| Selection.ResolveCategory | src/features/booking/ScreenPage.tsx:118-119 | a category present in the price table is kept; otherwise the table's first non-empty category, else the section type, is recorded; a non-empty section type never yields "" |
| Selection.Without | src/features/booking/ScreenPage.tsx:124 | deselecting keeps exactly the entries with other labels and drops at least one entry when the seat was selected |
| Selection.LabelsWithout | src/features/booking/ScreenPage.tsx:124 | deselecting removes exactly that label from the label set |
| Selection.WithoutUnique | src/features/booking/ScreenPage.tsx:122-124 | deselecting a seat selected once cuts out exactly that entry and keeps the rest in order |
| Selection.Toggle | src/features/booking/ScreenPage.tsx:104-127 | a booked seat changes nothing; a free, unselected seat in a typed section is appended with its resolved category while the party is not full, unless the mode is deselect; a selected seat is removed unless the mode is select; a seat whose row lies in no typed section is never added; the selection grows by nothing else, and otherwise it is unchanged or that seat was removed; select mode only adds labels and deselect mode only removes them |
| Selection.ToggleKeepsValid | src/features/booking/ScreenPage.tsx:107-125 | every toggle keeps labels unique, the count at most the party size, booked seats out, and every seat inside a typed section |
| Selection.ToggleTwice | src/features/booking/ScreenPage.tsx:107-125 | toggling the same free seat twice without a mode restores the same set of labels |
| Selection.BookedSetMembers | src/components/ScreenPage.tsx:78-86 | a label is booked iff some seat of some order that carries seats renders to it |
| Gesture.Step | src/features/booking/ScreenPage.tsx:132-145 | a release always ends the gesture; an enter does nothing while idle and, while painting, applies the reducer to its seat in the painting mode; a press applies the reducer to the pressed seat and starts painting in the mode that seat fixes; the routed page ignores a press on a booked seat |
| Gesture.RunKeepsValid | src/features/booking/ScreenPage.tsx:132-145 | under any sequence of presses, enters and releases the selection stays valid |
| Gesture.PaintIsOneWay | src/features/booking/ScreenPage.tsx:140-144 | while painting, the mode is kept, select mode only grows the label set and deselect mode only shrinks it; with no press, enters change nothing |
| Gesture.GestureIsOneWay | src/features/booking/ScreenPage.tsx:41-52 | a whole press–drag–release gesture ends idle and only adds labels, or only removes them, according to whether the pressed seat was selected |
| Gesture.BookedPressDiffers | src/components/ScreenPage.tsx:132-144 | on a booked seat the routed page ignores the press, while the other page still arms a select gesture |
| Gesture.VariantsAgree | src/components/ScreenPage.tsx:132-149 | away from presses on booked seats the two pages react identically |
| SeatGrid.GridCell | src/features/booking/SeatGrid.tsx:22-43 | sections come in layout order with the fallback header price; each row has `columns[1]` seats labelled row ++ (c + 1); a seat shows selected iff its label is selected and booked iff its label is booked; it forwards press and enter for itself |
| SeatGrid.SeatLabelInjective | src/features/booking/SeatGrid.tsx:32 | two grid labels are equal only for the same row and column |
| SeatGrid.GridSeatResolvesToItsSection | src/features/booking/ScreenPage.tsx:98-102 | when no row belongs to two sections, every drawn seat resolves to the type of the section it is drawn in |
| SeatGrid.RowsLabelsCount | src/features/booking/SeatGrid.tsx:29-31 | a section draws rows × `columns[1]` seats |
| SeatGrid.RowsLabelsMembers | src/features/booking/SeatGrid.tsx:29-32 | a label is drawn in a section iff it is row ++ c for one of its rows and 1 ≤ c ≤ `columns[1]` |
| SeatGrid.SectionLabelsAreDrawn | src/features/booking/SeatGrid.tsx:21-44 | the label list of a section holds exactly the tags the rendered grid draws in that section |
| ScreenPage.LoadRouted | src/components/ScreenPage.tsx:54-92 | the routed page requests a show only with a token and a show id, is ready exactly when a show with a non-empty layout arrives, and on failure shows one error toast and keeps the spinner |
| ScreenPage.LoadFeatures | src/features/booking/ScreenPage.tsx:54-95 | the other page needs only a show id; a 401 blanks the page silently; any other failure toasts and goes to the not-found page |
| ScreenPage.LoadVariantsAgreeOnSuccess | src/components/ScreenPage.tsx:62-87 | a successful reply renders the same show in both pages |
| ScreenPage.ShowOf | src/features/booking/ScreenPage.tsx:63-79 | the seat state takes the show's layout and prices, books exactly the labels of the seats in the show's orders, and takes the party size from the hand-off, 1 when it is absent or 0 |
| ScreenPage.OrderedSeatsStayFree | src/features/booking/ScreenPage.tsx:73-79 | a seat of any of the show's existing orders can never be selected on the loaded page, in any mode |
| ScreenPage.Countdown | src/components/ScreenPage.tsx:195 | the heading shows the positive number of seats still to pick, and nothing once the party is complete |
| ScreenPage.Pay | src/components/ScreenPage.tsx:247-255 | an incomplete party gets the warning naming the party size; otherwise the page goes to the summary with the selection, its total, the route's show id and the show's movie name, date and time |
| ScreenPage.PayMatchesCountdown | src/components/ScreenPage.tsx:248-254 | for a valid selection, paying proceeds exactly when the countdown is gone, and then the party is exactly complete |
| ScreenPage.HandoffAccepted | src/components/ScreenPage.tsx:167-174 | what the pay button hands over opens the summary page with the same seats, subtotal and movie |
| ScreenPage.OrderBooksSelection | src/pages/BookingDetails.tsx:37-46 | the order placed from the summary books the route's show and exactly the seats chosen on the seat page, in order, with their categories |
| ScreenPage.Back | src/components/ScreenPage.tsx:180-190 | the back arrow goes to `from` when present, else one step back |
| ScreenPage.ExampleSelects | src/features/booking/ScreenPage.tsx:104-127 | in select mode A1 then A2 are appended in press order with their section categories |
| ScreenPage.ExampleDeselects | src/features/booking/ScreenPage.tsx:122-124 | in deselect mode A1 then A2 are removed, the rest keeping its order |
| ScreenPage.DragExample | src/features/booking/ScreenPage.tsx:104-145 | party of two over sections priced 200 and 150: pressing A1 and dragging to A2 selects both for 400; doing it again clears both |
| Checkout.ServiceCharge | src/pages/BookingDetails.tsx:19-20 | the charge is the integer nearest to 6% of the subtotal, ties rounded up |
| Checkout.ServiceChargeUnique | src/pages/BookingDetails.tsx:20 | no other integer satisfies that rounding condition |
| Checkout.FinalTotal | src/pages/BookingDetails.tsx:21 | the final total exceeds the subtotal by the rounded 6% |
| Checkout.FinalTotalBounds | src/pages/BookingDetails.tsx:19-21 | a non-negative subtotal never gets cheaper, and 100×final ≤ 106×subtotal + 50 |
| Checkout.FourHundredExample | src/pages/BookingDetails.tsx:19-21 | 400 carries a charge of 24, 424 in all |
| Checkout.Open | src/pages/BookingDetails.tsx:77-86 | the page renders iff the hand-off carries a truthy show id; otherwise exactly one error toast and one navigation home |
| Checkout.Cancel | src/pages/BookingDetails.tsx:145-147 | cancel goes to `from` when present, else one step back |
| Checkout.EncodeSeat | src/pages/BookingDetails.tsx:40-44 | the row is the label's first character (empty for an empty label), the column is `Number` of the rest of the label (0 for an empty label, `None` for NaN), and the category is copied |
| Checkout.EncodeSeatRoundTrip | src/pages/BookingDetails.tsx:40-43 | splitting a grid label gives back its row and column, so the server books the label that was selected |
| Checkout.EncodeSeats | src/pages/BookingDetails.tsx:37-46 | one payload seat per selected seat, in order |
| Checkout.HandlePayment | src/pages/BookingDetails.tsx:29-74 | an order is requested iff a token is stored, carrying the hand-off's show id as `showtimeId` and the encoded seats; exactly one effect follows; the browser leaves for the payment URL iff the reply is ok with a parsable URL, else one error toast |
| Checkout.MissingPaymentUrlStays | src/pages/BookingDetails.tsx:62-72 | a reply without a payment URL gives one error toast and no navigation |
| Session.Cleared | src/auth/AuthContext.tsx:97-100 | the three session keys are gone and every other key is untouched |
| Session.AliveIffNotDue | src/auth/AuthContext.tsx:45-69 | for an integer expiry, the mount's "still valid" test in seconds and the timer's "already due" test in milliseconds are exact complements |
| Session.Init | src/auth/AuthContext.tsx:40-59 | the session is restored iff token and expiry are stored and now is before the expiry; then the stored token and e-mail are used; a stored but expired session is wiped; children render afterwards either way |
| Session.Login | src/auth/AuthContext.tsx:84-95 | login authenticates, writes the three keys (the string "undefined" for a missing e-mail), leaves other keys alone and re-arms the unauthorized handler |
| Session.Logout | src/auth/AuthContext.tsx:97-106 | logout clears state and keys, navigates to /login and leaves the guard as it was |
| Session.Unauthorized | src/auth/AuthContext.tsx:27-34 | the first event toasts and logs out and sets the guard; while the guard is set nothing happens |
| Session.Tick | src/auth/AuthContext.tsx:61-79 | the timer fires iff authenticated with a stored expiry that is due or unparsable; firing toasts, logs out and clears the keys |
| Session.LoginThenInit | src/auth/AuthContext.tsx:45-51 | a session stored by login is restored by the next mount while unexpired |
| Session.LoginThenInitExpired | src/auth/AuthContext.tsx:52-56 | once expired, the same stored session is wiped by the next mount |
| Session.InitNotImmediatelyDue | src/auth/AuthContext.tsx:61-72 | a restored session is never due at the instant it is restored |
| Session.BurstHandledOnce | src/auth/AuthContext.tsx:27-34 | any burst of unauthorized events gives one toast and one navigation to /login |
| Session.BurstIgnored | src/auth/AuthContext.tsx:29 | while the guard is set, a burst changes nothing |
| Session.LoginRearmsGuard | src/auth/AuthContext.tsx:93-94 | after a login the next unauthorized event is handled again |
| Access.Guard | src/ProtectedRoute.tsx:11-21 | children render iff authenticated; otherwise a warning and a replacing redirect to "/" that remembers the current location |
| Access.GuardFollowsSession | src/ProtectedRoute.tsx:17-21 | login opens every protected route; logout, a fired timer and a handled unauthorized event close them |
| Access.GuardAfterMount | src/ProtectedRoute.tsx:17-21 | after a mount, routes open exactly for a stored session that is still alive |
| Validation.CheckEmail | src/pages/Login.tsx:34-35 | the one-pass check accepts exactly the addresses `/^\S+@\S+\.\S+$/` accepts |
| Validation.CheckPassword | src/pages/Signup.tsx:38-39 | the one-pass check accepts exactly the passwords of eight or more UTF-16 code units without line terminators, holding a lower-case letter, an upper-case letter and a digit |
| Validation.EmailExamples | src/pages/Login.tsx:34 | "a@b.c" passes; a missing local part, domain or suffix, or an inner space, fails |
| Validation.PasswordExamples | src/pages/Signup.tsx:38 | "Abcdefg1" passes; missing an upper-case letter or one character short fails; three letters and digits plus three characters beyond the Basic Multilingual Plane pass, as nine code units |
| LoginPage.RefusalText | src/pages/Login.tsx:55-62 | a 401 reads as bad credentials; other refusals show the server's message or "Login failed" |
| LoginPage.Authenticate | src/pages/Login.tsx:26-76 | a request is made iff both fields are filled and the e-mail is well formed; a success logs in without an e-mail and navigates with replace to `from` or /home; anything else leaves the session alone with one non-success toast |
| LoginPage.RedirectIfSignedIn | src/pages/Login.tsx:19-24 | a signed-in visitor is sent on at once, with replace, to the same destination |
| LoginPage.SuccessOpensRoutes | src/pages/Login.tsx:64-70 | after a successful login every protected route opens, and the page's own redirect agrees with the navigation it made |
| LoginPage.OneToastPerPress | src/pages/Login.tsx:26-76 | every press gives exactly one toast |
| SignupPage.Register | src/pages/Signup.tsx:25-77 | a request is made iff every check passes; checks run in the order emptiness, e-mail, password and the first failure is reported; only an ok reply clears the form |
| SignupPage.RegisterTwice | src/pages/Signup.tsx:67-71 | pressing again right after a success sends nothing |
| SignupPage.RedirectIfSignedIn | src/pages/Signup.tsx:13-17 | a signed-in visitor is sent home |
| Dates.KeyOrderIsCalendarOrder | src/components/TheaterDetails.tsx:115 | for four-digit years, string order on day keys is exactly calendar order, and equal keys mean equal days |
| Dates.IsoKeyAgrees | src/components/MovieDetail.tsx:140 | for four-digit years the ISO day key equals the local-style key |
| Dates.SortKeys | src/components/TheaterDetails.tsx:147 | `sort()` yields an ascending permutation of the keys |
| Dates.SortedHeadIsLeast | src/components/TheaterDetails.tsx:147-152 | the first sorted key is no greater than any key |
| Buckets.PutGet | src/components/TheaterDetails.tsx:123 | writing a record key keeps keys unique, reads back the written value and leaves other keys alone |
| TheaterSchedule.LookupMovie | src/components/TheaterDetails.tsx:76-77 | a lookup finds a movie of that id, and finds none exactly when no movie has it |
| TheaterSchedule.AddToBucketTimes | src/components/TheaterDetails.tsx:123-143 | adding a show appends its slot to its own movie's times only, and the day keeps one entry per movie |
| TheaterSchedule.AddNewEntry | src/components/TheaterDetails.tsx:129-138 | a movie met first on a day gets a new entry holding just this slot |
| TheaterSchedule.AddToEntry | src/components/TheaterDetails.tsx:140-143 | a movie already listed gets the slot appended to its entry |
| TheaterSchedule.GroupWellFormed | src/components/TheaterDetails.tsx:123-143 | days are unique and each day lists each movie at most once |
| TheaterSchedule.GroupTimes | src/components/TheaterDetails.tsx:98-145 | the times under a day and movie are exactly that movie's showtimes on that day, in encounter order, skipping unknown movies and past days |
| TheaterSchedule.ScheduleDays | src/components/TheaterDetails.tsx:102-123 | a day is in the schedule iff some showtime of a listed movie, not before today, falls on it |
| TheaterSchedule.ActiveDate | src/components/TheaterDetails.tsx:150-153 | with no days the active day is unchanged; otherwise it is the previous one if still listed, else a listed day |
| TheaterSchedule.ActiveDateIsEarliest | src/components/TheaterDetails.tsx:147-153 | without a usable previous choice the active day is the earliest day present |
| TheaterSchedule.GoNext | src/components/TheaterDetails.tsx:169-173 | next moves the window iff a later day is hidden |
| TheaterSchedule.GoPrev | src/components/TheaterDetails.tsx:175-179 | prev moves the window iff an earlier day is hidden |
| TheaterSchedule.Visible | src/components/TheaterDetails.tsx:167 | the slider shows three consecutive days from the window start, or all days when fewer |
| TheaterSchedule.WindowPreserved | src/components/TheaterDetails.tsx:165-179 | both buttons keep 0 ≤ start ≤ max(0, n − 3) |
| TheaterSchedule.EveryDateReachable | src/components/TheaterDetails.tsx:165-179 | every day can be brought into view by a valid window |
| TheaterSchedule.OneCardBookable | src/components/TheaterDetails.tsx:324-328 | on any day at most one movie card has Book Now enabled |
| TheaterSchedule.Proceed | src/components/TheaterDetails.tsx:366-377 | Proceed opens the chosen show's seat page with a party of 1..10 and this page as `from` |
| TheaterSchedule.ProceedArrival | src/components/TheaterDetails.tsx:366-377 | the seat page reading that hand-off asks for exactly the chosen party and its back arrow returns here |
| TheaterSchedule.LoadSchedule | src/components/TheaterDetails.tsx:49-163 | nothing is fetched without a token and a theater id; a failure toasts once and leaves the schedule empty; otherwise the schedule is the grouping of every showtime and the active day is chosen as above |
| MovieSchedule.AddSlot | src/features/movies/MovieDetail.tsx:152-162 | a slot is pushed iff its show is not yet listed that day |
| MovieSchedule.EntriesComplete | src/features/movies/MovieDetail.tsx:132-146 | every showtime of this movie, not before today, contributes its day and slot |
| MovieSchedule.Origin | src/features/movies/MovieDetail.tsx:132-146 | every contribution comes from a showtime of this movie not before today, so other movies and past days contribute nothing |
| MovieSchedule.GroupWellFormed | src/features/movies/MovieDetail.tsx:148-162 | days are unique and each day lists each show once |
| MovieSchedule.GroupDays | src/features/movies/MovieDetail.tsx:148-150 | a day is listed iff some contribution falls on it |
| MovieSchedule.GroupShows | src/features/movies/MovieDetail.tsx:152-162 | a show is listed under a day iff one of its contributions falls on that day |
| MovieSchedule.GroupSlotsSound | src/features/movies/MovieDetail.tsx:157-161 | every listed slot is one of its day's contributions, with that contribution's time |
| MovieSchedule.Earliest | src/features/movies/MovieDetail.tsx:171-176 | the preselected day is the least key in string order (calendar order for four-digit years, see Dates.KeyOrderIsCalendarOrder), or none exactly when there are no keys |
| MovieSchedule.Apply | src/features/movies/MovieDetail.tsx:186-196 | the modal opens only on Book Now with a loaded movie and a theater, day and time chosen, and otherwise Book Now warns; the chosen show changes only when a time is picked (or when the correction clears it) |
| MovieSchedule.MovieFailureRedirects | src/features/movies/MovieDetail.tsx:80-86 | a failed movie fetch toasts once; only this variant also navigates home |
| MovieSchedule.ArrivalPicksEarliest | src/components/MovieDetail.tsx:166-171 | a showtimes reply preselects the earliest listed day, or none when there are no days |
| MovieSchedule.ReachPickedAtFirst | src/features/movies/MovieDetail.tsx:73-78 | the page reaches "theater one, its only day, show s1 chosen" through events it can deliver |
| MovieSchedule.StaleShowAfterTheaterSwitch | src/features/movies/MovieDetail.tsx:284-288 | as written, after switching theater Book Now opens and Proceed goes to the first theater's show, which is not listed at the second theater |
| MovieSchedule.StaleShowAfterDayChange | src/features/movies/MovieDetail.tsx:252 | as written, picking another day keeps the previous day's show chosen |
| MovieSchedule.TheaterSwitchClearsTime | src/features/movies/MovieDetail.tsx:93-99 | with the choice cleared on a theater change, Book Now refuses until a time of the new theater is picked |
| MovieSchedule.StepKeepsCoherent | src/features/movies/MovieDetail.tsx:284-288 | with the correction, every deliverable event keeps the chosen show among the chosen day's slots |
| MovieSchedule.BookedShowIsOnScreen | src/features/movies/MovieDetail.tsx:382-386 | with the correction, whenever Book Now opens, Proceed goes to a show listed on the chosen day |
| MovieSchedule.ProceedArrival | src/features/movies/MovieDetail.tsx:382-386 | Proceed opens the chosen show's seat page for the chosen party, and its back arrow goes back in history |
| Orders.InsertNewest | src/pages/MyTicket.tsx:31 | inserting into a newest-first list keeps it newest first and adds exactly that order |
| Orders.SortNewest | src/pages/MyTicket.tsx:31 | the sort yields a newest-first permutation of the orders |
| Orders.NewestComesFirst | src/features/booking/PaymentSuccess.tsx:56-58 | the first sorted order is one of the orders and none is newer |
| Orders.TabsPartition | src/pages/MyTicket.tsx:48-50 | an order is upcoming iff listed, not pending and starting after now; in history iff listed, not pending and started; so no order is in both and pending ones in neither |
| Orders.TabsCover | src/pages/MyTicket.tsx:48-50 | counted with multiplicity, the two tabs together hold exactly the non-pending orders |
| Orders.FilterKeepsNewestFirst | src/pages/MyTicket.tsx:48-50 | filtering a newest-first list keeps it newest first |
| Orders.TabsNewestFirst | src/pages/MyTicket.tsx:48-50 | both tabs of the sorted list are newest first |
| Orders.LoadTickets | src/pages/MyTicket.tsx:15-44 | without a token nothing is requested and loading never ends; a listed reply is shown sorted with no toast; either failure shows its own toast and an empty list |
| Orders.NoNoticeWithoutToken | src/pages/MyTicket.tsx:76-83 | without a token neither "no tickets" notice ever appears |
| Payment.RecentOrder | src/features/booking/PaymentSuccess.tsx:53-66 | a found order is one of the orders, the newest, and under five minutes old |
| Payment.RecentOrderNoneIff | src/features/booking/PaymentSuccess.tsx:58-66 | the fallback finds nothing exactly when every order is at least five minutes old |
| Payment.Fallback | src/features/booking/PaymentSuccess.tsx:45-74 | the fallback asks for orders iff a token is stored and succeeds iff the orders reply holds a recent order, whose id it then takes; otherwise the failure message and toast |
| Payment.Verify | src/features/booking/PaymentSuccess.tsx:21-81 | without a session id: the error, no request, no toast; a verified payment takes the reply's order id; a failed verification runs the fallback; loading always ends |
| Payment.Render | src/features/booking/PaymentSuccess.tsx:84-135 | the spinner shows while loading, the error card when there is an error, and View Ticket is enabled iff the order id is truthy |
| Payment.ConfirmedIff | src/features/booking/PaymentSuccess.tsx:21-135 | the error card shows exactly when there is no session id, or verification failed and no recent order was available; a viewed ticket is the verified one or a recent order |
| Payment.OneToastOnceRequested | src/features/booking/PaymentSuccess.tsx:34-74 | with a session id exactly one toast follows, an error toast exactly when the payment is unconfirmed |
| TicketView.FindOrder | src/features/booking/Ticket.tsx:47-49 | a found order is listed and has the id; nothing is found exactly when no order has it |
| TicketView.Resolve | src/features/booking/Ticket.tsx:25-63 | a handed-in order is used without a request; no route id settles with nothing; otherwise the list is fetched and the order found, or "Order not found", or the failure message with its toast |
| TicketView.JoinCommas | src/features/booking/Ticket.tsx:120 | joining comma-free parts with ", " puts exactly one comma between neighbours |
| TicketView.SeatLabels | src/features/booking/Ticket.tsx:120 | one label row ++ column per seat, in order |
| TicketView.SeatTextMatchesCount | src/features/booking/Ticket.tsx:120-121 | with comma-free rows, the seat text lists as many entries as the ticket count says |
| TicketView.ShortId | src/features/booking/Ticket.tsx:144 | the shown id is a prefix of the id: its first eight characters, or the whole id when it is shorter |
| TicketView.PdfName | src/features/booking/Ticket.tsx:89 | the file name wraps the shown id in "CinemaS-Ticket-" and ".pdf" |
| TicketView.OrderTagIsUpperShortId | src/features/booking/Ticket.tsx:197 | the PDF tag is the upper-cased shown id |
| TicketView.Render | src/features/booking/Ticket.tsx:97-125 | the spinner shows iff loading; an error or a missing order shows "not found" with "Invalid Ticket ID" by default; a pending order gets the pending card; a ticket card counts the order's seats |
| TicketView.TabsShowTicketCards | src/pages/MyTicket.tsx:77-85 | every order listed on either tab renders as a full ticket card |
| Search.SearchKeepsExactly | src/pages/Home.tsx:95-101 | an item is listed iff its lower-cased name contains the lower-cased query |
| Search.SearchKeepsOrder | src/pages/Home.tsx:95-101 | results come in list order: searching a concatenation searches each part |
| Search.EmptyQueryKeepsAll | src/features/home/Home.tsx:20-26 | an empty query lists everything |
| Search.QueryCaseIrrelevant | src/features/home/Home.tsx:20-26 | an upper-cased or lower-cased query gives the same list |
| Search.Includes | src/pages/Home.tsx:96 | the scan answers exactly whether the needle occurs in the text |
| Search.InitialTab | src/pages/Home.tsx:16 | the initial tab is the truthy `activeTab`, else "movie" |
| Search.HomeLoad | src/pages/Home.tsx:22-89 | lists are requested iff a token is stored; each list is the reply's or empty; one error toast per failed list, and a theaters body whose data is not an array counts as failed |
| Search.HomeView | src/features/home/Home.tsx:20-36 | a loader until both lists have loaded; then both lists narrowed to the matching items |
| Graphics.Index | src/components/CinemaGraphics.tsx:109-111 | the index is below 5: \|n\| mod 5 for a number, the code sum mod 5 for a string |
| Graphics.TextIsItsCodeSum | src/components/CinemaGraphics.tsx:109 | a string id picks the same artwork as the number its codes add up to |
| Graphics.NegationInvariant | src/components/CinemaGraphics.tsx:110 | n and −n pick the same artwork |
| Graphics.PermutationInvariant | src/components/CinemaGraphics.tsx:109-110 | two ids with the same characters in any order pick the same artwork |

## Left out

- Network, storage and routing are not executed. Replies, stored values,
  the clock and the current location are parameters. Navigation and toasts
  are effect values.
- Locale and time zone formatting (`toLocaleDateString`,
  `toLocaleTimeString`, `toISOString`) are left out. A showtime carries its
  local and UTC day as year, month and day, plus its rendered time string,
  as inputs.
- `JSON.parse` of a string layout is left out, because it is a library call.
  The layout arrives parsed.
- PDF export, the canvas capture and the random barcode of the ticket page
  are left out: they are rendering only.
- The 3-D not-found scene and the loader animation are left out, as are the
  purely presentational components and the SVG artwork bodies.
- The HSL colour hash `getCategoryStyle` is left out: it is cosmetic.
- The theater-name fetch of the theater page
  (src/components/TheaterDetails.tsx:55-67) is not modelled as a separate
  request. It runs inside the same `try` as the schedule fetches, so its
  failure is one of the ways to get the `Failed` reply of
  `TheaterSchedule.LoadSchedule`. When it succeeds, it changes the theater
  name, which is a dependency of the effect (line 163), so the effect runs a
  second time. That second load is not modelled: it fetches the same schedule
  again.
- `Promise.all` ordering and races between concurrent requests are left
  out. Showtimes are taken in screen order, as the loops visit them.
- The double logout when the timer delay is already ≤ 0 at arming time is
  left out: the model fires once per observation.
- The relative order of the two home-page toasts is left out, because it
  depends on network timing.
- The hooks behind the second home page are left out. They are taken as
  loading flags plus lists.
- Checkout.ServiceCharge: computed over exact rationals, not IEEE doubles.
  A few subtotals, where `total * 0.06` lands just below a half, may round
  differently in the browser.
- Common.ParseNat: handles decimal digits only. `Number` also accepts signs,
  exponents, hex and surrounding white space.
- Common.Lower and Common.Upper: fold ASCII letters only.
  `toLowerCase`/`toUpperCase` also fold other scripts.
- Graphics.Index: characters are Unicode scalar values. For characters
  outside the Basic Multilingual Plane, `charCodeAt` over `split('')` sums
  two surrogate codes instead.
- Graphics.Index: numeric ids are integers. A fractional or NaN id, for
  which `Math.abs(id) % 5` is not an index into the five artworks, is not
  modelled.
- TicketView.ShortId: order ids are taken as ASCII. `slice(0, 8)` counts
  UTF-16 code units, so an id with characters beyond the Basic Multilingual
  Plane could be cut differently. The same holds for
  TicketView.OrderTagIsUpperShortId.
- MovieSchedule.Earliest: orders day keys as strings, while the page sorts
  them with a `Date` comparator. The two agree for four-digit years
  (Dates.KeyOrderIsCalendarOrder), not beyond.
- Dates.KeyOrderIsCalendarOrder: assumes four-digit years. Keys for other
  years are still built, but their string order is not claimed to be
  calendar order.
- Orders.SortNewest: proved to be a newest-first permutation. Which of two
  orders with the same `createdAt` comes first is not stated. A `createdAt`
  that parses to NaN is not modelled, because timestamps are integers.
- Payment.Verify: an OK reply whose body cannot be read counts as a failed
  verification, as in the source. Such a reply is merged into `VerifyFailed`.
- TicketView.TabsShowTicketCards: "My Tickets" renders each order with
  src/components/Ticket.tsx, which is not part of this model. The lemma
  assumes that component renders a handed-in order the way
  src/features/booking/Ticket.tsx does.
- TicketView.Resolve: the page fetches the order list even when no token is
  stored. The model does not separate that reply from any other, so a missing
  token is simply one more way to get one of the three replies.

## Findings

| source | as written | input that shows it | evidently intended | confidence | as-written member | corrected member |
|---|---|---|---|---|---|---|
| src/features/movies/MovieDetail.tsx:284-288 | switching theater (and, at line 252, picking another day) keeps the chosen time and show id; `findDateTime` clears only the days and the chosen day (lines 93-99), so Book Now opens and Proceed (lines 382-386) books a show from the previous theater or day. The routed variant does the same at src/components/MovieDetail.tsx:268-272. | choose show s1 at 10:00 at theater one, switch to theater two (one day, show s2), press Book Now and Proceed: the seat page opens for s1 | a theater or day change clears the chosen time and show, so Book Now only opens for a show listed on screen | medium, not executed | MovieSchedule.StaleShowAfterTheaterSwitch | MovieSchedule.StepKeepsCoherent |

=== FILE: access.dfy ===
/** The route guard (src/ProtectedRoute.tsx): protected pages render only for
    an authenticated session; anyone else is warned and sent to the landing
    page, remembering where they came from. */
module Access {
  import opened Common
  import opened Types
  import opened Session

  const LoginRequiredText: string := "Please login to access this page"

  datatype Guarded =
    | Children
    | Redirect(effects: seq<Effect>, from: string)

  /** Rendering a protected route at `location`. */
  function Guard(authenticated: bool, location: string): (r: Guarded)
    ensures r.Children? <==> authenticated
    ensures r.Redirect? ==> r.from == location
    ensures r.Redirect? ==> r.effects == [Toast(Warning, LoginRequiredText), Navigate("/", true)]
  {
    if authenticated then Children
    else Redirect([Toast(Warning, LoginRequiredText), Navigate("/", true)], location)
  }

  /** Logging in opens every protected route; logging out, an expired timer or
      a handled unauthorized reply closes them all again. */
  lemma GuardFollowsSession(s: State, token: string, expireAt: nat, email: Option<string>, nowMs: nat, location: string)
    ensures Guard(Login(s, token, expireAt, email).authenticated, location).Children?
    ensures Guard(Logout(s).s.authenticated, location).Redirect?
    ensures Tick(s, nowMs).effects != [] ==> Guard(Tick(s, nowMs).s.authenticated, location).Redirect?
    ensures !s.handling ==> Guard(Unauthorized(s).s.authenticated, location).Redirect?
  {
  }

  /** A mount restores access exactly for a stored session that is alive. */
  lemma GuardAfterMount(storage: Storage, nowMs: nat, location: string)
    ensures Guard(Init(storage, nowMs).authenticated, location).Children? <==>
              Truthy(Get(storage, TokenKey)) && Truthy(Get(storage, ExpireKey))
              && AliveAt(ParseNat(storage[ExpireKey]), nowMs)
  {
  }
}

=== FILE: buckets.dfy ===
/** Date buckets as the schedule pages keep them: a JavaScript object from
    date key to a list, whose keys keep their insertion order. Modelled as an
    association list with unique keys. */
module Buckets {
  import opened Common

  type Buckets<T> = seq<(string, seq<T>)>

  predicate KeysUnique<T>(b: Buckets<T>) {
    forall i, j :: 0 <= i < j < |b| ==> b[i].0 != b[j].0
  }

  /** `Object.keys(b)`. */
  function Keys<T>(b: Buckets<T>): (r: seq<string>)
    ensures |r| == |b| && forall i :: 0 <= i < |b| ==> r[i] == b[i].0
  {
    seq(|b|, i requires 0 <= i < |b| => b[i].0)
  }

  function Find<T>(b: Buckets<T>, key: string): Option<nat> {
    IndexWhere(b, (e: (string, seq<T>)) => e.0 == key)
  }

  /** With unique keys, the entry holding a key is the one found. */
  lemma FindAt<T>(b: Buckets<T>, key: string, i: nat)
    requires KeysUnique(b) && i < |b| && b[i].0 == key
    ensures Find(b, key) == Some(i)
  {
    var p := (e: (string, seq<T>)) => e.0 == key;
    assert p(b[i]);
    IndexWhereIs(b, p, i);
  }

  /** `b[key] || []`. */
  function Get<T>(b: Buckets<T>, key: string): seq<T> {
    match Find(b, key)
    case None => []
    case Some(i) => b[i].1
  }

  /** Whether `b[key]` is set. */
  predicate Has<T>(b: Buckets<T>, key: string) {
    key in Keys(b)
  }

  lemma FindNone<T>(b: Buckets<T>, key: string)
    ensures Find(b, key).None? <==> !Has(b, key)
  {
    var p := (e: (string, seq<T>)) => e.0 == key;
    if Has(b, key) {
      var i :| 0 <= i < |b| && Keys(b)[i] == key;
      assert p(b[i]);
    }
  }

  /** `b[key] = v`: overwrite in place, or append a new key at the end. */
  function Put<T>(b: Buckets<T>, key: string, v: seq<T>): Buckets<T> {
    match Find(b, key)
    case None => b + [(key, v)]
    case Some(i) => b[i := (key, v)]
  }

  /** Writing one key leaves every other key's list alone, keeps keys unique
      and adds exactly that key. */
  lemma PutGet<T>(b: Buckets<T>, key: string, v: seq<T>, k: string)
    requires KeysUnique(b)
    ensures KeysUnique(Put(b, key, v))
    ensures Get(Put(b, key, v), k) == if k == key then v else Get(b, k)
    ensures Has(Put(b, key, v), k) <==> k == key || Has(b, k)
  {
    FindNone(b, key);
    match Find(b, key)
    case None => PutAppends(b, key, v, k);
    case Some(i) => PutReplaces(b, key, v, k, i);
  }

  /** A new key is appended at the end. */
  lemma PutAppends<T>(b: Buckets<T>, key: string, v: seq<T>, k: string)
    requires KeysUnique(b) && !Has(b, key)
    ensures Put(b, key, v) == b + [(key, v)]
    ensures KeysUnique(Put(b, key, v))
    ensures Get(Put(b, key, v), k) == if k == key then v else Get(b, k)
    ensures Has(Put(b, key, v), k) <==> k == key || Has(b, k)
  {
    FindNone(b, key);
    var r := b + [(key, v)];
    assert forall i :: 0 <= i < |b| ==> b[i].0 != key by {
      forall i | 0 <= i < |b| ensures b[i].0 != key {
        assert Keys(b)[i] == b[i].0;
      }
    }
    assert r[|b|].0 == key;
    FindNone(b, k);
    if k == key {
      FindAt(r, k, |b|);
    } else if Has(b, k) {
      var i := Find(b, k).value;
      FindAt(b, k, i);
      FindAt(r, k, i);
    } else {
      FindNone(r, k);
      assert Keys(r) == Keys(b) + [key];
    }
  }

  /** An existing key is overwritten in place. */
  lemma PutReplaces<T>(b: Buckets<T>, key: string, v: seq<T>, k: string, i: nat)
    requires KeysUnique(b) && Find(b, key) == Some(i)
    ensures Put(b, key, v) == b[i := (key, v)]
    ensures KeysUnique(Put(b, key, v))
    ensures Get(Put(b, key, v), k) == if k == key then v else Get(b, k)
    ensures Has(Put(b, key, v), k) <==> k == key || Has(b, k)
  {
    var r := b[i := (key, v)];
    assert b[i].0 == key;
    assert forall j :: 0 <= j < |b| ==> r[j].0 == b[j].0;
    assert Keys(r) == Keys(b);
    FindNone(b, k);
    if k == key {
      FindAt(r, k, i);
      assert Keys(b)[i] == key;
    } else if Has(b, k) {
      var j := Find(b, k).value;
      FindAt(b, k, j);
      FindAt(r, k, j);
    } else {
      FindNone(r, k);
    }
  }
}

=== FILE: checkout.dfy ===
/** The booking summary page (src/pages/BookingDetails.tsx): it reads the
    hand-off state the seat page navigated with, adds a 6% service charge,
    guards against a missing session, and starts payment by creating an order
    whose seats are split back into row and column. */
module Checkout {
  import opened Common
  import opened Types

  /** `location.state` as the summary page reads it; every field may be absent. */
  datatype Handoff = Handoff(
    totalPrice: Option<int>,
    bookedSeats: Option<seq<SelectedSeat>>,
    movieName: Option<string>,
    time: Option<string>,
    date: Option<string>,
    showId: Option<string>,
    from: Option<string>)

  // ---------------------------------------------------------------------
  // Amounts
  // ---------------------------------------------------------------------

  const ServicePercent: int := 6

  /** `state?.totalPrice || 0`: an absent total (or a zero one) reads as 0. */
  function Subtotal(state: Option<Handoff>): int {
    if state.Some? && state.value.totalPrice.Some? then state.value.totalPrice.value else 0
  }

  /** `Math.round(total * (6 / 100))` over exact rationals: the integer nearest
      to 6% of the total, ties rounded up as `Math.round` does. */
  function ServiceCharge(total: int): (r: int)
    ensures 100 * r - 50 <= ServicePercent * total < 100 * r + 50
  {
    (ServicePercent * total + 50) / 100
  }

  /** The rounding bounds above pin the charge down: no other integer is
      within half a unit of 6% of the total (ties go up). */
  lemma ServiceChargeUnique(total: int, c: int)
    requires 100 * c - 50 <= ServicePercent * total < 100 * c + 50
    ensures c == ServiceCharge(total)
  {
    var r := ServiceCharge(total);
    assert 100 * r - 50 <= ServicePercent * total < 100 * r + 50;
  }

  /** The amount the proceed button shows and charges. */
  function FinalTotal(total: int): (r: int)
    ensures 100 * (r - total) - 50 <= ServicePercent * total < 100 * (r - total) + 50
  {
    total + ServiceCharge(total)
  }

  /** A non-negative subtotal never gets cheaper, and the surcharge never
      exceeds 6% by more than half a unit. */
  lemma FinalTotalBounds(total: int)
    requires 0 <= total
    ensures total <= FinalTotal(total)
    ensures 100 * FinalTotal(total) <= 106 * total + 50
  {
  }

  /** The worked example: a subtotal of 400 carries a charge of 24, 424 in all. */
  lemma FourHundredExample()
    ensures ServiceCharge(400) == 24 && FinalTotal(400) == 424
  {
    ServiceChargeUnique(400, 24);
  }

  /** `state?.bookedSeats || []`. */
  function SeatsOf(state: Option<Handoff>): seq<SelectedSeat> {
    if state.Some? && state.value.bookedSeats.Some? then state.value.bookedSeats.value else []
  }

  /** `state?.movieName || 'Unknown Movie'`. */
  function MovieNameOf(state: Option<Handoff>): string {
    OrElse(if state.Some? then state.value.movieName else None, "Unknown Movie")
  }

  // ---------------------------------------------------------------------
  // Session guard
  // ---------------------------------------------------------------------

  /** The page is usable only with a state object carrying a truthy show id. */
  predicate SessionValid(state: Option<Handoff>) {
    state.Some? && Truthy(state.value.showId)
  }

  const InvalidSessionText: string := "Invalid booking session. Please select seats again."

  datatype Opened = Opened(effects: seq<Effect>, renders: bool)

  /** Mounting the page: an invalid session is reported once and sent home,
      and nothing is rendered for it. */
  function Open(state: Option<Handoff>): (r: Opened)
    ensures r.renders <==> SessionValid(state)
    ensures r.renders <==> r.effects == []
    ensures !r.renders ==> CountToasts(r.effects, Error) == 1 && CountNavigations(r.effects, "/home") == 1
  {
    if SessionValid(state) then Opened([], true)
    else
      var effects := [Toast(Error, InvalidSessionText), Navigate("/home", false)];
      CountsConcat([effects[0]], [effects[1]], Error, "/home");
      CountsSingle(effects[0], Error, "/home");
      CountsSingle(effects[1], Error, "/home");
      Opened(effects, false)
  }

  /** Cancel: back to the page named in `from`, otherwise one step back. */
  function Cancel(state: Option<Handoff>): (r: Effect)
    ensures r.Navigate? <==> state.Some? && Truthy(state.value.from)
    ensures r.Navigate? ==> r.path == state.value.from.value && !r.replace
    ensures !r.Navigate? ==> r == NavigateBack
  {
    if state.Some? && Truthy(state.value.from) then Navigate(state.value.from.value, false) else NavigateBack
  }

  // ---------------------------------------------------------------------
  // Order payload
  // ---------------------------------------------------------------------

  /** A seat as the order request carries it. `column` is `Number(...)` of the
      label's tail, None standing for NaN. */
  datatype PayloadSeat = PayloadSeat(row: string, column: Option<nat>, layoutType: string)

  datatype Payload = Payload(showtimeId: Option<string>, seats: seq<PayloadSeat>)

  /** `s.seat.charAt(0)` and `Number(s.seat.slice(1))`. */
  function EncodeSeat(s: SelectedSeat): (r: PayloadSeat)
    ensures |r.row| <= 1 && r.row <= s.seat
    ensures |r.row| == if |s.seat| == 0 then 0 else 1
    ensures r.column == if |s.seat| == 0 then Some(0) else ParseNat(s.seat[1..])
    ensures r.layoutType == s.layoutType
  {
    if |s.seat| == 0 then PayloadSeat("", Some(0), s.layoutType)
    else PayloadSeat(s.seat[..1], ParseNat(s.seat[1..]), s.layoutType)
  }

  /** Splitting a grid label gives back its row and column, so the label the
      server later books for this seat is the one that was selected. */
  lemma EncodeSeatRoundTrip(row: char, column: nat, layoutType: string)
    ensures var p := EncodeSeat(SelectedSeat(SeatLabel([row], column), layoutType));
            && p == PayloadSeat([row], Some(column), layoutType)
            && SeatLabel(p.row, p.column.value) == SeatLabel([row], column)
  {
    var tag := SeatLabel([row], column);
    assert tag[..1] == [row];
    assert tag[1..] == NatToString(column);
    ParseNatToString(column);
  }

  function EncodeSeats(seats: seq<SelectedSeat>): (r: seq<PayloadSeat>)
    ensures |r| == |seats| && forall i :: 0 <= i < |seats| ==> r[i] == EncodeSeat(seats[i])
  {
    seq(|seats|, i requires 0 <= i < |seats| => EncodeSeat(seats[i]))
  }

  // ---------------------------------------------------------------------
  // Payment
  // ---------------------------------------------------------------------

  /** What the order request yields: a network or JSON failure, or a reply
      with its `ok` flag, its `paymentUrl` field and whether `new URL` accepts
      that field. */
  datatype OrderReply =
    | Unreachable
    | Reply(ok: bool, paymentUrl: Option<string>, urlParses: bool)

  datatype PaymentOutcome = PaymentOutcome(request: Option<Payload>, effects: seq<Effect>)

  const NotAuthenticatedText: string := "Not authenticated. Please login again."
  const PaymentFailedText: string := "Unable to initiate payment. Please try again."

  /** Whether the reply lets the browser go to the payment provider. */
  predicate Redirects(reply: OrderReply) {
    reply.Reply? && reply.ok && Truthy(reply.paymentUrl) && reply.urlParses
  }

  /** The proceed button. Without a stored token no order is requested; a
      failed request, a non-ok reply, a missing or unparsable payment URL all
      end in the same error toast; otherwise the browser leaves for the payment
      URL. Exactly one effect results either way. */
  function HandlePayment(token: Option<string>, state: Option<Handoff>, reply: OrderReply): (r: PaymentOutcome)
    ensures r.request.Some? <==> Truthy(token)
    ensures r.request.Some? ==> r.request.value.seats == EncodeSeats(SeatsOf(state))
    ensures r.request.Some? ==> r.request.value.showtimeId == (if state.Some? then state.value.showId else None)
    ensures |r.effects| == 1
    ensures !Truthy(token) ==> r.effects[0] == Toast(Error, NotAuthenticatedText)
    ensures r.effects[0].ExternalRedirect? <==> Truthy(token) && Redirects(reply)
    ensures r.effects[0].ExternalRedirect? ==> r.effects[0].url == reply.paymentUrl.value
    ensures Truthy(token) && !Redirects(reply) ==> r.effects[0] == Toast(Error, PaymentFailedText)
  {
    if !Truthy(token) then PaymentOutcome(None, [Toast(Error, NotAuthenticatedText)])
    else
      var payload := Payload(if state.Some? then state.value.showId else None, EncodeSeats(SeatsOf(state)));
      if Redirects(reply) then PaymentOutcome(Some(payload), [ExternalRedirect(reply.paymentUrl.value)])
      else PaymentOutcome(Some(payload), [Toast(Error, PaymentFailedText)])
  }

  /** An order reply without a payment URL leaves the user on the summary
      page: one error toast, no navigation, and the hand-off state (and so the
      selection) untouched for a retry. */
  lemma MissingPaymentUrlStays(token: Option<string>, state: Option<Handoff>, ok: bool, urlParses: bool)
    requires Truthy(token)
    ensures var r := HandlePayment(token, state, Reply(ok, None, urlParses));
            && CountToasts(r.effects, Error) == 1
            && !Navigates(r.effects)
  {
    var r := HandlePayment(token, state, Reply(ok, None, urlParses));
    assert r.effects[..0] == [];
  }
}

=== FILE: common.dfy ===
/** Small shared vocabulary: an Option type, JavaScript-style string helpers
    (decimal rendering and parsing, `padStart`, ASCII `toLowerCase`,
    `includes`) and a first-match search that plays the role of
    `Array.prototype.find` / `findIndex`. */
module Common {

  datatype Option<+T> = None | Some(value: T) {
    function GetOr(default: T): T {
      match this
      case Some(v) => v
      case None => default
    }
  }

  /** JavaScript truthiness of an optional string: absent and "" are falsy. */
  predicate Truthy(s: Option<string>) {
    s.Some? && s.value != ""
  }

  /** `s || fallback` for an optional string. */
  function OrElse(s: Option<string>, fallback: string): string {
    if Truthy(s) then s.value else fallback
  }

  // ---------------------------------------------------------------------
  // Decimal digits
  // ---------------------------------------------------------------------

  predicate IsDigit(c: char) {
    '0' <= c <= '9'
  }

  predicate AllDigits(s: string) {
    forall i :: 0 <= i < |s| ==> IsDigit(s[i])
  }

  function Digit(d: nat): (c: char)
    requires d < 10
    ensures IsDigit(c)
  {
    ('0' as int + d) as char
  }

  function DigitValue(c: char): (d: nat)
    requires IsDigit(c)
    ensures d < 10 && Digit(d) == c
  {
    c as int - '0' as int
  }

  /** `String(n)` for a non-negative integer: shortest decimal rendering. */
  function NatToString(n: nat): (s: string)
    ensures 1 <= |s| && AllDigits(s)
    ensures s[0] == '0' ==> n == 0
    decreases n
  {
    if n < 10 then [Digit(n)] else NatToString(n / 10) + [Digit(n % 10)]
  }

  /** `String(n)` for any integer. */
  function IntToString(n: int): string {
    if n < 0 then "-" + NatToString(-n) else NatToString(n)
  }

  /** Value of a string of decimal digits ("" has value 0, as `Number("")`). */
  function DigitsValue(s: string): nat
    requires AllDigits(s)
  {
    if |s| == 0 then 0 else DigitsValue(s[..|s| - 1]) * 10 + DigitValue(s[|s| - 1])
  }

  /** `Number(s)` restricted to plain decimal notation; None stands for NaN. */
  function ParseNat(s: string): Option<nat> {
    if AllDigits(s) then Some(DigitsValue(s)) else None
  }

  /** Rendering a number and reading it back gives the number. */
  lemma {:induction false} ParseNatToString(n: nat)
    ensures ParseNat(NatToString(n)) == Some(n)
    decreases n
  {
    var s := NatToString(n);
    if n >= 10 {
      ParseNatToString(n / 10);
      assert s[..|s| - 1] == NatToString(n / 10);
      assert s[|s| - 1] == Digit(n % 10);
      assert DigitValue(Digit(n % 10)) == n % 10;
    } else {
      assert s == [Digit(n)];
      assert s[..|s| - 1] == [];
      assert DigitValue(Digit(n)) == n;
      assert AllDigits(s);
      assert DigitsValue(s) == n;
    }
  }

  /** Decimal rendering is injective. */
  lemma NatToStringInjective(a: nat, b: nat)
    requires NatToString(a) == NatToString(b)
    ensures a == b
  {
    ParseNatToString(a);
    ParseNatToString(b);
  }

  // ---------------------------------------------------------------------
  // Padding, case, substrings
  // ---------------------------------------------------------------------

  function Repeat(c: char, n: nat): (r: string)
    ensures |r| == n && forall i :: 0 <= i < n ==> r[i] == c
  {
    seq(n, _ => c)
  }

  /** `s.padStart(width, fill)`. */
  function PadStart(s: string, width: nat, fill: char): (r: string)
    ensures |r| == if |s| >= width then |s| else width
    ensures r[|r| - |s|..] == s
    ensures forall i :: 0 <= i < |r| - |s| ==> r[i] == fill
  {
    if |s| >= width then s else Repeat(fill, width - |s|) + s
  }

  function LowerChar(c: char): char {
    if 'A' <= c <= 'Z' then (c as int + 32) as char else c
  }

  function UpperChar(c: char): char {
    if 'a' <= c <= 'z' then (c as int - 32) as char else c
  }

  /** `s.toLowerCase()` over ASCII letters. */
  function Lower(s: string): (r: string)
    ensures |r| == |s| && forall i :: 0 <= i < |s| ==> r[i] == LowerChar(s[i])
  {
    seq(|s|, i requires 0 <= i < |s| => LowerChar(s[i]))
  }

  /** `s.toUpperCase()` over ASCII letters. */
  function Upper(s: string): (r: string)
    ensures |r| == |s| && forall i :: 0 <= i < |s| ==> r[i] == UpperChar(s[i])
  {
    seq(|s|, i requires 0 <= i < |s| => UpperChar(s[i]))
  }

  /** `s.slice(0, n)` for n >= 0. */
  function Prefix(s: string, n: nat): (r: string)
    ensures |r| == if |s| < n then |s| else n
    ensures r <= s
  {
    if |s| <= n then s else s[..n]
  }

  /** `hay.includes(needle)`. */
  predicate Contains(hay: string, needle: string) {
    exists i :: 0 <= i <= |hay| && OccursAt(hay, needle, i)
  }

  predicate OccursAt(hay: string, needle: string, i: nat) {
    i + |needle| <= |hay| && hay[i..i + |needle|] == needle
  }

  // ---------------------------------------------------------------------
  // First match
  // ---------------------------------------------------------------------

  /** Index of the first element satisfying `p`, as `findIndex`. */
  function IndexWhere<T>(s: seq<T>, p: T -> bool): (r: Option<nat>)
    ensures r.Some? ==> r.value < |s| && p(s[r.value])
    ensures r.Some? ==> forall j :: 0 <= j < r.value ==> !p(s[j])
    ensures r.None? <==> forall j :: 0 <= j < |s| ==> !p(s[j])
  {
    if |s| == 0 then None
    else if p(s[0]) then Some(0)
    else match IndexWhere(s[1..], p)
      case None => None
      case Some(k) => Some(k + 1)
  }

  /** The first match is determined by where `p` holds: an index where it
      holds and nowhere before is the answer. */
  lemma IndexWhereIs<T>(s: seq<T>, p: T -> bool, i: nat)
    requires i < |s| && p(s[i])
    requires forall j :: 0 <= j < i ==> !p(s[j])
    ensures IndexWhere(s, p) == Some(i)
  {
  }

  /** The present lists in order, an absent one counting as empty: the
      `list || []` of each element, concatenated. */
  function Flatten<T>(parts: seq<Option<seq<T>>>): seq<T> {
    if |parts| == 0 then []
    else Flatten(parts[..|parts| - 1]) + parts[|parts| - 1].GetOr([])
  }

  // ---------------------------------------------------------------------
  // Filtering
  // ---------------------------------------------------------------------

  /** `s.filter(p)`: the elements satisfying `p`, in their original order. */
  function Filter<T>(s: seq<T>, p: T -> bool): (r: seq<T>)
    ensures |r| <= |s|
    ensures forall i :: 0 <= i < |r| ==> r[i] in s && p(r[i])
    ensures forall i :: 0 <= i < |s| && p(s[i]) ==> s[i] in r
    decreases |s|
  {
    if |s| == 0 then []
    else
      var n := |s| - 1;
      assert s == s[..n] + [s[n]];
      Filter(s[..n], p) + (if p(s[n]) then [s[n]] else [])
  }

  /** Filtering distributes over concatenation, so it keeps relative order. */
  lemma {:induction false} FilterConcat<T>(a: seq<T>, b: seq<T>, p: T -> bool)
    ensures Filter(a + b, p) == Filter(a, p) + Filter(b, p)
    decreases |b|
  {
    if |b| == 0 {
      assert a + b == a;
    } else {
      var n := |b| - 1;
      assert (a + b)[..|a + b| - 1] == a + b[..n];
      assert (a + b)[|a + b| - 1] == b[n];
      FilterConcat(a, b[..n], p);
    }
  }

  /** When every element passes, nothing is removed. */
  lemma {:induction false} FilterKeepsAll<T>(s: seq<T>, p: T -> bool)
    requires forall i :: 0 <= i < |s| ==> p(s[i])
    ensures Filter(s, p) == s
    decreases |s|
  {
    if |s| > 0 {
      var n := |s| - 1;
      FilterKeepsAll(s[..n], p);
      assert s == s[..n] + [s[n]];
    }
  }

  /** A filter and its complement split the elements between them. */
  lemma {:induction false} FilterSplit<T>(s: seq<T>, p: T -> bool, q: T -> bool)
    requires forall i :: 0 <= i < |s| ==> (q(s[i]) <==> !p(s[i]))
    ensures multiset(Filter(s, p)) + multiset(Filter(s, q)) == multiset(s)
    decreases |s|
  {
    if |s| > 0 {
      var n := |s| - 1;
      FilterSplit(s[..n], p, q);
      assert s == s[..n] + [s[n]];
      assert multiset(s) == multiset(s[..n]) + multiset{s[n]};
    }
  }

  /** Filters whose tests agree on every element give the same result. */
  lemma {:induction false} FilterSame<T>(s: seq<T>, p: T -> bool, q: T -> bool)
    requires forall i :: 0 <= i < |s| ==> (p(s[i]) <==> q(s[i]))
    ensures Filter(s, p) == Filter(s, q)
    decreases |s|
  {
    if |s| > 0 {
      FilterSame(s[..|s| - 1], p, q);
    }
  }

  /** `s.filter(p).map(f)`. */
  function FilterMap<T, U>(s: seq<T>, p: T -> bool, f: T -> U): (r: seq<U>)
    ensures |r| <= |s|
    decreases |s|
  {
    if |s| == 0 then []
    else
      var n := |s| - 1;
      FilterMap(s[..n], p, f) + (if p(s[n]) then [f(s[n])] else [])
  }

  /** Every element passing `p` contributes its image. */
  lemma {:induction false} FilterMapComplete<T, U>(s: seq<T>, p: T -> bool, f: T -> U, i: nat)
    requires i < |s| && p(s[i])
    ensures f(s[i]) in FilterMap(s, p, f)
    decreases |s|
  {
    var n := |s| - 1;
    var all := FilterMap(s, p, f);
    var pre := FilterMap(s[..n], p, f);
    if i < n {
      assert s[..n][i] == s[i];
      FilterMapComplete(s[..n], p, f, i);
      var k :| 0 <= k < |pre| && pre[k] == f(s[i]);
      assert all[k] == pre[k];
    } else {
      assert all[|all| - 1] == f(s[i]);
    }
  }

  /** The element an output comes from: it passes `p` and maps to it. */
  ghost function FilterMapOrigin<T, U>(s: seq<T>, p: T -> bool, f: T -> U, k: nat): (i: nat)
    requires k < |FilterMap(s, p, f)|
    ensures i < |s| && p(s[i]) && FilterMap(s, p, f)[k] == f(s[i])
    decreases |s|
  {
    var n := |s| - 1;
    var pre := FilterMap(s[..n], p, f);
    if k < |pre| then
      var i := FilterMapOrigin(s[..n], p, f, k);
      assert s[..n][i] == s[i];
      i
    else
      n
  }
}

=== FILE: dates.dfy ===
/** Calendar days and their string keys. The schedule pages bucket showtimes
    under `YYYY-MM-DD` keys built from a day's year, month and date, and order
    the buckets by sorting those keys as strings. This module defines the key,
    string order and sorting, and proves that for four-digit years string
    order on keys is calendar order. */
module Dates {
  import opened Common

  /** A calendar day: year, month 1..12, day of month 1..31. */
  datatype Date = Date(year: nat, month: nat, day: nat)

  predicate ValidDate(d: Date) {
    1 <= d.month <= 12 && 1 <= d.day <= 31
  }

  /** Strictly earlier in the calendar (`showDateZeroTime < today`). */
  predicate Before(a: Date, b: Date) {
    a.year < b.year
    || (a.year == b.year && a.month < b.month)
    || (a.year == b.year && a.month == b.month && a.day < b.day)
  }

  /** `String(n).padStart(2, '0')`. */
  function Pad2(n: nat): string {
    PadStart(NatToString(n), 2, '0')
  }

  /** `${getFullYear()}-${pad(month)}-${pad(date)}`: the year is not padded. */
  function DateKey(d: Date): string {
    NatToString(d.year) + "-" + Pad2(d.month) + "-" + Pad2(d.day)
  }

  /** The date part of `toISOString()`: the year is padded to four digits. */
  function IsoKey(d: Date): string {
    PadStart(NatToString(d.year), 4, '0') + "-" + Pad2(d.month) + "-" + Pad2(d.day)
  }

  // ---------------------------------------------------------------------
  // String order
  // ---------------------------------------------------------------------

  /** The default `Array.prototype.sort` comparison: code-unit lexicographic. */
  predicate LexLess(a: string, b: string)
    decreases |a|
  {
    |b| > 0 && (|a| == 0 || a[0] < b[0] || (a[0] == b[0] && LexLess(a[1..], b[1..])))
  }

  predicate LexLeq(a: string, b: string) {
    a == b || LexLess(a, b)
  }

  lemma {:induction false} LexIrreflexive(a: string)
    ensures !LexLess(a, a)
    decreases |a|
  {
    if |a| > 0 {
      LexIrreflexive(a[1..]);
    }
  }

  lemma {:induction false} LexTransitive(a: string, b: string, c: string)
    requires LexLess(a, b) && LexLess(b, c)
    ensures LexLess(a, c)
    decreases |a|
  {
    if |a| > 0 && a[0] == b[0] && b[0] == c[0] {
      LexTransitive(a[1..], b[1..], c[1..]);
    }
  }

  lemma {:induction false} LexTotal(a: string, b: string)
    ensures a == b || LexLess(a, b) || LexLess(b, a)
    decreases |a|
  {
    if |a| > 0 && |b| > 0 && a[0] == b[0] {
      LexTotal(a[1..], b[1..]);
      if a[1..] == b[1..] {
        assert a == [a[0]] + a[1..] && b == [b[0]] + b[1..];
      }
    }
  }

  /** Comparing two concatenations whose first parts have equal length: the
      first parts decide unless they are equal. */
  lemma {:induction false} LexConcat(a1: string, a2: string, b1: string, b2: string)
    requires |a1| == |b1|
    ensures LexLess(a1 + a2, b1 + b2) <==> LexLess(a1, b1) || (a1 == b1 && LexLess(a2, b2))
    decreases |a1|
  {
    if |a1| > 0 {
      assert (a1 + a2)[0] == a1[0] && (b1 + b2)[0] == b1[0];
      assert (a1 + a2)[1..] == a1[1..] + a2 && (b1 + b2)[1..] == b1[1..] + b2;
      LexConcat(a1[1..], a2, b1[1..], b2);
      if a1[0] == b1[0] && a1[1..] == b1[1..] {
        assert a1 == [a1[0]] + a1[1..] && b1 == [b1[0]] + b1[1..];
      }
    } else {
      assert a1 + a2 == a2 && b1 + b2 == b2;
    }
  }

  /** On digit strings of one length, string order is numeric order. */
  lemma {:induction false} LexDigits(s: string, t: string)
    requires |s| == |t| && AllDigits(s) && AllDigits(t)
    ensures LexLess(s, t) <==> DigitsValue(s) < DigitsValue(t)
    ensures s == t <==> DigitsValue(s) == DigitsValue(t)
    decreases |s|
  {
    if |s| > 0 {
      var n := |s| - 1;
      var s', t' := s[..n], t[..n];
      assert AllDigits(s') && AllDigits(t');
      LexDigits(s', t');
      assert s == s' + [s[n]] && t == t' + [t[n]];
      LexConcat(s', [s[n]], t', [t[n]]);
      var x, y := DigitValue(s[n]), DigitValue(t[n]);
      assert LexLess([s[n]], [t[n]]) <==> x < y by {
        assert [s[n]][1..] == [] && [t[n]][1..] == [];
        assert Digit(x) == s[n] && Digit(y) == t[n];
      }
      assert DigitsValue(s) == DigitsValue(s') * 10 + x;
      assert DigitsValue(t) == DigitsValue(t') * 10 + y;
      if s' == t' && x == y {
        assert s[n] == Digit(x) == t[n];
      }
    } else {
      assert s == [] == t;
    }
  }

  // ---------------------------------------------------------------------
  // Key shape
  // ---------------------------------------------------------------------

  /** Leading zeros do not change a digit string's value. */
  lemma {:induction false} ZerosValue(z: nat, s: string)
    requires AllDigits(s)
    ensures AllDigits(Repeat('0', z) + s)
    ensures DigitsValue(Repeat('0', z) + s) == DigitsValue(s)
    decreases |s|
  {
    var p := Repeat('0', z) + s;
    assert AllDigits(p) by {
      forall i | 0 <= i < |p| ensures IsDigit(p[i]) {
        if i < z { assert p[i] == '0'; } else { assert p[i] == s[i - z]; }
      }
    }
    if |s| > 0 {
      var n := |s| - 1;
      assert p[..|p| - 1] == Repeat('0', z) + s[..n];
      assert AllDigits(s[..n]);
      ZerosValue(z, s[..n]);
    } else {
      ZerosValueOfZeros(z);
      assert p == Repeat('0', z);
    }
  }

  lemma {:induction false} ZerosValueOfZeros(z: nat)
    ensures AllDigits(Repeat('0', z)) && DigitsValue(Repeat('0', z)) == 0
    decreases z
  {
    if z > 0 {
      assert Repeat('0', z)[..z - 1] == Repeat('0', z - 1);
      ZerosValueOfZeros(z - 1);
      assert DigitValue('0') == 0;
    }
  }

  /** The length of a decimal rendering, for the ranges keys use. */
  lemma OneDigit(n: nat)
    requires n < 10
    ensures |NatToString(n)| == 1
  {
  }

  lemma TwoDigits(n: nat)
    requires 10 <= n < 100
    ensures |NatToString(n)| == 2
  {
    OneDigit(n / 10);
  }

  lemma ThreeDigits(n: nat)
    requires 100 <= n < 1000
    ensures |NatToString(n)| == 3
  {
    TwoDigits(n / 10);
  }

  lemma FourDigits(n: nat)
    requires 1000 <= n < 10000
    ensures |NatToString(n)| == 4
  {
    ThreeDigits(n / 10);
  }

  /** A padded field is a fixed-width digit string holding the number. */
  lemma PaddedField(n: nat, width: nat)
    requires |NatToString(n)| <= width
    ensures |PadStart(NatToString(n), width, '0')| == width
    ensures AllDigits(PadStart(NatToString(n), width, '0'))
    ensures DigitsValue(PadStart(NatToString(n), width, '0')) == n
  {
    var s := NatToString(n);
    ParseNatToString(n);
    ZerosValue(width - |s|, s);
  }

  /** A four-digit year renders as four digits holding the year. */
  lemma YearField(y: nat)
    requires 1000 <= y < 10000
    ensures |NatToString(y)| == 4 && AllDigits(NatToString(y)) && DigitsValue(NatToString(y)) == y
  {
    FourDigits(y);
    ParseNatToString(y);
  }

  /** A month or day renders, padded, as two digits holding it. */
  lemma SmallField(n: nat)
    requires n < 100
    ensures |Pad2(n)| == 2 && AllDigits(Pad2(n)) && DigitsValue(Pad2(n)) == n
  {
    if n < 10 { OneDigit(n); } else { TwoDigits(n); }
    PaddedField(n, 2);
  }

  /** Two fields of equal width joined to the rest by a dash compare
      field first, then rest; and are equal exactly when both parts are. */
  lemma DashJoin(a: string, ra: string, b: string, rb: string)
    requires |a| == |b|
    ensures LexLess(a + "-" + ra, b + "-" + rb) <==> LexLess(a, b) || (a == b && LexLess(ra, rb))
    ensures a + "-" + ra == b + "-" + rb <==> a == b && ra == rb
  {
    assert a + "-" + ra == a + ("-" + ra);
    assert b + "-" + rb == b + ("-" + rb);
    LexConcat(a, "-" + ra, b, "-" + rb);
    LexConcat("-", ra, "-", rb);
    LexIrreflexive("-");
    if a + "-" + ra == b + "-" + rb {
      assert a == (a + "-" + ra)[..|a|];
      assert ra == (a + "-" + ra)[|a| + 1..];
    }
  }

  /** For four-digit years, sorting keys as strings sorts days by the
      calendar: string order on keys is exactly `Before`, and equal keys mean
      equal days. */
  lemma KeyOrderIsCalendarOrder(a: Date, b: Date)
    requires ValidDate(a) && ValidDate(b)
    requires 1000 <= a.year < 10000 && 1000 <= b.year < 10000
    ensures LexLess(DateKey(a), DateKey(b)) <==> Before(a, b)
    ensures DateKey(a) == DateKey(b) <==> a == b
  {
    YearField(a.year);
    YearField(b.year);
    SmallField(a.month);
    SmallField(b.month);
    SmallField(a.day);
    SmallField(b.day);
    var ya, yb := NatToString(a.year), NatToString(b.year);
    var ma, mb := Pad2(a.month), Pad2(b.month);
    var da, db := Pad2(a.day), Pad2(b.day);
    LexDigits(ya, yb);
    LexDigits(ma, mb);
    LexDigits(da, db);
    assert DateKey(a) == ya + "-" + (ma + "-" + da);
    assert DateKey(b) == yb + "-" + (mb + "-" + db);
    DashJoin(ya, ma + "-" + da, yb, mb + "-" + db);
    DashJoin(ma, da, mb, db);
  }

  /** For four-digit years the two renderings coincide, so both schedule
      variants bucket such days under the same key. */
  lemma IsoKeyAgrees(d: Date)
    requires 1000 <= d.year < 10000
    ensures IsoKey(d) == DateKey(d)
  {
    FourDigits(d.year);
  }

  // ---------------------------------------------------------------------
  // Sorting keys
  // ---------------------------------------------------------------------

  predicate Sorted(s: seq<string>) {
    forall i, j :: 0 <= i < j < |s| ==> LexLeq(s[i], s[j])
  }

  function Insert(x: string, s: seq<string>): (r: seq<string>)
    requires Sorted(s)
    ensures Sorted(r)
    ensures multiset(r) == multiset(s) + multiset{x}
    decreases |s|
  {
    if |s| == 0 then [x]
    else if LexLeq(x, s[0]) then
      InsertFront(x, s);
      [x] + s
    else
      LexTotal(x, s[0]);
      var rest := Insert(x, s[1..]);
      InsertAfter(s[0], rest, x, s[1..]);
      assert s == [s[0]] + s[1..];
      [s[0]] + rest
  }

  lemma InsertFront(x: string, s: seq<string>)
    requires Sorted(s) && |s| > 0 && LexLeq(x, s[0])
    ensures Sorted([x] + s)
  {
    var r := [x] + s;
    forall i, j | 0 <= i < j < |r| ensures LexLeq(r[i], r[j]) {
      if i == 0 && j > 1 && r[j] != s[0] && x != s[0] {
        LexTransitive(x, s[0], r[j]);
      }
    }
  }

  lemma InsertAfter(h: string, rest: seq<string>, x: string, tail: seq<string>)
    requires Sorted(rest) && LexLess(h, x)
    requires forall k :: 0 <= k < |tail| ==> LexLeq(h, tail[k])
    requires multiset(rest) == multiset(tail) + multiset{x}
    ensures Sorted([h] + rest)
  {
    var r := [h] + rest;
    forall j | 0 <= j < |rest| ensures LexLeq(h, rest[j]) {
      assert rest[j] in multiset(rest);
      if rest[j] != x {
        assert rest[j] in multiset(tail);
        var k :| 0 <= k < |tail| && tail[k] == rest[j];
      }
    }
    forall i, j | 0 <= i < j < |r| ensures LexLeq(r[i], r[j]) {
      if i == 0 { assert r[j] == rest[j - 1]; }
    }
  }

  /** `keys.sort()`: an ascending permutation of the keys. */
  function SortKeys(keys: seq<string>): (r: seq<string>)
    ensures Sorted(r)
    ensures multiset(r) == multiset(keys)
    decreases |keys|
  {
    if |keys| == 0 then []
    else
      var n := |keys| - 1;
      assert keys == keys[..n] + [keys[n]];
      Insert(keys[n], SortKeys(keys[..n]))
  }

  /** The first sorted key is no greater than any key. */
  lemma SortedHeadIsLeast(keys: seq<string>)
    requires |keys| > 0
    ensures |SortKeys(keys)| > 0
    ensures forall k :: k in keys ==> LexLeq(SortKeys(keys)[0], k)
  {
    var r := SortKeys(keys);
    assert |r| == |multiset(r)| == |multiset(keys)| == |keys|;
    forall k | k in keys ensures LexLeq(r[0], k) {
      assert k in multiset(keys);
      assert k in multiset(r);
      var j :| 0 <= j < |r| && r[j] == k;
    }
  }
}

=== FILE: gesture.dfy ===
/** The drag-to-paint gesture of the seat page as an explicit machine
    `Idle | Painting(mode)`: the `isDragging` / `dragMode` refs of both
    ScreenPage variants always change together, so one constructor stands for
    the pair (false, null) and the other for (true, mode). */
module Gesture {
  import opened Common
  import opened Types
  import opened Selection

  datatype Drag = Idle | Painting(mode: Mode)

  /** The seat page's interactive state. */
  datatype Page = Page(sel: seq<SelectedSeat>, drag: Drag)

  /** Pointer input: a press on a seat, the pointer entering a seat, and the
      window-wide pointer release. */
  datatype Event = Down(seat: string) | Enter(seat: string) | Up

  /** src/features/booking/ScreenPage.tsx (`stableHandleSeatAction`) or the
      routed src/components/ScreenPage.tsx (`handlePointerDown`). */
  datatype Variant = Features | Routed

  /** The mode a press fixes: deselect a selected seat, select any other. */
  function PressMode(sel: seq<SelectedSeat>, seat: string): Mode {
    if Selected(sel, seat) then Deselect else Select
  }

  function Step(v: Variant, show: Show, p: Page, e: Event): (r: Page)
    ensures e.Up? ==> r == Page(p.sel, Idle)
    ensures e.Enter? && p.drag.Idle? ==> r == p
    ensures e.Down? && (v == Features || e.seat !in show.booked) ==>
              r.drag == Painting(PressMode(p.sel, e.seat))
    ensures e.Down? && (v == Features || e.seat !in show.booked) ==>
              r.sel == Toggle(show, p.sel, e.seat, Some(PressMode(p.sel, e.seat)))
    ensures e.Enter? && p.drag.Painting? ==> r == Page(Toggle(show, p.sel, e.seat, Some(p.drag.mode)), p.drag)
    ensures e.Down? && v == Routed && e.seat in show.booked ==> r == p
    ensures !e.Up? ==> r.drag.Idle? ==> r == p
  {
    match e
    case Down(seat) =>
      if v == Routed && seat in show.booked then p
      else
        var mode := PressMode(p.sel, seat);
        Page(Toggle(show, p.sel, seat, Some(mode)), Painting(mode))
    case Enter(seat) =>
      (match p.drag
       case Idle => p
       case Painting(mode) => Page(Toggle(show, p.sel, seat, Some(mode)), p.drag))
    case Up => Page(p.sel, Idle)
  }

  /** Feed a sequence of pointer events to the page, oldest first. */
  function Run(v: Variant, show: Show, p: Page, events: seq<Event>): Page
    decreases |events|
  {
    if |events| == 0 then p else Run(v, show, Step(v, show, p, events[0]), events[1..])
  }

  /** Under any interleaving of presses, enters and releases the selection
      stays valid: never more seats than the party size, never a booked seat,
      never a duplicate label. */
  lemma {:induction false} RunKeepsValid(v: Variant, show: Show, p: Page, events: seq<Event>)
    requires Valid(show, p.sel)
    ensures Valid(show, Run(v, show, p, events).sel)
    decreases |events|
  {
    if |events| > 0 {
      var e := events[0];
      if e.Down? && !(v == Routed && e.seat in show.booked) {
        ToggleKeepsValid(show, p.sel, e.seat, Some(PressMode(p.sel, e.seat)));
      } else if e.Enter? && p.drag.Painting? {
        ToggleKeepsValid(show, p.sel, e.seat, Some(p.drag.mode));
      }
      RunKeepsValid(v, show, Step(v, show, p, e), events[1..]);
    }
  }

  /** Entering a run of seats while painting in one mode. */
  function Paint(v: Variant, show: Show, p: Page, seats: seq<string>): Page
    decreases |seats|
  {
    if |seats| == 0 then p else Paint(v, show, Step(v, show, p, Enter(seats[0])), seats[1..])
  }

  /** One gesture only adds or only removes: while painting in select mode the
      label set only grows, in deselect mode it only shrinks, and the mode is
      kept throughout. Without a press nothing happens. */
  lemma {:induction false} PaintIsOneWay(v: Variant, show: Show, p: Page, seats: seq<string>)
    ensures Paint(v, show, p, seats).drag == p.drag
    ensures p.drag == Painting(Select) ==> Labels(p.sel) <= Labels(Paint(v, show, p, seats).sel)
    ensures p.drag == Painting(Deselect) ==> Labels(Paint(v, show, p, seats).sel) <= Labels(p.sel)
    ensures p.drag == Idle ==> Paint(v, show, p, seats) == p
    decreases |seats|
  {
    if |seats| > 0 {
      PaintIsOneWay(v, show, Step(v, show, p, Enter(seats[0])), seats[1..]);
    }
  }

  /** A whole gesture (press, enters, release) either only adds labels or only
      removes them, depending on whether the pressed seat was selected, and ends
      idle. */
  lemma GestureIsOneWay(v: Variant, show: Show, p: Page, pressed: string, seats: seq<string>)
    requires v == Features || pressed !in show.booked
    ensures var q := Step(v, show, p, Down(pressed));
            var r := Step(v, show, Paint(v, show, q, seats), Up);
            && r.drag == Idle
            && (!Selected(p.sel, pressed) ==> Labels(p.sel) <= Labels(r.sel))
            && (Selected(p.sel, pressed) ==> Labels(r.sel) <= Labels(p.sel))
  {
    var q := Step(v, show, p, Down(pressed));
    PaintIsOneWay(v, show, q, seats);
  }

  /** The two variants differ only on a press over a booked seat: the routed
      page ignores it completely, the features page still arms a select
      gesture (the reducer then rejects the seat itself). */
  lemma BookedPressDiffers(show: Show, p: Page, seat: string)
    requires seat in show.booked
    ensures Step(Routed, show, p, Down(seat)) == p
    ensures Step(Features, show, p, Down(seat)) == Page(p.sel, Painting(PressMode(p.sel, seat)))
  {
  }

  /** Away from booked seats the two variants agree on every event. */
  lemma VariantsAgree(show: Show, p: Page, e: Event)
    requires !(e.Down? && e.seat in show.booked)
    ensures Step(Routed, show, p, e) == Step(Features, show, p, e)
  {
  }
}

=== FILE: graphics.dfy ===
/** `getCinemaGraphic` (src/components/CinemaGraphics.tsx): the artwork on
    a theater card, chosen from a fixed list of five by the theater's id. */
module Graphics {

  datatype Graphic = Skyline1 | Skyline2 | CinemaFacade | CityNetwork | ModernBuilding

  /** The artwork list, in its fixed order. */
  const Artwork: seq<Graphic> := [Skyline1, Skyline2, CinemaFacade, CityNetwork, ModernBuilding]

  /** A theater id is a number or a string. */
  datatype Id = Num(n: int) | Text(s: string)

  /** The sum of the character codes, as the `reduce` over `split('')`. */
  function CodeSum(s: string): nat
    decreases |s|
  {
    if |s| == 0 then 0 else CodeSum(s[..|s| - 1]) + s[|s| - 1] as nat
  }

  function Abs(n: int): nat {
    if n < 0 then -n else n
  }

  /** The position in the list an id selects. */
  function Index(id: Id): (i: nat)
    ensures i < |Artwork|
    ensures id.Num? ==> i == Abs(id.n) % 5
    ensures id.Text? ==> i == CodeSum(id.s) % 5
  {
    match id
    case Num(n) => Abs(n) % |Artwork|
    case Text(s) => CodeSum(s) % |Artwork|
  }

  function GraphicFor(id: Id): Graphic {
    Artwork[Index(id)]
  }

  /** A string id picks the same artwork as the number its codes add up to. */
  lemma TextIsItsCodeSum(s: string)
    ensures GraphicFor(Text(s)) == GraphicFor(Num(CodeSum(s)))
  {
  }

  /** An id and its negation pick the same artwork. */
  lemma NegationInvariant(n: int)
    ensures GraphicFor(Num(-n)) == GraphicFor(Num(n))
  {
  }

  /** Removing one character takes exactly its code off the sum. */
  lemma {:induction false} CodeSumRemove(s: string, k: nat)
    requires k < |s|
    ensures CodeSum(s) == CodeSum(s[..k] + s[k + 1..]) + s[k] as nat
    decreases |s|
  {
    var n := |s| - 1;
    if k < n {
      var t := s[..k] + s[k + 1..];
      assert t[..|t| - 1] == s[..n][..k] + s[..n][k + 1..];
      assert t[|t| - 1] == s[n];
      CodeSumRemove(s[..n], k);
    } else {
      assert s[..k] + s[k + 1..] == s[..n];
    }
  }

  /** Ids spelled with the same characters in any order pick the same
      artwork: the code sum depends only on the multiset of characters. */
  lemma {:induction false} PermutationInvariant(a: string, b: string)
    requires multiset(a) == multiset(b)
    ensures CodeSum(a) == CodeSum(b)
    ensures GraphicFor(Text(a)) == GraphicFor(Text(b))
    decreases |a|
  {
    if |a| > 0 {
      var n := |a| - 1;
      var c := a[n];
      assert a == a[..n] + [c];
      assert c in multiset(b);
      var k :| 0 <= k < |b| && b[k] == c;
      var rest := b[..k] + b[k + 1..];
      assert b == b[..k] + [c] + b[k + 1..];
      assert multiset(rest) == multiset(b) - multiset{c};
      assert multiset(a[..n]) == multiset(a) - multiset{c};
      PermutationInvariant(a[..n], rest);
      CodeSumRemove(b, k);
    } else {
      assert |multiset(b)| == 0;
    }
  }
}

=== FILE: login_page.dfy ===
/** The login page (src/pages/Login.tsx): validate, post the credentials,
    store the returned session and go back to where the visitor came from. */
module LoginPage {
  import opened Common
  import opened Types
  import opened Validation
  import opened Session
  import opened Access

  const MissingFieldsText: string := "Please enter email and password"
  const BadEmailText: string := "Please enter a valid email address"
  const BadCredentialsText: string := "Invalid email or password"
  const LoginFailedText: string := "Login failed"
  const NetworkText: string := "Something went wrong. Try again."
  const WelcomeText: string := "Login Successful!"

  /** The login reply: unreachable (network or JSON failure), a refusal with
      its status and optional message, or success whose `data` field may be
      missing (destructuring it then throws). */
  datatype LoginReply =
    | Unreachable
    | Refused(status: int, message: Option<string>)
    | Accepted(data: Option<(string, nat)>)

  datatype Submitted = Submitted(session: State, requested: bool, effects: seq<Effect>)

  /** `location.state?.from?.pathname || "/home"`. */
  function Destination(from: Option<string>): string {
    OrElse(from, "/home")
  }

  /** Whether the inputs get past the two client-side checks. */
  predicate InputsPass(email: string, password: string) {
    email != "" && password != "" && EmailShaped(email)
  }

  /** A press that signs the visitor in: valid inputs and a reply carrying a
      token and an expiry. */
  predicate Succeeds(email: string, password: string, reply: LoginReply) {
    InputsPass(email, password) && reply.Accepted? && reply.data.Some?
  }

  /** The message a refusal shows: a 401 always reads as bad credentials,
      other refusals show the server's message or a generic one. */
  function RefusalText(status: int, message: Option<string>): (r: string)
    ensures status == 401 ==> r == BadCredentialsText
    ensures status != 401 && Truthy(message) ==> r == message.value
    ensures status != 401 && !Truthy(message) ==> r == LoginFailedText
  {
    if status == 401 then BadCredentialsText else OrElse(message, LoginFailedText)
  }

  /** Pressing Login. */
  function Authenticate(s: State, email: string, password: string, from: Option<string>, reply: LoginReply): (r: Submitted)
    ensures r.requested <==> InputsPass(email, password)
    ensures email == "" || password == "" ==> r.effects == [Toast(Warning, MissingFieldsText)]
    ensures email != "" && password != "" && !EmailShaped(email) ==> r.effects == [Toast(Error, BadEmailText)]
    ensures Succeeds(email, password, reply) ==>
              && r.session == Session.Login(s, reply.data.value.0, reply.data.value.1, None)
              && r.effects == [Toast(Success, WelcomeText), Navigate(Destination(from), true)]
    ensures !Succeeds(email, password, reply) ==>
              r.session == s && |r.effects| == 1 && r.effects[0].Toast? && r.effects[0].level != Success
    ensures r.requested && reply.Refused? ==> r.effects == [Toast(Error, RefusalText(reply.status, reply.message))]
  {
    if email == "" || password == "" then Submitted(s, false, [Toast(Warning, MissingFieldsText)])
    else if !EmailShaped(email) then Submitted(s, false, [Toast(Error, BadEmailText)])
    else match reply
      case Unreachable => Submitted(s, true, [Toast(Error, NetworkText)])
      case Refused(status, message) => Submitted(s, true, [Toast(Error, RefusalText(status, message))])
      case Accepted(None) => Submitted(s, true, [Toast(Error, NetworkText)])
      case Accepted(Some(data)) =>
        Submitted(Session.Login(s, data.0, data.1, None), true, [Toast(Success, WelcomeText), Navigate(Destination(from), true)])
  }

  /** An authenticated visitor never sees the form: the page moves on at once. */
  function RedirectIfSignedIn(authenticated: bool, from: Option<string>): (r: seq<Effect>)
    ensures authenticated <==> r != []
    ensures authenticated ==> r == [Navigate(Destination(from), true)]
  {
    if authenticated then [Navigate(Destination(from), true)] else []
  }

  /** After a successful login every protected route opens, and the page
      itself would now redirect to the same destination it navigates to. */
  lemma SuccessOpensRoutes(s: State, email: string, password: string, from: Option<string>, token: string, expireAt: nat, location: string)
    requires InputsPass(email, password)
    ensures var r := Authenticate(s, email, password, from, Accepted(Some((token, expireAt))));
            && Guard(r.session.authenticated, location).Children?
            && RedirectIfSignedIn(r.session.authenticated, from) == r.effects[1..]
            && r.session.token == Some(token) && Get(r.session.storage, EmailKey) == Some("undefined")
  {
  }

  /** Every press gives exactly one toast, whatever the inputs and reply. */
  lemma OneToastPerPress(s: State, email: string, password: string, from: Option<string>, reply: LoginReply)
    ensures var r := Authenticate(s, email, password, from, reply);
            && CountToasts(r.effects, Info) + CountToasts(r.effects, Success)
               + CountToasts(r.effects, Warning) + CountToasts(r.effects, Error) == 1
  {
    var r := Authenticate(s, email, password, from, reply);
    var e := r.effects;
    CountsSingle(e[0], Info, "");
    CountsSingle(e[0], Success, "");
    CountsSingle(e[0], Warning, "");
    CountsSingle(e[0], Error, "");
    if |e| == 2 {
      CountsConcat([e[0]], [e[1]], Info, "");
      CountsConcat([e[0]], [e[1]], Success, "");
      CountsConcat([e[0]], [e[1]], Warning, "");
      CountsConcat([e[0]], [e[1]], Error, "");
      CountsSingle(e[1], Info, "");
      CountsSingle(e[1], Success, "");
      CountsSingle(e[1], Warning, "");
      CountsSingle(e[1], Error, "");
      assert e == [e[0]] + [e[1]];
    } else {
      assert e == [e[0]];
    }
  }
}

=== FILE: movie_schedule.dfy ===
/** The movie page in its two variants (src/features/movies/MovieDetail.tsx
    and src/components/MovieDetail.tsx, the one the router mounts): pick a
    theater, its showtimes of this movie are bucketed by day with each show
    listed once, the earliest day is preselected, and Book Now opens the
    party-size modal once a theater, a day and a time are chosen.

    The two variants differ in how a showtime is keyed: the first uses the
    local calendar day and drops days before today, the second uses the UTC
    day and time of the ISO string and drops nothing. The local and UTC day
    and time of each showtime are inputs. */
module MovieSchedule {
  import opened Common
  import opened Types
  import opened Dates
  import opened Buckets
  import opened Gesture
  import opened ScreenPage
  import opened Pricing
  import TheaterSchedule

  datatype Show = Show(id: string, movieId: string, localDay: Date, utcDay: Date, localTime: string, utcTime: string)
  datatype Slot = Slot(time: string, showId: string)

  /** The day key of a showtime: the local `Y-MM-DD` or the ISO `YYYY-MM-DD`. */
  function KeyOf(v: Variant, s: Show): string {
    match v
    case Features => DateKey(s.localDay)
    case Routed => IsoKey(s.utcDay)
  }

  function SlotOf(v: Variant, s: Show): Slot {
    match v
    case Features => Slot(s.localTime, s.id)
    case Routed => Slot(s.utcTime, s.id)
  }

  /** A showtime is listed when it is of this movie and, in the first
      variant, not on a day before today. */
  predicate Listed(v: Variant, movieId: string, today: Date, s: Show) {
    s.movieId == movieId && (v.Routed? || !Before(s.localDay, today))
  }

  predicate HasShow(list: seq<Slot>, id: string) {
    exists k :: 0 <= k < |list| && list[k].showId == id
  }

  predicate IdsUnique(list: seq<Slot>) {
    forall i, j :: 0 <= i < j < |list| ==> list[i].showId != list[j].showId
  }

  /** Push the slot unless a slot of the same show is already listed. */
  function AddSlot(list: seq<Slot>, slot: Slot): (r: seq<Slot>)
    ensures HasShow(list, slot.showId) ==> r == list
    ensures !HasShow(list, slot.showId) ==> r == list + [slot]
  {
    match IndexWhere(list, (t: Slot) => t.showId == slot.showId)
    case Some(k) =>
      assert list[k].showId == slot.showId;
      list
    case None =>
      assert forall j :: 0 <= j < |list| ==> list[j].showId != slot.showId;
      list + [slot]
  }

  /** After a push the slot's show is listed, no other show appears, and
      each show is still listed once. */
  lemma AddSlotShows(list: seq<Slot>, slot: Slot)
    ensures forall id :: HasShow(AddSlot(list, slot), id) <==> HasShow(list, id) || id == slot.showId
    ensures IdsUnique(list) ==> IdsUnique(AddSlot(list, slot))
  {
    var r := AddSlot(list, slot);
    forall id ensures HasShow(r, id) <==> HasShow(list, id) || id == slot.showId {
      if HasShow(list, id) {
        var k :| 0 <= k < |list| && list[k].showId == id;
        if r != list { assert r[k] == list[k]; }
      }
      if id == slot.showId && r != list {
        assert r[|list|] == slot;
      }
    }
  }

  /** The listed showtimes as (day key, slot) pairs, in encounter order. */
  function Entries(v: Variant, movieId: string, today: Date, shows: seq<Show>): seq<(string, Slot)> {
    FilterMap(shows, (s: Show) => Listed(v, movieId, today, s), (s: Show) => (KeyOf(v, s), SlotOf(v, s)))
  }

  /** Every listed showtime contributes its key and slot. */
  lemma EntriesComplete(v: Variant, movieId: string, today: Date, shows: seq<Show>, i: nat)
    requires i < |shows| && Listed(v, movieId, today, shows[i])
    ensures (KeyOf(v, shows[i]), SlotOf(v, shows[i])) in Entries(v, movieId, today, shows)
  {
    FilterMapComplete(shows, (s: Show) => Listed(v, movieId, today, s), (s: Show) => (KeyOf(v, s), SlotOf(v, s)), i);
  }

  /** The listed showtime an entry comes from: entries are exactly the keys
      and slots of listed showtimes, so other movies and (in the first
      variant) past days contribute none. */
  ghost function Origin(v: Variant, movieId: string, today: Date, shows: seq<Show>, k: nat): (i: nat)
    requires k < |Entries(v, movieId, today, shows)|
    ensures i < |shows| && Listed(v, movieId, today, shows[i])
    ensures Entries(v, movieId, today, shows)[k] == (KeyOf(v, shows[i]), SlotOf(v, shows[i]))
  {
    FilterMapOrigin(shows, (s: Show) => Listed(v, movieId, today, s), (s: Show) => (KeyOf(v, s), SlotOf(v, s)), k)
  }

  /** `findDateTime`'s loop: each entry is pushed under its day unless its
      show is already listed there. */
  function GroupEntries(entries: seq<(string, Slot)>): Buckets<Slot>
    decreases |entries|
  {
    if |entries| == 0 then []
    else
      var prev := GroupEntries(entries[..|entries| - 1]);
      var e := entries[|entries| - 1];
      Put(prev, e.0, AddSlot(Get(prev, e.0), e.1))
  }

  /** The days of the present screens' showtimes of this movie. */
  function Group(v: Variant, movieId: string, today: Date, shows: seq<Show>): Buckets<Slot> {
    GroupEntries(Entries(v, movieId, today, shows))
  }

  ghost predicate WellFormed(g: Buckets<Slot>) {
    KeysUnique(g) && forall k :: IdsUnique(Get(g, k))
  }

  /** Keys stay unique and each day lists each show once. */
  lemma {:induction false} GroupWellFormed(entries: seq<(string, Slot)>)
    ensures WellFormed(GroupEntries(entries))
    decreases |entries|
  {
    var g := GroupEntries(entries);
    if |entries| == 0 {
      forall k ensures IdsUnique(Get(g, k)) { FindNone(g, k); }
    } else {
      var prev := GroupEntries(entries[..|entries| - 1]);
      var e := entries[|entries| - 1];
      GroupWellFormed(entries[..|entries| - 1]);
      var nb := AddSlot(Get(prev, e.0), e.1);
      AddSlotShows(Get(prev, e.0), e.1);
      PutGet(prev, e.0, nb, e.0);
      forall k ensures IdsUnique(Get(g, k)) {
        PutGet(prev, e.0, nb, k);
      }
    }
  }

  lemma GroupEntriesStep(entries: seq<(string, Slot)>)
    requires |entries| > 0
    ensures var prev := GroupEntries(entries[..|entries| - 1]);
            var e := entries[|entries| - 1];
            GroupEntries(entries) == Put(prev, e.0, AddSlot(Get(prev, e.0), e.1))
  {
  }

  /** Some entry falls on day `key`. */
  predicate DayListed(entries: seq<(string, Slot)>, key: string) {
    exists i :: 0 <= i < |entries| && entries[i].0 == key
  }

  /** Some entry of show `id` falls on day `key`. */
  predicate ShowListed(entries: seq<(string, Slot)>, key: string, id: string) {
    exists i :: 0 <= i < |entries| && entries[i].0 == key && entries[i].1.showId == id
  }

  lemma DayListedStep(entries: seq<(string, Slot)>, key: string)
    requires |entries| > 0
    ensures DayListed(entries, key) <==> DayListed(entries[..|entries| - 1], key) || entries[|entries| - 1].0 == key
  {
    var n := |entries| - 1;
    var pre := entries[..n];
    if DayListed(entries, key) {
      var i :| 0 <= i < |entries| && entries[i].0 == key;
      if i < n { assert pre[i] == entries[i]; }
    }
    if DayListed(pre, key) {
      var i :| 0 <= i < |pre| && pre[i].0 == key;
      assert entries[i] == pre[i];
    }
  }

  lemma ShowListedStep(entries: seq<(string, Slot)>, key: string, id: string)
    requires |entries| > 0
    ensures var e := entries[|entries| - 1];
            ShowListed(entries, key, id) <==> ShowListed(entries[..|entries| - 1], key, id) || (e.0 == key && e.1.showId == id)
  {
    var n := |entries| - 1;
    var pre := entries[..n];
    if ShowListed(entries, key, id) {
      var i :| 0 <= i < |entries| && entries[i].0 == key && entries[i].1.showId == id;
      if i < n { assert pre[i] == entries[i]; }
    }
    if ShowListed(pre, key, id) {
      var i :| 0 <= i < |pre| && pre[i].0 == key && pre[i].1.showId == id;
      assert entries[i] == pre[i];
    }
  }

  /** A day is listed iff some entry falls on it. */
  lemma {:induction false} GroupDays(entries: seq<(string, Slot)>, key: string)
    ensures Has(GroupEntries(entries), key) <==> DayListed(entries, key)
    decreases |entries|
  {
    if |entries| > 0 {
      var n := |entries| - 1;
      var prev := GroupEntries(entries[..n]);
      var e := entries[n];
      GroupDays(entries[..n], key);
      GroupWellFormed(entries[..n]);
      GroupEntriesStep(entries);
      DayListedStep(entries, key);
      PutGet(prev, e.0, AddSlot(Get(prev, e.0), e.1), key);
    }
  }

  /** A show is listed under a day iff one of its entries falls on that day:
      nothing is invented and nothing is lost. */
  lemma {:induction false} GroupShows(entries: seq<(string, Slot)>, key: string, id: string)
    ensures HasShow(Get(GroupEntries(entries), key), id) <==> ShowListed(entries, key, id)
    decreases |entries|
  {
    var g := GroupEntries(entries);
    if |entries| == 0 {
      FindNone(g, key);
    } else {
      var n := |entries| - 1;
      var prev := GroupEntries(entries[..n]);
      var e := entries[n];
      GroupShows(entries[..n], key, id);
      GroupWellFormed(entries[..n]);
      GroupEntriesStep(entries);
      ShowListedStep(entries, key, id);
      AddSlotShows(Get(prev, e.0), e.1);
      PutGet(prev, e.0, AddSlot(Get(prev, e.0), e.1), key);
    }
  }

  /** Every listed slot is one of its day's entries, with that entry's time. */
  lemma {:induction false} GroupSlotsSound(entries: seq<(string, Slot)>, key: string, x: Slot)
    requires x in Get(GroupEntries(entries), key)
    ensures (key, x) in entries
    decreases |entries|
  {
    var n := |entries| - 1;
    var pre := entries[..n];
    var prev := GroupEntries(pre);
    var e := entries[n];
    GroupKeysUnique(pre);
    GroupEntriesStep(entries);
    PushedSlot(prev, e.0, e.1, key, x);
    if x in Get(prev, key) {
      GroupSlotsSound(pre, key, x);
      var i :| 0 <= i < n && pre[i] == (key, x);
      assert entries[i] == pre[i];
    } else {
      assert entries[n] == (key, x);
    }
  }

  lemma GroupKeysUnique(entries: seq<(string, Slot)>)
    ensures KeysUnique(GroupEntries(entries))
  {
    GroupWellFormed(entries);
  }

  /** A slot under `key` after pushing `slot` under `day` was there before
      or is the pushed one. */
  lemma PushedSlot(prev: Buckets<Slot>, day: string, slot: Slot, key: string, x: Slot)
    requires KeysUnique(prev)
    requires x in Get(Put(prev, day, AddSlot(Get(prev, day), slot)), key)
    ensures x in Get(prev, key) || (key == day && x == slot)
  {
    PutGet(prev, day, AddSlot(Get(prev, day), slot), key);
  }

  /** The day preselected after a load: the first of the sorted keys. */
  function Earliest(keys: seq<string>): (r: Option<string>)
    ensures r.None? <==> |keys| == 0
    ensures r.Some? ==> r.value in keys && forall k :: k in keys ==> LexLeq(r.value, k)
  {
    if |keys| == 0 then None
    else
      SortedHeadIsLeast(keys);
      var s := SortKeys(keys);
      assert s[0] in multiset(s);
      Some(s[0])
  }

  // ---------------------------------------------------------------------
  // The page
  // ---------------------------------------------------------------------

  const NoTheater: string := "*Select Theater First"
  const NoDate: string := "*Select Date First"
  const NoTime: string := "*Select Time Slot"
  const PickAllText: string := "Please select theater, date, and time first!"
  const TimesFailedText: string := "Failed to fetch showtimes"

  /** The movie-fetch failure: the first variant also sends the visitor home. */
  function MovieFailed(v: Variant): seq<Effect> {
    match v
    case Features => [Toast(Error, "Failed to load movie details. Redirecting..."), Navigate("/home", false)]
    case Routed => [Toast(Error, "Failed to load movie details")]
  }

  datatype PageState = PageState(
    movie: bool,
    loadingMovie: bool,
    theater: Option<string>,
    theaterName: string,
    date: Option<string>,
    time: string,
    showId: string,
    times: Buckets<Slot>,
    loadingTimes: bool,
    modal: bool)

  const Initial: PageState := PageState(false, true, None, NoTheater, Some(NoDate), NoTime, "", [], false, false)

  /** What the page reacts to. A fetch reply is `None` when it failed. */
  datatype Event =
    | MovieArrived(theaters: Option<seq<(string, string)>>)
    | TheaterPicked(id: string, name: string)
    | TimesArrived(grouped: Option<Buckets<Slot>>)
    | DatePicked(day: string)
    | TimePicked(slot: Slot)
    | BookNow
    | ModalClosed
    | Proceed(seats: int)

  datatype Stepped = Stepped(p: PageState, effects: seq<Effect>)

  /** The showtimes reply of `findDateTime`: the screens of the theater with
      `None` for a screen whose fetch failed or that lists no showtimes; the
      whole reply is `None` when the screen list itself failed. */
  function FetchTimes(v: Variant, movieId: string, today: Date, reply: Option<seq<Option<seq<Show>>>>): Option<Buckets<Slot>> {
    match reply
    case None => None
    case Some(screens) => Some(Group(v, movieId, today, Flatten(screens)))
  }

  /** Whether Book Now may open the modal. */
  predicate OpenAllowed(p: PageState) {
    && p.movie
    && p.theaterName != "" && p.theaterName != NoTheater
    && Truthy(p.date) && p.date.value != NoDate
    && p.time != "" && p.time != NoTime
  }

  /** `findDateTime`'s first synchronous part: clear the days and start the
      spinner. With `resetsChoice` the chosen time and show are cleared too. */
  function StartTimes(p: PageState, id: string, resetsChoice: bool): PageState {
    var q := p.(theater := Some(id), date := None, times := [], loadingTimes := true);
    if resetsChoice then q.(time := NoTime, showId := "") else q
  }

  /** One event, as written when `resetsChoice` is false and with the stale
      time cleared on every theater or day change when it is true. */
  function Apply(v: Variant, resetsChoice: bool, p: PageState, e: Event): (r: Stepped)
    ensures r.p.modal && !p.modal ==> e.BookNow? && OpenAllowed(p)
    ensures e.BookNow? ==> (r.p.modal <==> p.modal || OpenAllowed(p))
    ensures e.BookNow? && !OpenAllowed(p) ==> r.effects == [Toast(Warning, PickAllText)]
    ensures r.p.showId != p.showId ==> e.TimePicked? || resetsChoice
  {
    match e
    case MovieArrived(None) => Stepped(p.(loadingMovie := false), MovieFailed(v))
    case MovieArrived(Some(ts)) =>
      var q := p.(movie := true, loadingMovie := false);
      if |ts| == 0 then Stepped(q, [])
      else Stepped(StartTimes(q.(theaterName := ts[0].1), ts[0].0, resetsChoice), [])
    case TheaterPicked(id, name) => Stepped(StartTimes(p.(theaterName := name), id, resetsChoice), [])
    case TimesArrived(None) => Stepped(p.(loadingTimes := false), [Toast(Error, TimesFailedText)])
    case TimesArrived(Some(g)) => Stepped(p.(times := g, date := Earliest(Keys(g)), loadingTimes := false), [])
    case DatePicked(d) =>
      var q := p.(date := Some(d));
      Stepped(if resetsChoice then q.(time := NoTime, showId := "") else q, [])
    case TimePicked(slot) => Stepped(p.(time := slot.time, showId := slot.showId), [])
    case BookNow =>
      if OpenAllowed(p) then Stepped(p.(modal := true), [])
      else Stepped(p, [Toast(Warning, PickAllText)])
    case ModalClosed => Stepped(p.(modal := false), [])
    case Proceed(_) => Stepped(p, [Navigate("/selectSeat/" + p.showId, false)])
  }

  /** The page as written. */
  function StepAsWritten(v: Variant, p: PageState, e: Event): Stepped {
    Apply(v, false, p, e)
  }

  /** The page with a theater or day change clearing the chosen time. */
  function Step(v: Variant, p: PageState, e: Event): Stepped {
    Apply(v, true, p, e)
  }

  /** Events the rendered page can deliver in state p: the movie reply only
      while it is awaited, theaters once the movie is shown, the showtimes
      reply only while awaited, a day only from the listed days, a time only
      from the chosen day's slots. */
  predicate Enabled(p: PageState, e: Event) {
    match e
    case MovieArrived(_) => p.loadingMovie
    case TheaterPicked(_, _) => p.movie && !p.loadingMovie
    case TimesArrived(_) => p.loadingTimes
    case DatePicked(d) => !p.loadingTimes && Has(p.times, d)
    case TimePicked(slot) => p.date.Some? && slot in Get(p.times, p.date.value)
    case Proceed(n) => p.modal && n in TheaterSchedule.SeatOptions
    case _ => true
  }

  /** The chosen time, if any, belongs to a show listed under the chosen day,
      and while showtimes load no day is chosen. */
  predicate Coherent(p: PageState) {
    && (p.loadingTimes ==> p.times == [] && p.date.None?)
    && (p.time != NoTime ==> p.date.Some? && HasShow(Get(p.times, p.date.value), p.showId))
  }

  lemma InitialCoherent()
    ensures Coherent(Initial) && Initial.loadingMovie && !Initial.modal
  {
  }

  /** With the choice cleared on every theater or day change, each event the
      page can deliver keeps the chosen show on screen. */
  lemma StepKeepsCoherent(v: Variant, p: PageState, e: Event)
    requires Coherent(p) && Enabled(p, e)
    ensures Coherent(Step(v, p, e).p)
  {
    match e
    case TimePicked(slot) =>
      var list := Get(p.times, p.date.value);
      var k :| 0 <= k < |list| && list[k] == slot;
    case TimesArrived(Some(g)) =>
      assert p.date.None?;
    case _ =>
  }

  /** The corrected page never opens the modal for a show that is not among
      the chosen day's slots: Proceed goes to a show the card describes. */
  lemma BookedShowIsOnScreen(v: Variant, p: PageState)
    requires Coherent(p) && OpenAllowed(p)
    ensures Step(v, p, BookNow).p.modal
    ensures HasShow(Get(p.times, p.date.value), p.showId)
  {
  }

  /** Two theaters, and at the first one the 10:00 show "s1" on its only day
      chosen. */
  const FirstDays: Buckets<Slot> := [("2025-01-02", [Slot("10:00", "s1")])]
  const SecondDays: Buckets<Slot> := [("2025-01-03", [Slot("11:00", "s2")])]
  const PickedAtFirst: PageState :=
    Initial.(movie := true, loadingMovie := false, theater := Some("t1"), theaterName := "One",
             date := Some("2025-01-02"), time := "10:00", showId := "s1", times := FirstDays)

  /** The page reaches that state from its initial one through events it can
      deliver, in either variant and with or without the correction. */
  lemma ReachPickedAtFirst(v: Variant, resetsChoice: bool)
    ensures var p1 := Apply(v, resetsChoice, Initial, MovieArrived(Some([("t1", "One"), ("t2", "Two")]))).p;
            var p2 := Apply(v, resetsChoice, p1, TimesArrived(Some(FirstDays))).p;
            && Enabled(Initial, MovieArrived(Some([("t1", "One"), ("t2", "Two")])))
            && Enabled(p1, TimesArrived(Some(FirstDays)))
            && Enabled(p2, TimePicked(Slot("10:00", "s1")))
            && Apply(v, resetsChoice, p2, TimePicked(Slot("10:00", "s1"))).p == PickedAtFirst
            && Coherent(PickedAtFirst)
  {
    assert Keys(FirstDays) == ["2025-01-02"];
    FindAt(FirstDays, "2025-01-02", 0);
    assert Get(FirstDays, "2025-01-02")[0] == Slot("10:00", "s1");
  }

  /** A theater change as written: the time chosen at the first theater
      survives, the second theater's day is preselected, Book Now opens the
      modal, and Proceed goes to the first theater's show, which is not on the
      second theater's list. */
  lemma StaleShowAfterTheaterSwitch(v: Variant)
    ensures var p4 := StepAsWritten(v, PickedAtFirst, TheaterPicked("t2", "Two")).p;
            var p5 := StepAsWritten(v, p4, TimesArrived(Some(SecondDays))).p;
            && Enabled(PickedAtFirst, TheaterPicked("t2", "Two"))
            && Enabled(p4, TimesArrived(Some(SecondDays)))
            && p5.theaterName == "Two" && p5.date == Some("2025-01-03")
            && OpenAllowed(p5)
            && StepAsWritten(v, p5, Event.Proceed(1)).effects == [Navigate("/selectSeat/s1", false)]
            && !HasShow(Get(p5.times, p5.date.value), p5.showId)
  {
    assert Keys(SecondDays) == ["2025-01-03"];
    FindAt(SecondDays, "2025-01-03", 0);
    assert Get(SecondDays, "2025-01-03") == [Slot("11:00", "s2")];
    assert "/selectSeat/" + "s1" == "/selectSeat/s1";
  }

  /** The same events with the correction leave Book Now refusing until a
      time of the second theater is chosen. */
  lemma TheaterSwitchClearsTime(v: Variant)
    ensures var p4 := Step(v, PickedAtFirst, TheaterPicked("t2", "Two")).p;
            var p5 := Step(v, p4, TimesArrived(Some(SecondDays))).p;
            && p5.time == NoTime && !OpenAllowed(p5)
            && Step(v, p5, BookNow).effects == [Toast(Warning, PickAllText)]
  {
  }

  /** A day change as written keeps the previous day's show as well. */
  lemma StaleShowAfterDayChange(v: Variant)
    ensures var g := [("2025-01-02", [Slot("10:00", "s1")]), ("2025-01-03", [Slot("11:00", "s2")])];
            var p := Initial.(movie := true, loadingMovie := false, theater := Some("t1"), theaterName := "One",
                              date := Some("2025-01-02"), time := "10:00", showId := "s1", times := g);
            var q := StepAsWritten(v, p, DatePicked("2025-01-03")).p;
            && Coherent(p) && Enabled(p, DatePicked("2025-01-03"))
            && OpenAllowed(q) && q.showId == "s1"
            && !HasShow(Get(q.times, q.date.value), q.showId)
  {
    var g := [("2025-01-02", [Slot("10:00", "s1")]), ("2025-01-03", [Slot("11:00", "s2")])];
    assert Keys(g) == ["2025-01-02", "2025-01-03"];
    assert KeysUnique(g);
    FindAt(g, "2025-01-02", 0);
    FindAt(g, "2025-01-03", 1);
    assert Get(g, "2025-01-02")[0].showId == "s1";
  }

  /** A showtimes reply preselects the earliest listed day, or none. */
  lemma ArrivalPicksEarliest(v: Variant, p: PageState, movieId: string, today: Date, screens: seq<Option<seq<Show>>>)
    ensures var g := Group(v, movieId, today, Flatten(screens));
            var q := Step(v, p, TimesArrived(FetchTimes(v, movieId, today, Some(screens)))).p;
            && q.times == g && !q.loadingTimes
            && (q.date.None? <==> g == [])
            && (q.date.Some? ==> Has(g, q.date.value) && forall k :: Has(g, k) ==> LexLeq(q.date.value, k))
  {
  }

  /** The seat page reached through Proceed asks for the chosen number of
      seats; without a `from` its back arrow goes back in history. */
  lemma ProceedArrival(v: Variant, p: PageState, n: int)
    requires n in TheaterSchedule.SeatOptions
    ensures Step(v, p, Event.Proceed(n)).effects == [Navigate("/selectSeat/" + p.showId, false)]
    ensures SeatLimitOf(Arrival(Some(n), None).seats) == n
    ensures Back(Arrival(Some(n), None)) == NavigateBack
  {
  }

  /** A failed movie fetch raises one error toast; only the first variant
      also leaves for the home page. Either way the movie stops loading. */
  lemma MovieFailureRedirects(v: Variant, resetsChoice: bool, p: PageState)
    ensures var r := Apply(v, resetsChoice, p, MovieArrived(None));
            && !r.p.loadingMovie && r.p.movie == p.movie
            && CountToasts(r.effects, Error) == 1
            && (CountNavigations(r.effects, "/home") == 1 <==> v == Features)
            && (Navigates(r.effects) <==> v == Features)
  {
    var e := Apply(v, resetsChoice, p, MovieArrived(None)).effects;
    CountsSingle(e[0], Error, "/home");
    if v == Features {
      CountsSingle(e[1], Error, "/home");
      CountsConcat([e[0]], [e[1]], Error, "/home");
      assert e == [e[0]] + [e[1]];
      assert e[1].Navigate?;
    } else {
      assert e == [e[0]];
    }
  }
}

=== FILE: orders.dfy ===
/** The "My Tickets" page (src/pages/MyTicket.tsx): the visitor's orders,
    newest first, split into upcoming and past shows with unpaid orders
    hidden. Timestamps are integer milliseconds. */
module Orders {
  import opened Common
  import opened Types

  predicate NewestFirst(s: seq<Order>) {
    forall i, j :: 0 <= i < j < |s| ==> s[i].createdAt >= s[j].createdAt
  }

  /** Insert `o` after every order at least as new as it, so that orders
      with equal timestamps keep their arrival order. */
  function InsertNewest(s: seq<Order>, o: Order): (r: seq<Order>)
    requires NewestFirst(s)
    ensures NewestFirst(r)
    ensures multiset(r) == multiset(s) + multiset{o}
    decreases |s|
  {
    if |s| == 0 then [o]
    else if s[0].createdAt >= o.createdAt then
      var rest := InsertNewest(s[1..], o);
      assert s == [s[0]] + s[1..];
      HeadStaysNewest(s[0], s[1..], o, rest);
      [s[0]] + rest
    else
      PrependNewest(o, s);
      [o] + s
  }

  lemma PrependNewest(o: Order, s: seq<Order>)
    requires NewestFirst(s) && |s| > 0 && o.createdAt > s[0].createdAt
    ensures NewestFirst([o] + s)
  {
    var r := [o] + s;
    forall i, j | 0 <= i < j < |r| ensures r[i].createdAt >= r[j].createdAt {
      if i == 0 {
        assert r[j] == s[j - 1];
        assert s[0].createdAt >= s[j - 1].createdAt;
      } else {
        assert r[i] == s[i - 1] && r[j] == s[j - 1];
      }
    }
  }

  lemma HeadStaysNewest(h: Order, tail: seq<Order>, o: Order, rest: seq<Order>)
    requires NewestFirst([h] + tail) && h.createdAt >= o.createdAt
    requires NewestFirst(rest) && multiset(rest) == multiset(tail) + multiset{o}
    ensures NewestFirst([h] + rest)
  {
    forall x | x in rest ensures h.createdAt >= x.createdAt {
      assert x in multiset(rest);
      if x != o {
        assert x in multiset(tail);
        var k :| 0 <= k < |tail| && tail[k] == x;
        assert ([h] + tail)[0] == h && ([h] + tail)[k + 1] == x;
      }
    }
    var r := [h] + rest;
    forall i, j | 0 <= i < j < |r| ensures r[i].createdAt >= r[j].createdAt {
      if i == 0 {
        assert r[j] == rest[j - 1];
        assert rest[j - 1] in rest;
      } else {
        assert r[i] == rest[i - 1] && r[j] == rest[j - 1];
      }
    }
  }

  /** `data.sort((a, b) => b.createdAt - a.createdAt)`: newest first. */
  function SortNewest(s: seq<Order>): (r: seq<Order>)
    ensures NewestFirst(r)
    ensures multiset(r) == multiset(s)
    decreases |s|
  {
    if |s| == 0 then []
    else
      var n := |s| - 1;
      assert s == s[..n] + [s[n]];
      InsertNewest(SortNewest(s[..n]), s[n])
  }

  /** The first order after sorting is one of the orders and none is newer. */
  lemma NewestComesFirst(s: seq<Order>)
    requires |s| > 0
    ensures |SortNewest(s)| == |s|
    ensures SortNewest(s)[0] in s
    ensures forall i :: 0 <= i < |s| ==> SortNewest(s)[0].createdAt >= s[i].createdAt
  {
    var r := SortNewest(s);
    assert |r| == |multiset(r)| == |multiset(s)| == |s|;
    assert r[0] in multiset(r);
    forall i | 0 <= i < |s| ensures r[0].createdAt >= s[i].createdAt {
      assert s[i] in multiset(s);
      var k :| 0 <= k < |r| && r[k] == s[i];
    }
  }

  // ---------------------------------------------------------------------
  // The two tabs
  // ---------------------------------------------------------------------

  function CompletedOrders(orders: seq<Order>): seq<Order> {
    Filter(orders, (o: Order) => o.status != Pending)
  }

  function Upcoming(orders: seq<Order>, now: int): seq<Order> {
    Filter(CompletedOrders(orders), (o: Order) => o.startTime > now)
  }

  function History(orders: seq<Order>, now: int): seq<Order> {
    Filter(CompletedOrders(orders), (o: Order) => o.startTime <= now)
  }

  /** An order is in a tab iff it is not awaiting payment and its show is
      still to come (upcoming) or has started (history): cancelled orders
      appear, pending ones never, and no order is in both. */
  lemma TabsPartition(orders: seq<Order>, now: int, o: Order)
    ensures o in Upcoming(orders, now) <==> o in orders && o.status != Pending && o.startTime > now
    ensures o in History(orders, now) <==> o in orders && o.status != Pending && o.startTime <= now
  {
    var c := CompletedOrders(orders);
    if o in orders && o.status != Pending {
      var i :| 0 <= i < |orders| && orders[i] == o;
      assert o in c;
      var j :| 0 <= j < |c| && c[j] == o;
    }
    if o in Upcoming(orders, now) {
      var i :| 0 <= i < |Upcoming(orders, now)| && Upcoming(orders, now)[i] == o;
      var j :| 0 <= j < |c| && c[j] == o;
    }
    if o in History(orders, now) {
      var i :| 0 <= i < |History(orders, now)| && History(orders, now)[i] == o;
      var j :| 0 <= j < |c| && c[j] == o;
    }
  }

  /** Counted with multiplicity, the two tabs together hold exactly the
      orders that are not pending. */
  lemma TabsCover(orders: seq<Order>, now: int)
    ensures multiset(Upcoming(orders, now)) + multiset(History(orders, now)) == multiset(CompletedOrders(orders))
  {
    FilterSplit(CompletedOrders(orders), (o: Order) => o.startTime > now, (o: Order) => o.startTime <= now);
  }

  /** Appending an order no newer than any before it keeps the order. */
  lemma AppendOldest(s: seq<Order>, x: Order)
    requires NewestFirst(s)
    requires forall k :: 0 <= k < |s| ==> s[k].createdAt >= x.createdAt
    ensures NewestFirst(s + [x])
  {
    var r := s + [x];
    forall i, j | 0 <= i < j < |r| ensures r[i].createdAt >= r[j].createdAt {
      assert r[i] == s[i];
    }
  }

  /** Filtering a newest-first list keeps it newest first. */
  lemma {:induction false} FilterKeepsNewestFirst(s: seq<Order>, p: Order -> bool)
    requires NewestFirst(s)
    ensures NewestFirst(Filter(s, p))
    decreases |s|
  {
    if |s| > 0 {
      var n := |s| - 1;
      var init := s[..n];
      var prev := Filter(init, p);
      assert NewestFirst(init) by {
        forall i, j | 0 <= i < j < |init| ensures init[i].createdAt >= init[j].createdAt {
          assert init[i] == s[i] && init[j] == s[j];
        }
      }
      FilterKeepsNewestFirst(init, p);
      if p(s[n]) {
        forall k | 0 <= k < |prev| ensures prev[k].createdAt >= s[n].createdAt {
          assert prev[k] in init;
          var i :| 0 <= i < n && init[i] == prev[k];
          assert s[i] == prev[k];
        }
        AppendOldest(prev, s[n]);
        assert Filter(s, p) == prev + [s[n]];
      } else {
        assert Filter(s, p) == prev;
      }
    }
  }

  /** Both tabs of a sorted list stay newest first. */
  lemma TabsNewestFirst(orders: seq<Order>, now: int)
    requires NewestFirst(orders)
    ensures NewestFirst(Upcoming(orders, now)) && NewestFirst(History(orders, now))
  {
    FilterKeepsNewestFirst(orders, (o: Order) => o.status != Pending);
    FilterKeepsNewestFirst(CompletedOrders(orders), (o: Order) => o.startTime > now);
    FilterKeepsNewestFirst(CompletedOrders(orders), (o: Order) => o.startTime <= now);
  }

  // ---------------------------------------------------------------------
  // Loading
  // ---------------------------------------------------------------------

  /** A reply to `GET /orders`. */
  datatype OrdersReply = Unreachable | NotOk | Listed(orders: seq<Order>)

  datatype TicketsPage = TicketsPage(requested: bool, loading: bool, orders: seq<Order>, effects: seq<Effect>)

  const FetchFailedText: string := "Failed to fetch tickets"
  const NetworkText: string := "Something went wrong while loading tickets"

  /** Mounting the page. Without a token nothing is requested and the page
      never stops loading; a failure toasts and leaves the list empty. */
  function LoadTickets(token: Option<string>, reply: OrdersReply): (r: TicketsPage)
    ensures r.requested <==> Truthy(token)
    ensures r.loading <==> !r.requested
    ensures !r.requested ==> r.orders == [] && r.effects == []
    ensures r.requested && reply.Listed? ==> multiset(r.orders) == multiset(reply.orders) && NewestFirst(r.orders) && r.effects == []
    ensures r.requested && reply.NotOk? ==> r.orders == [] && r.effects == [Toast(Error, FetchFailedText)]
    ensures r.requested && reply.Unreachable? ==> r.orders == [] && r.effects == [Toast(Error, NetworkText)]
  {
    if !Truthy(token) then TicketsPage(false, true, [], [])
    else match reply
      case Listed(orders) => TicketsPage(true, false, SortNewest(orders), [])
      case NotOk => TicketsPage(true, false, [], [Toast(Error, FetchFailedText)])
      case Unreachable => TicketsPage(true, false, [], [Toast(Error, NetworkText)])
  }

  /** "No upcoming tickets" / "No booking history" show only once loading
      has finished and the tab is empty. */
  predicate EmptyNotice(tab: seq<Order>, loading: bool) {
    |tab| == 0 && !loading
  }

  /** Without a token neither notice ever appears. */
  lemma NoNoticeWithoutToken(reply: OrdersReply, now: int)
    ensures var r := LoadTickets(None, reply);
            !EmptyNotice(Upcoming(r.orders, now), r.loading) && !EmptyNotice(History(r.orders, now), r.loading)
  {
  }
}

=== FILE: payment.dfy ===
/** The page the payment provider returns to
    (src/features/booking/PaymentSuccess.tsx): confirm the payment through
    the verification endpoint, and when that fails fall back to the
    visitor's most recent order if it was placed in the last five minutes. */
module Payment {
  import opened Common
  import opened Types
  import opened Orders

  /** Five minutes, in milliseconds. */
  const RecentWindow: int := 5 * 60 * 1000

  const NoSessionText: string := "No Session ID found."
  const VerifiedText: string := "Payment verified successfully!"
  const RecentText: string := "Payment confirmed (via recent orders)"
  const FailedText: string := "Payment verification failed. Please check My Tickets to confirm."
  const FailedToastText: string := "Payment verification failed"

  /** A reply to `GET /api/payments/verify`: anything other than an OK reply
      with a readable body counts as failed; an OK body may lack `orderId`. */
  datatype VerifyReply = VerifyFailed | Verified(orderId: Option<string>)

  /** The newest order, provided it was placed less than five minutes
      before `now`. */
  function RecentOrder(orders: seq<Order>, now: int): (r: Option<Order>)
    ensures r.Some? ==> r.value in orders && now - r.value.createdAt < RecentWindow
    ensures r.Some? ==> forall i :: 0 <= i < |orders| ==> r.value.createdAt >= orders[i].createdAt
  {
    if |orders| == 0 then None
    else
      var latest := SortNewest(orders)[0];
      NewestComesFirst(orders);
      if now - latest.createdAt < RecentWindow then Some(latest) else None
  }

  /** The fallback finds nothing exactly when every order is at least five
      minutes old. */
  lemma RecentOrderNoneIff(orders: seq<Order>, now: int)
    ensures RecentOrder(orders, now).None? <==>
            forall i :: 0 <= i < |orders| ==> now - orders[i].createdAt >= RecentWindow
  {
    if |orders| > 0 {
      NewestComesFirst(orders);
      var latest := SortNewest(orders)[0];
      if RecentOrder(orders, now).Some? {
        var k :| 0 <= k < |orders| && orders[k] == latest;
      }
    }
  }

  /** What the page holds once the effect has finished. */
  datatype Outcome = Outcome(
    verifyRequested: bool,
    fallbackRequested: bool,
    loading: bool,
    error: Option<string>,
    orderId: Option<string>,
    effects: seq<Effect>)

  function Failure(verifyRequested: bool, fallbackRequested: bool): Outcome {
    Outcome(verifyRequested, fallbackRequested, false, Some(FailedText), None, [Toast(Error, FailedToastText)])
  }

  /** The fallback: read the token, list the orders, accept a recent one. */
  function Fallback(token: Option<string>, orders: OrdersReply, now: int): (r: Outcome)
    ensures r.verifyRequested && !r.loading
    ensures r.fallbackRequested <==> Truthy(token)
    ensures r.error.None? <==> Truthy(token) && orders.Listed? && RecentOrder(orders.orders, now).Some?
    ensures r.error.None? ==> r.orderId == Some(RecentOrder(orders.orders, now).value.id) && r.effects == [Toast(Info, RecentText)]
    ensures r.error.Some? ==> r == Failure(true, Truthy(token))
  {
    if !Truthy(token) then Failure(true, false)
    else if orders.Listed? && RecentOrder(orders.orders, now).Some? then
      var latest := RecentOrder(orders.orders, now).value;
      Outcome(true, true, false, None, Some(latest.id), [Toast(Info, RecentText)])
    else Failure(true, true)
  }

  /** The whole effect, given the `session_id` query parameter, the
      verification reply, the stored token, the orders reply and the clock. */
  function Verify(sessionId: Option<string>, verify: VerifyReply, token: Option<string>, orders: OrdersReply, now: int): (r: Outcome)
    ensures !r.loading
    ensures r.verifyRequested <==> Truthy(sessionId)
    ensures r.fallbackRequested <==> Truthy(sessionId) && verify.VerifyFailed? && Truthy(token)
    ensures !Truthy(sessionId) ==> r.error == Some(NoSessionText) && r.effects == [] && r.orderId == None
    ensures Truthy(sessionId) && verify.Verified? ==> r.error == None && r.orderId == verify.orderId && r.effects == [Toast(Success, VerifiedText)]
    ensures Truthy(sessionId) && verify.VerifyFailed? ==> r == Fallback(token, orders, now)
  {
    if !Truthy(sessionId) then Outcome(false, false, false, Some(NoSessionText), None, [])
    else match verify
      case Verified(id) => Outcome(true, false, false, None, id, [Toast(Success, VerifiedText)])
      case VerifyFailed => Fallback(token, orders, now)
  }

  /** What is on screen. */
  datatype Screen = Verifying | ErrorCard(message: string) | SuccessCard(viewTicket: Option<Effect>)

  /** The card for an outcome; the "View Ticket" button is enabled only
      with a truthy order id and then opens `/ticket/<id>`. */
  function Render(o: Outcome): (r: Screen)
    ensures o.loading <==> r.Verifying?
    ensures !o.loading && o.error.Some? ==> r == ErrorCard(o.error.value)
    ensures r.SuccessCard? ==> (r.viewTicket.Some? <==> Truthy(o.orderId))
  {
    if o.loading then Verifying
    else if o.error.Some? then ErrorCard(o.error.value)
    else if Truthy(o.orderId) then SuccessCard(Some(Navigate("/ticket/" + o.orderId.value, false)))
    else SuccessCard(None)
  }

  /** The error card appears exactly when neither the verification nor the
      fallback confirmed the payment, and a ticket opened from the success
      card is either the one the provider named or an order placed in the
      last five minutes. */
  lemma ConfirmedIff(sessionId: Option<string>, verify: VerifyReply, token: Option<string>, orders: OrdersReply, now: int)
    ensures var s := Render(Verify(sessionId, verify, token, orders, now));
            && (s.ErrorCard? <==>
                  || !Truthy(sessionId)
                  || (verify.VerifyFailed? && !(Truthy(token) && orders.Listed? &&
                        exists i :: 0 <= i < |orders.orders| && now - orders.orders[i].createdAt < RecentWindow)))
            && (s.SuccessCard? && s.viewTicket.Some? ==>
                  exists id :: s.viewTicket == Some(Navigate("/ticket/" + id, false)) &&
                    (verify == Verified(Some(id)) ||
                     (orders.Listed? && (exists i :: 0 <= i < |orders.orders| && orders.orders[i].id == id &&
                                                      now - orders.orders[i].createdAt < RecentWindow))))
  {
    var o := Verify(sessionId, verify, token, orders, now);
    if orders.Listed? {
      RecentOrderNoneIff(orders.orders, now);
      var ro := RecentOrder(orders.orders, now);
      if ro.Some? && o.orderId == Some(ro.value.id) {
        var k :| 0 <= k < |orders.orders| && orders.orders[k] == ro.value;
      }
    }
  }

  /** Each completed confirmation raises exactly one toast. */
  lemma OneToastOnceRequested(sessionId: Option<string>, verify: VerifyReply, token: Option<string>, orders: OrdersReply, now: int)
    requires Truthy(sessionId)
    ensures var e := Verify(sessionId, verify, token, orders, now).effects;
            |e| == 1 && e[0].Toast? && (e[0].level == Error <==> Verify(sessionId, verify, token, orders, now).error.Some?)
  {
  }
}

=== FILE: pricing.dfy ===
/** Price lookup and totals of the seat page (src/features/booking/ScreenPage.tsx,
    src/components/ScreenPage.tsx and src/features/booking/SeatGrid.tsx all carry
    the same `getPriceForType`). */
module Pricing {
  import opened Common
  import opened Types

  /** `prices.findIndex(p => p.layoutType === t)`. */
  function FindPrice(prices: seq<PriceEntry>, t: string): Option<nat> {
    IndexWhere(prices, (p: PriceEntry) => p.layoutType == t)
  }

  /** `priceObj?.price || prices[0]?.price || 0`: the first entry of category
      `t`, unless it is missing or priced 0 (falsy), then the first entry of the
      table, unless that is missing or priced 0, then 0. */
  function PriceFor(prices: seq<PriceEntry>, t: string): (r: int)
    ensures r == 0 || exists i :: 0 <= i < |prices| && prices[i].price == r
    ensures r == 0 ==> |prices| == 0 || prices[0].price == 0
  {
    var first := if |prices| > 0 then prices[0].price else 0;
    match FindPrice(prices, t)
    case Some(i) => if prices[i].price != 0 then prices[i].price else first
    case None => first
  }

  /** A category with a non-zero first entry is priced by that entry. */
  lemma PriceForMatch(prices: seq<PriceEntry>, t: string, i: nat)
    requires i < |prices| && prices[i].layoutType == t && prices[i].price != 0
    requires forall j :: 0 <= j < i ==> prices[j].layoutType != t
    ensures PriceFor(prices, t) == prices[i].price
  {
    assert ((p: PriceEntry) => p.layoutType == t)(prices[i]);
  }

  /** A category that is missing, or whose first entry is priced 0, falls
      through to the first entry of the table. */
  lemma PriceForFallsThrough(prices: seq<PriceEntry>, t: string)
    requires |prices| > 0
    requires forall i :: 0 <= i < |prices| && prices[i].layoutType == t ==>
               prices[i].price == 0 || exists j :: 0 <= j < i && prices[j].layoutType == t
    ensures PriceFor(prices, t) == prices[0].price
  {
    var k := FindPrice(prices, t);
    if k.Some? {
      assert prices[k.value].layoutType == t;
    }
  }

  /** `selectedSeats.reduce((sum, s) => sum + getPriceForType(s.layoutType), 0)`. */
  function Total(prices: seq<PriceEntry>, sel: seq<SelectedSeat>): int {
    if |sel| == 0 then 0
    else Total(prices, sel[..|sel| - 1]) + PriceFor(prices, sel[|sel| - 1].layoutType)
  }

  /** The total splits over concatenation. */
  lemma {:induction false} TotalConcat(prices: seq<PriceEntry>, a: seq<SelectedSeat>, b: seq<SelectedSeat>)
    ensures Total(prices, a + b) == Total(prices, a) + Total(prices, b)
    decreases |b|
  {
    if |b| > 0 {
      var b' := b[..|b| - 1];
      assert (a + b)[..|a + b| - 1] == a + b';
      TotalConcat(prices, a, b');
    } else {
      assert a + b == a;
    }
  }

  /** With a price table of non-negative prices, each seat costs between 0 and
      the largest price, so the total lies between 0 and |sel| times it. */
  lemma {:induction false} TotalBounds(prices: seq<PriceEntry>, sel: seq<SelectedSeat>, max: int)
    requires 0 <= max
    requires forall i :: 0 <= i < |prices| ==> 0 <= prices[i].price <= max
    ensures 0 <= Total(prices, sel) <= |sel| * max
    decreases |sel|
  {
    if |sel| > 0 {
      var n := |sel| - 1;
      TotalBounds(prices, sel[..n], max);
      var p := PriceFor(prices, sel[n].layoutType);
      assert 0 <= p <= max by {
        if p != 0 {
          var i :| 0 <= i < |prices| && prices[i].price == p;
        }
      }
      assert Total(prices, sel) == Total(prices, sel[..n]) + p;
      StepBound(Total(prices, sel[..n]), p, n, max);
    }
  }

  lemma StepBound(a: int, p: int, n: nat, max: int)
    requires a <= n * max && p <= max
    ensures a + p <= (n + 1) * max
  {
  }

  /** Total of seats of one category, each priced by a single non-zero entry. */
  lemma {:induction false} TotalUniform(prices: seq<PriceEntry>, sel: seq<SelectedSeat>, t: string, price: int)
    requires PriceFor(prices, t) == price
    requires forall i :: 0 <= i < |sel| ==> sel[i].layoutType == t
    ensures Total(prices, sel) == |sel| * price
    decreases |sel|
  {
    if |sel| > 0 {
      TotalUniform(prices, sel[..|sel| - 1], t, price);
    }
  }

  /** `location.state?.seats || 1`: an absent or zero seat count means one. */
  function SeatLimitOf(seats: Option<int>): (r: int)
    ensures r != 0
    ensures seats.Some? && seats.value != 0 ==> r == seats.value
    ensures seats.None? || seats.value == 0 ==> r == 1
  {
    if seats.Some? && seats.value != 0 then seats.value else 1
  }
}

=== FILE: screen_page.dfy ===
/** The seat page around the selection engine: loading a show in either
    variant (src/features/booking/ScreenPage.tsx through the shared HTTP client,
    src/components/ScreenPage.tsx through a raw request with the stored token),
    the countdown heading, the pay gate and the hand-off to the summary page. */
module ScreenPage {
  import opened Common
  import opened Types
  import opened Pricing
  import opened Selection
  import opened Gesture
  import opened Checkout

  /** `location.state` as the seat page reads it. */
  datatype Arrival = Arrival(seats: Option<int>, from: Option<string>)

  /** A show as the server returns it, with the layout already parsed and the
      start time already rendered in the browser's locale. */
  datatype ShowData = ShowData(
    movieName: string,
    date: string,
    time: string,
    prices: seq<PriceEntry>,
    layout: seq<LayoutBlock>,
    orders: seq<ShowOrder>)

  /** What the show request yields: a thrown error (with the HTTP status when
      there is one) or a body whose `data` field may be missing. */
  datatype ShowReply = Thrown(status: Option<int>) | Body(data: Option<ShowData>)

  datatype View = Spinner | Blank | Ready

  /** The page after its load effect has run. */
  datatype Loaded = Loaded(requested: bool, show: Option<ShowData>, effects: seq<Effect>, view: View)

  const LoadFailedText: string := "Failed to load screen layout"
  const ShowNotFoundText: string := "Show not found"

  /** The spinner stays unless a show with a non-empty layout arrived. */
  function ViewOf(show: Option<ShowData>): View {
    if show.Some? && |show.value.layout| > 0 then Ready else Spinner
  }

  /** The routed page: nothing is requested without a stored token and a show
      id; any failure shows one error toast and leaves the spinner up. */
  function LoadRouted(token: Option<string>, showId: Option<string>, reply: ShowReply): (r: Loaded)
    ensures r.requested <==> Truthy(token) && Truthy(showId)
    ensures r.view == Ready <==> r.requested && reply.Body? && r.show == reply.data && ViewOf(reply.data) == Ready
    ensures r.view != Blank
    ensures r.effects != [] <==> r.requested && reply.Thrown?
    ensures r.effects != [] ==> r.effects == [Toast(Error, LoadFailedText)] && r.view == Spinner
  {
    if !(Truthy(token) && Truthy(showId)) then Loaded(false, None, [], Spinner)
    else match reply
      case Thrown(_) => Loaded(true, None, [Toast(Error, LoadFailedText)], Spinner)
      case Body(data) => Loaded(true, data, [], ViewOf(data))
  }

  /** The features page: the request needs only the show id (the HTTP client
      adds the token); a 401 is left to the client's global handler, any other
      failure toasts, blanks the page and moves to the not-found page. Without
      a show id the spinner never goes away. */
  function LoadFeatures(showId: Option<string>, reply: ShowReply): (r: Loaded)
    ensures r.requested <==> Truthy(showId)
    ensures r.view == Spinner <==> !r.requested
    ensures r.view == Ready <==> r.requested && reply.Body? && r.show == reply.data && ViewOf(reply.data) == Ready
    ensures r.requested && reply.Thrown? && reply.status == Some(401) ==> r.effects == [] && r.view == Blank
    ensures r.effects != [] <==> r.requested && reply.Thrown? && reply.status != Some(401)
    ensures r.effects != [] ==> r.effects == [Toast(Error, ShowNotFoundText), Navigate("/404", false)] && r.view == Blank
  {
    if !Truthy(showId) then Loaded(false, None, [], Spinner)
    else match reply
      case Thrown(status) =>
        if status == Some(401) then Loaded(true, None, [], Blank)
        else Loaded(true, None, [Toast(Error, ShowNotFoundText), Navigate("/404", false)], Blank)
      case Body(data) => Loaded(true, data, [], if ViewOf(data) == Ready then Ready else Blank)
  }

  /** With a token and a show id, a successful reply renders the same show in
      both variants; they differ only in how they fail. */
  lemma LoadVariantsAgreeOnSuccess(token: Option<string>, showId: Option<string>, data: Option<ShowData>)
    requires Truthy(token) && Truthy(showId)
    ensures LoadRouted(token, showId, Body(data)).show == LoadFeatures(showId, Body(data)).show
    ensures LoadRouted(token, showId, Body(data)).view == Ready <==> LoadFeatures(showId, Body(data)).view == Ready
  {
  }

  /** The selection state the loaded show sets up: its layout and prices, the
      labels of every seat in its orders, and the party size from the arrival
      state (`seats || 1`). */
  function ShowOf(data: ShowData, arrival: Arrival): (s: Show)
    ensures s.layout == data.layout && s.prices == data.prices
    ensures s.seatLimit != 0
    ensures arrival.seats.Some? && arrival.seats.value != 0 ==> s.seatLimit == arrival.seats.value
    ensures arrival.seats.None? || arrival.seats.value == 0 ==> s.seatLimit == 1
    ensures s.seatLimit == SeatLimitOf(arrival.seats)
    ensures s.booked == BookedSet(data.orders)
  {
    Show(data.layout, data.prices, BookedSet(data.orders), SeatLimitOf(arrival.seats))
  }

  /** A seat someone has already ordered for this show cannot be picked: on
      the loaded page every toggle of its label, in any mode, leaves the
      selection as it was. */
  lemma OrderedSeatsStayFree(data: ShowData, arrival: Arrival, sel: seq<SelectedSeat>, force: Option<Mode>, i: nat, j: nat)
    requires i < |data.orders| && data.orders[i].seats.Some? && j < |data.orders[i].seats.value|
    ensures var seat := data.orders[i].seats.value[j];
            Toggle(ShowOf(data, arrival), sel, SeatLabel(seat.row, seat.column), force) == sel
  {
    var seat := data.orders[i].seats.value[j];
    BookedSetMembers(data.orders, SeatLabel(seat.row, seat.column));
  }

  /** `seatsLeft > 0 && (seatsLeft)` in the heading: the count of seats still
      to pick, shown only while positive. */
  function Countdown(show: Show, sel: seq<SelectedSeat>): (r: Option<int>)
    ensures r.Some? ==> r.value > 0 && r.value + |sel| == show.seatLimit
    ensures r.None? <==> |sel| >= show.seatLimit
  {
    var left := show.seatLimit - |sel|;
    if left > 0 then Some(left) else None
  }

  /** Either the warning toast of an incomplete selection, or the navigation to
      the summary page together with its state. */
  datatype PayOutcome = Blocked(warning: Effect) | Proceed(go: Effect, state: Handoff)

  /** The pay button. */
  function Pay(show: Show, sel: seq<SelectedSeat>, data: ShowData, showId: Option<string>): (r: PayOutcome)
    ensures r.Blocked? <==> |sel| < show.seatLimit
    ensures r.Blocked? ==> r.warning == Toast(Warning, "Please select all " + IntToString(show.seatLimit) + " seats before proceeding!")
    ensures r.Proceed? ==> r.go == Navigate("/bookingDetails", false)
    ensures r.Proceed? ==> r.state.bookedSeats == Some(sel) && r.state.from.None?
    ensures r.Proceed? ==> r.state.totalPrice == Some(Total(show.prices, sel))
    ensures r.Proceed? ==> r.state.showId == showId && r.state.movieName == Some(data.movieName)
    ensures r.Proceed? ==> r.state.date == Some(data.date) && r.state.time == Some(data.time)
  {
    if |sel| < show.seatLimit then
      Blocked(Toast(Warning, "Please select all " + IntToString(show.seatLimit) + " seats before proceeding!"))
    else
      Proceed(Navigate("/bookingDetails", false),
              Handoff(Some(Total(show.prices, sel)), Some(sel), Some(data.movieName), Some(data.time), Some(data.date), showId, None))
  }

  /** For a valid selection the heading and the pay button agree: the pay
      button proceeds exactly when no countdown is shown, and then the party
      is complete. */
  lemma PayMatchesCountdown(show: Show, sel: seq<SelectedSeat>, data: ShowData, showId: Option<string>)
    requires Valid(show, sel)
    ensures Pay(show, sel, data, showId).Proceed? <==> Countdown(show, sel).None?
    ensures Pay(show, sel, data, showId).Proceed? ==> |sel| == show.seatLimit
  {
  }

  /** What the seat page hands over is what the summary page shows: the
      session is accepted whenever the route carried a show id, the seats and
      the subtotal arrive unchanged, and cancelling goes one step back. */
  lemma HandoffAccepted(show: Show, sel: seq<SelectedSeat>, data: ShowData, showId: Option<string>)
    requires Truthy(showId)
    requires Pay(show, sel, data, showId).Proceed?
    ensures var state := Some(Pay(show, sel, data, showId).state);
            && Open(state).renders
            && SeatsOf(state) == sel
            && Subtotal(state) == Total(show.prices, sel)
            && MovieNameOf(state) == OrElse(Some(data.movieName), "Unknown Movie")
            && Cancel(state) == NavigateBack
  {
  }

  /** The order the summary page places books what the seat page chose: the
      show id of the route and one payload seat per selected seat, in order,
      each carrying that seat's category. */
  lemma OrderBooksSelection(show: Show, sel: seq<SelectedSeat>, data: ShowData, showId: Option<string>,
                            token: Option<string>, reply: OrderReply)
    requires Truthy(token)
    requires Pay(show, sel, data, showId).Proceed?
    ensures var r := HandlePayment(token, Some(Pay(show, sel, data, showId).state), reply);
            && r.request.Some?
            && r.request.value.showtimeId == showId
            && |r.request.value.seats| == |sel|
            && forall i :: 0 <= i < |sel| ==> r.request.value.seats[i] == EncodeSeat(sel[i])
  {
  }

  /** The back arrow: to the page named in `from`, otherwise one step back. */
  function Back(arrival: Arrival): (r: Effect)
    ensures r.Navigate? <==> Truthy(arrival.from)
    ensures r.Navigate? ==> r.path == arrival.from.value
    ensures !r.Navigate? ==> r == NavigateBack
  {
    if Truthy(arrival.from) then Navigate(arrival.from.value, false) else NavigateBack
  }

  // ---------------------------------------------------------------------
  // The two-section example
  // ---------------------------------------------------------------------

  const ExamplePrices: seq<PriceEntry> := [PriceEntry(200, "A"), PriceEntry(150, "B")]
  const ExampleLayout: seq<LayoutBlock> := [LayoutBlock("A", ['A', 'B'], (1, 10)), LayoutBlock("B", ['C'], (1, 10))]
  const ExampleShow: Show := Show(ExampleLayout, ExamplePrices, {}, 2)

  const A1: SelectedSeat := SelectedSeat("A1", "A")
  const A2: SelectedSeat := SelectedSeat("A2", "A")

  /** Pressing A1 then entering A2 in select mode picks both, category A. */
  lemma ExampleSelects()
    ensures Toggle(ExampleShow, [], "A1", Some(Select)) == [A1]
    ensures Toggle(ExampleShow, [A1], "A2", Some(Select)) == [A1, A2]
  {
    assert SectionType(ExampleLayout, "A1") == "A" by { SectionTypeFirstWins(ExampleLayout, "A1", 0); }
    assert SectionType(ExampleLayout, "A2") == "A" by { SectionTypeFirstWins(ExampleLayout, "A2", 0); }
    assert ResolveCategory(ExamplePrices, "A") == "A" by { assert ExamplePrices[0].layoutType == "A"; }
    assert !Selected([A1], "A2");
    assert [A1] + [A2] == [A1, A2];
  }

  /** Pressing A1 again then entering A2 in deselect mode drops both. */
  lemma ExampleDeselects()
    ensures Toggle(ExampleShow, [A1, A2], "A1", Some(Deselect)) == [A2]
    ensures Toggle(ExampleShow, [A2], "A2", Some(Deselect)) == []
  {
    assert [A1, A2][0].seat == "A1";
    assert [A2][0].seat == "A2";
    WithoutUnique([A1, A2], "A1", 0);
    WithoutUnique([A2], "A2", 0);
  }

  /** Party of two over sections A (rows A and B, 200 each) and B (row C, 150):
      pressing A1 and dragging onto A2 selects both for 400; pressing A1 again
      and dragging onto A2 clears both, back to 0. */
  lemma DragExample(v: Variant)
    ensures var p1 := Step(v, ExampleShow, Page([], Idle), Down("A1"));
            var p2 := Step(v, ExampleShow, p1, Enter("A2"));
            var p3 := Step(v, ExampleShow, p2, Up);
            var p4 := Step(v, ExampleShow, p3, Down("A1"));
            var p5 := Step(v, ExampleShow, p4, Enter("A2"));
            && p2.sel == [A1, A2]
            && Total(ExamplePrices, p2.sel) == 400
            && p4.drag == Painting(Deselect)
            && p5.sel == []
            && Total(ExamplePrices, p5.sel) == 0
  {
    ExampleSelects();
    ExampleDeselects();
    assert [A1, A2][0].seat == "A1";
    PriceForMatch(ExamplePrices, "A", 0);
    TotalUniform(ExamplePrices, [A1, A2], "A", 200);
  }
}

=== FILE: search.dfy ===
/** The home page in both variants (src/pages/Home.tsx and
    src/features/home/Home.tsx): the movie and theater lists, the
    case-insensitive search over their names, the initial tab, and what
    loading shows or reports. Letter case is ASCII. */
module Search {
  import opened Common
  import opened Types

  /** A movie card or a theater: only the name matters to the search. */
  datatype Listing = Listing(id: string, name: string)

  /** `name.toLowerCase().includes(query.toLowerCase())`. */
  predicate Matches(name: string, query: string) {
    Contains(Lower(name), Lower(query))
  }

  function Search(items: seq<Listing>, query: string): seq<Listing> {
    Filter(items, (l: Listing) => Matches(l.name, query))
  }

  /** An item is listed iff it is one of the items and its lower-cased
      name contains the lower-cased query. */
  lemma SearchKeepsExactly(items: seq<Listing>, query: string, x: Listing)
    ensures x in Search(items, query) <==> x in items && Matches(x.name, query)
  {
    var r := Search(items, query);
    if x in r {
      var i :| 0 <= i < |r| && r[i] == x;
    }
    if x in items && Matches(x.name, query) {
      var i :| 0 <= i < |items| && items[i] == x;
    }
  }

  /** Results come in list order: searching a concatenation searches each
      part. */
  lemma SearchKeepsOrder(a: seq<Listing>, b: seq<Listing>, query: string)
    ensures Search(a + b, query) == Search(a, query) + Search(b, query)
  {
    FilterConcat(a, b, (l: Listing) => Matches(l.name, query));
  }

  /** Every string contains the empty string. */
  lemma ContainsEmpty(s: string)
    ensures Contains(s, "")
  {
    assert OccursAt(s, "", 0);
  }

  /** An empty query lists everything. */
  lemma EmptyQueryKeepsAll(items: seq<Listing>)
    ensures Search(items, "") == items
  {
    forall i | 0 <= i < |items| ensures Matches(items[i].name, "") {
      assert Lower("") == "";
      ContainsEmpty(Lower(items[i].name));
    }
    FilterKeepsAll(items, (l: Listing) => Matches(l.name, ""));
  }

  lemma LowerUpper(s: string)
    ensures Lower(Upper(s)) == Lower(s)
  {
    var a := Lower(Upper(s));
    forall i | 0 <= i < |s| ensures a[i] == Lower(s)[i] {
      assert Upper(s)[i] == UpperChar(s[i]);
    }
  }

  lemma LowerLower(s: string)
    ensures Lower(Lower(s)) == Lower(s)
  {
    var a := Lower(Lower(s));
    forall i | 0 <= i < |s| ensures a[i] == Lower(s)[i] {
      assert Lower(s)[i] == LowerChar(s[i]);
    }
  }

  /** Typing the query in capitals or in lower case gives the same list. */
  lemma QueryCaseIrrelevant(items: seq<Listing>, query: string)
    ensures Search(items, Upper(query)) == Search(items, query)
    ensures Search(items, Lower(query)) == Search(items, query)
  {
    LowerUpper(query);
    LowerLower(query);
    FilterSame(items, (l: Listing) => Matches(l.name, Upper(query)), (l: Listing) => Matches(l.name, query));
    FilterSame(items, (l: Listing) => Matches(l.name, Lower(query)), (l: Listing) => Matches(l.name, query));
  }

  /** `String.prototype.includes` by a left-to-right scan. */
  method Includes(hay: string, needle: string) returns (b: bool)
    ensures b <==> Contains(hay, needle)
  {
    if |needle| > |hay| {
      return false;
    }
    var i := 0;
    while i <= |hay| - |needle|
      invariant 0 <= i <= |hay| - |needle| + 1
      invariant forall j :: 0 <= j < i ==> !OccursAt(hay, needle, j)
    {
      if hay[i..i + |needle|] == needle {
        assert OccursAt(hay, needle, i);
        return true;
      }
      i := i + 1;
    }
    return false;
  }

  // ---------------------------------------------------------------------
  // The page
  // ---------------------------------------------------------------------

  /** `location.state?.activeTab || 'movie'`. */
  function InitialTab(activeTab: Option<string>): (r: string)
    ensures Truthy(activeTab) ==> r == activeTab.value
    ensures !Truthy(activeTab) ==> r == "movie"
  {
    OrElse(activeTab, "movie")
  }

  const MoviesFailedText: string := "Failed to load movies. Please try again later."
  const TheatersFailedText: string := "Failed to load theaters. Please try again later."

  /** The movies reply: failed (network, non-OK or unreadable) or the list. */
  datatype MoviesReply = MoviesFailed | MoviesListed(movies: seq<Listing>)

  /** The theaters reply; `data` is absent when the body's `data` field is
      not an array. */
  datatype TheatersReply = TheatersFailed | TheatersBody(data: Option<seq<Listing>>)

  datatype Lists = Lists(requested: bool, movies: seq<Listing>, theaters: seq<Listing>, effects: seq<Effect>)

  /** The two fetches of src/pages/Home.tsx. Each list is the reply's or,
      on any failure, empty with one error toast. */
  function HomeLoad(token: Option<string>, movies: MoviesReply, theaters: TheatersReply): (r: Lists)
    ensures r.requested <==> Truthy(token)
    ensures !r.requested ==> r == Lists(false, [], [], [])
    ensures r.requested ==> (r.movies == if movies.MoviesListed? then movies.movies else [])
    ensures r.requested ==> (r.theaters == if theaters.TheatersBody? && theaters.data.Some? then theaters.data.value else [])
    ensures CountToasts(r.effects, Error) == |r.effects|
    ensures r.requested ==> (CountToasts(r.effects, Error) ==
              (if movies.MoviesFailed? then 1 else 0) + (if theaters.TheatersBody? && theaters.data.Some? then 0 else 1))
  {
    if !Truthy(token) then Lists(false, [], [], [])
    else
      var (ms, me) := if movies.MoviesListed? then (movies.movies, []) else ([], [Toast(Error, MoviesFailedText)]);
      var (ts, te) := if theaters.TheatersBody? && theaters.data.Some? then (theaters.data.value, [])
                      else ([], [Toast(Error, TheatersFailedText)]);
      CountsConcat(me, te, Error, "");
      Lists(true, ms, ts, me + te)
  }

  datatype View = Loader | Shown(tab: string, movies: seq<Listing>, theaters: seq<Listing>)

  /** src/features/home/Home.tsx: a loader until both lists have loaded,
      then both lists narrowed by the query. */
  function HomeView(tab: string, loadingMovies: bool, loadingTheaters: bool, movies: seq<Listing>, theaters: seq<Listing>, query: string): (r: View)
    ensures r.Loader? <==> loadingMovies || loadingTheaters
    ensures r.Shown? ==> r.tab == tab
    ensures r.Shown? ==> forall x :: x in r.movies <==> x in movies && Matches(x.name, query)
    ensures r.Shown? ==> forall x :: x in r.theaters <==> x in theaters && Matches(x.name, query)
  {
    if loadingMovies || loadingTheaters then Loader
    else
      var r := Shown(tab, Search(movies, query), Search(theaters, query));
      assert forall x :: x in r.movies <==> x in movies && Matches(x.name, query) by {
        forall x { SearchKeepsExactly(movies, query, x); }
      }
      assert forall x :: x in r.theaters <==> x in theaters && Matches(x.name, query) by {
        forall x { SearchKeepsExactly(theaters, query, x); }
      }
      r
  }
}

=== FILE: seat_grid.dfy ===
/** The seat grid (src/features/booking/SeatGrid.tsx, and the identical inline
    grid of src/components/ScreenPage.tsx): sections in layout order, rows in
    listed order, seats `${row}${i + 1}` for i below `columns[1]`. */
module SeatGrid {
  import opened Common
  import opened Types
  import opened Pricing
  import opened Selection
  import opened Gesture

  /** One rendered seat: its label, its two flags and the two actions it
      forwards to the page. */
  datatype Cell = Cell(tag: string, selected: bool, booked: bool, onPress: Event, onEnter: Event)

  /** One rendered section: header price and category, then its rows. */
  datatype SectionView = SectionView(kind: string, price: int, rows: seq<seq<Cell>>)

  /** `Array.from({ length: columns[1] })`: a negative length yields no seats;
      `columns[0]` is never read. */
  function RowWidth(block: LayoutBlock): nat {
    if block.columns.1 < 0 then 0 else block.columns.1
  }

  function RenderCell(tag: string, sel: seq<SelectedSeat>, booked: set<string>): Cell {
    Cell(tag, Selected(sel, tag), tag in booked, Down(tag), Enter(tag))
  }

  function RenderRow(row: char, width: nat, sel: seq<SelectedSeat>, booked: set<string>): seq<Cell> {
    seq(width, i requires 0 <= i < width => RenderCell(SeatLabel([row], i + 1), sel, booked))
  }

  function RenderSection(block: LayoutBlock, prices: seq<PriceEntry>, sel: seq<SelectedSeat>, booked: set<string>): SectionView {
    SectionView(
      block.kind,
      PriceFor(prices, block.kind),
      seq(|block.rows|, i requires 0 <= i < |block.rows| => RenderRow(block.rows[i], RowWidth(block), sel, booked)))
  }

  function RenderGrid(layout: seq<LayoutBlock>, prices: seq<PriceEntry>, sel: seq<SelectedSeat>, booked: set<string>): seq<SectionView> {
    seq(|layout|, k requires 0 <= k < |layout| => RenderSection(layout[k], prices, sel, booked))
  }

  /** Shape and content of the rendered grid: one view per section in layout
      order with the `||`-fallback header price; per section one row per listed
      row; per row `columns[1]` seats labelled row ++ (c + 1); a seat is shown
      selected iff some selection entry carries its label and booked iff its
      label is in the booked set; a press forwards Down and entering forwards
      Enter for that seat only. */
  lemma GridCell(layout: seq<LayoutBlock>, prices: seq<PriceEntry>, sel: seq<SelectedSeat>, booked: set<string>,
                 k: nat, i: nat, c: nat)
    requires k < |layout| && i < |layout[k].rows| && c < RowWidth(layout[k])
    ensures var g := RenderGrid(layout, prices, sel, booked);
            && |g| == |layout|
            && g[k].kind == layout[k].kind
            && g[k].price == PriceFor(prices, layout[k].kind)
            && |g[k].rows| == |layout[k].rows|
            && |g[k].rows[i]| == RowWidth(layout[k])
            && var cell := g[k].rows[i][c];
               && cell.tag == SeatLabel([layout[k].rows[i]], c + 1)
               && (cell.selected <==> cell.tag in Labels(sel))
               && (cell.booked <==> cell.tag in booked)
               && cell.onPress == Down(cell.tag)
               && cell.onEnter == Enter(cell.tag)
  {
    var g := RenderGrid(layout, prices, sel, booked);
    var block := layout[k];
    assert g[k] == RenderSection(block, prices, sel, booked);
    assert g[k].rows[i] == RenderRow(block.rows[i], RowWidth(block), sel, booked);
    var tag := SeatLabel([block.rows[i]], c + 1);
    assert g[k].rows[i][c] == RenderCell(tag, sel, booked);
    LabelsSelected(sel, tag);
  }

  /** Two grid labels are equal only for the same row and column. */
  lemma SeatLabelInjective(a: char, n: nat, b: char, m: nat)
    requires SeatLabel([a], n) == SeatLabel([b], m)
    ensures a == b && n == m
  {
    assert SeatLabel([a], n)[0] == a && SeatLabel([b], m)[0] == b;
    assert SeatLabel([a], n)[1..] == NatToString(n);
    assert SeatLabel([b], m)[1..] == NatToString(m);
    NatToStringInjective(n, m);
  }

  /** No row belongs to two sections. */
  predicate RowsPartitioned(layout: seq<LayoutBlock>) {
    forall k1, k2, r :: 0 <= k1 < k2 < |layout| && r in layout[k1].rows ==> r !in layout[k2].rows
  }

  /** When rows are partitioned, pressing any seat drawn in section k resolves
      to that section's category in the reducer. */
  lemma GridSeatResolvesToItsSection(layout: seq<LayoutBlock>, k: nat, i: nat, c: nat)
    requires RowsPartitioned(layout)
    requires k < |layout| && i < |layout[k].rows|
    ensures SectionType(layout, SeatLabel([layout[k].rows[i]], c + 1)) == layout[k].kind
  {
    var tag := SeatLabel([layout[k].rows[i]], c + 1);
    assert tag[0] == layout[k].rows[i];
    SectionTypeFirstWins(layout, tag, k);
  }

  /** Every label drawn in a layout, section by section and row by row. */
  function GridLabels(layout: seq<LayoutBlock>): seq<string>
    decreases |layout|
  {
    if |layout| == 0 then []
    else GridLabels(layout[..|layout| - 1]) + SectionLabels(layout[|layout| - 1])
  }

  function SectionLabels(block: LayoutBlock): seq<string> {
    RowsLabels(block.rows, RowWidth(block))
  }

  function RowsLabels(rows: seq<char>, width: nat): seq<string>
    decreases |rows|
  {
    if |rows| == 0 then []
    else RowsLabels(rows[..|rows| - 1], width) + seq(width, i requires 0 <= i < width => SeatLabel([rows[|rows| - 1]], i + 1))
  }

  /** The grid holds exactly |rows| * columns[1] seats per section. */
  lemma {:induction false} RowsLabelsCount(rows: seq<char>, width: nat)
    ensures |RowsLabels(rows, width)| == |rows| * width
    decreases |rows|
  {
    if |rows| > 0 {
      RowsLabelsCount(rows[..|rows| - 1], width);
      assert (|rows| - 1) * width + width == |rows| * width;
    }
  }

  /** A label occurs in a section iff it is row ++ c for a listed row and
      1 <= c <= columns[1]. */
  lemma {:induction false} RowsLabelsMembers(rows: seq<char>, width: nat, tag: string)
    ensures tag in RowsLabels(rows, width) <==>
              exists i, c :: 0 <= i < |rows| && 1 <= c <= width && tag == SeatLabel([rows[i]], c)
    decreases |rows|
  {
    if |rows| > 0 {
      var n := |rows| - 1;
      var last := seq(width, i requires 0 <= i < width => SeatLabel([rows[n]], i + 1));
      RowsLabelsMembers(rows[..n], width, tag);
      if tag in RowsLabels(rows, width) {
        if tag in last {
          var i :| 0 <= i < width && last[i] == tag;
          assert tag == SeatLabel([rows[n]], i + 1);
        } else {
          assert tag in RowsLabels(rows[..n], width);
          var i, c :| 0 <= i < n && 1 <= c <= width && tag == SeatLabel([rows[..n][i]], c);
          assert rows[..n][i] == rows[i];
        }
      }
      if exists i, c :: 0 <= i < |rows| && 1 <= c <= width && tag == SeatLabel([rows[i]], c) {
        var i, c :| 0 <= i < |rows| && 1 <= c <= width && tag == SeatLabel([rows[i]], c);
        if i == n {
          assert last[c - 1] == tag;
        } else {
          assert rows[..n][i] == rows[i];
        }
      }
    }
  }

  /** The label list of section k is exactly the set of tags the rendered
      grid draws in that section. */
  lemma SectionLabelsAreDrawn(layout: seq<LayoutBlock>, prices: seq<PriceEntry>, sel: seq<SelectedSeat>,
                              booked: set<string>, k: nat, tag: string)
    requires k < |layout|
    ensures var g := RenderGrid(layout, prices, sel, booked);
            tag in SectionLabels(layout[k]) <==>
              exists i, c :: 0 <= i < |g[k].rows| && 0 <= c < |g[k].rows[i]| && g[k].rows[i][c].tag == tag
  {
    var g := RenderGrid(layout, prices, sel, booked);
    var block := layout[k];
    RowsLabelsMembers(block.rows, RowWidth(block), tag);
    assert |g[k].rows| == |block.rows|;
    if tag in SectionLabels(block) {
      var i, c :| 0 <= i < |block.rows| && 1 <= c <= RowWidth(block) && tag == SeatLabel([block.rows[i]], c);
      GridCell(layout, prices, sel, booked, k, i, c - 1);
      assert g[k].rows[i][c - 1].tag == tag;
    }
    if exists i, c :: 0 <= i < |g[k].rows| && 0 <= c < |g[k].rows[i]| && g[k].rows[i][c].tag == tag {
      var i, c :| 0 <= i < |g[k].rows| && 0 <= c < |g[k].rows[i]| && g[k].rows[i][c].tag == tag;
      GridCell(layout, prices, sel, booked, k, i, c);
    }
  }
}

=== FILE: selection.dfy ===
/** The seat-selection reducer `toggleSeat`, shared verbatim by
    src/features/booking/ScreenPage.tsx and src/components/ScreenPage.tsx, and
    the derivation of the booked-seat set from a show's orders. */
module Selection {
  import opened Common
  import opened Types
  import opened Pricing

  datatype Mode = Select | Deselect

  /** What the seat page knows about a show once it is loaded: its layout,
      price table, booked labels and the party size fixed at flow entry. */
  datatype Show = Show(
    layout: seq<LayoutBlock>,
    prices: seq<PriceEntry>,
    booked: set<string>,
    seatLimit: int)

  /** `prev.some(s => s.seat === seat)`. */
  predicate Selected(sel: seq<SelectedSeat>, seat: string) {
    exists i :: 0 <= i < |sel| && sel[i].seat == seat
  }

  /** The labels of a selection. */
  function Labels(sel: seq<SelectedSeat>): set<string> {
    set i | 0 <= i < |sel| :: sel[i].seat
  }

  lemma LabelsSelected(sel: seq<SelectedSeat>, seat: string)
    ensures seat in Labels(sel) <==> Selected(sel, seat)
  {
  }

  lemma LabelsAppend(sel: seq<SelectedSeat>, x: SelectedSeat)
    ensures Labels(sel + [x]) == Labels(sel) + {x.seat}
  {
    var r := sel + [x];
    forall y | y in Labels(sel)
      ensures y in Labels(r)
    {
      var i :| 0 <= i < |sel| && sel[i].seat == y;
      assert r[i] == sel[i];
    }
    assert r[|sel|] == x;
  }

  /** Index of the first section whose rows include `row`. */
  function SectionOf(layout: seq<LayoutBlock>, row: char): Option<nat> {
    IndexWhere(layout, (b: LayoutBlock) => row in b.rows)
  }

  /** `getLayoutTypeForSeat`: the category of the first section owning the
      seat's first character, or "" when the label is empty or no section owns
      its row. */
  function SectionType(layout: seq<LayoutBlock>, seat: string): (r: string)
    ensures r != "" ==> |seat| > 0 && exists k :: 0 <= k < |layout| && seat[0] in layout[k].rows && layout[k].kind == r
    ensures |seat| > 0 && (forall k :: 0 <= k < |layout| ==> seat[0] !in layout[k].rows) ==> r == ""
  {
    if |seat| == 0 then ""
    else match SectionOf(layout, seat[0])
      case None => ""
      case Some(k) => layout[k].kind
  }

  /** When several sections contain the row, the first one decides. */
  lemma SectionTypeFirstWins(layout: seq<LayoutBlock>, seat: string, k: nat)
    requires |seat| > 0 && k < |layout| && seat[0] in layout[k].rows
    requires forall j :: 0 <= j < k ==> seat[0] !in layout[j].rows
    ensures SectionType(layout, seat) == layout[k].kind
  {
    assert ((b: LayoutBlock) => seat[0] in b.rows)(layout[k]);
  }

  /** The category recorded for a newly selected seat: the section's own
      category if the price table has it, else the table's first category (when
      that is non-empty), else the section's category. */
  function ResolveCategory(prices: seq<PriceEntry>, sectionType: string): (r: string)
    ensures r == sectionType || (|prices| > 0 && r == prices[0].layoutType && r != "")
    ensures (exists i :: 0 <= i < |prices| && prices[i].layoutType == sectionType) ==> r == sectionType
    ensures |prices| > 0 && prices[0].layoutType != "" ==>
              exists i :: 0 <= i < |prices| && prices[i].layoutType == r
    ensures sectionType != "" ==> r != ""
  {
    match FindPrice(prices, sectionType)
    case Some(i) => prices[i].layoutType
    case None => if |prices| > 0 && prices[0].layoutType != "" then prices[0].layoutType else sectionType
  }

  /** `prev.filter(s => s.seat !== seat)`. */
  function Without(sel: seq<SelectedSeat>, seat: string): (r: seq<SelectedSeat>)
    ensures |r| <= |sel|
    ensures Selected(sel, seat) ==> |r| < |sel|
    ensures forall i :: 0 <= i < |r| ==> r[i].seat != seat
    ensures forall x :: x in r <==> x in sel && x.seat != seat
  {
    if |sel| == 0 then []
    else if sel[|sel| - 1].seat == seat then Without(sel[..|sel| - 1], seat)
    else Without(sel[..|sel| - 1], seat) + [sel[|sel| - 1]]
  }

  /** Filtering removes exactly the given label from the label set. */
  lemma LabelsWithout(sel: seq<SelectedSeat>, seat: string)
    ensures Labels(Without(sel, seat)) == Labels(sel) - {seat}
  {
    var w := Without(sel, seat);
    forall y | y in Labels(sel) - {seat}
      ensures y in Labels(w)
    {
      var i :| 0 <= i < |sel| && sel[i].seat == y;
      assert sel[i] in w;
      var j :| 0 <= j < |w| && w[j] == sel[i];
    }
    forall y | y in Labels(w)
      ensures y in Labels(sel) - {seat}
    {
      var j :| 0 <= j < |w| && w[j].seat == y;
      assert w[j] in sel;
      var i :| 0 <= i < |sel| && sel[i] == w[j];
    }
  }

  /** Removing a label that does not occur changes nothing. */
  lemma {:induction false} WithoutAbsent(sel: seq<SelectedSeat>, seat: string)
    requires !Selected(sel, seat)
    ensures Without(sel, seat) == sel
    decreases |sel|
  {
    if |sel| > 0 {
      WithoutAbsent(sel[..|sel| - 1], seat);
    }
  }

  /** Filtering distributes over concatenation. */
  lemma {:induction false} WithoutConcat(a: seq<SelectedSeat>, b: seq<SelectedSeat>, seat: string)
    ensures Without(a + b, seat) == Without(a, seat) + Without(b, seat)
    decreases |b|
  {
    if |b| == 0 {
      assert a + b == a;
    } else {
      var n := |b| - 1;
      assert (a + b)[..|a + b| - 1] == a + b[..n];
      WithoutConcat(a, b[..n], seat);
    }
  }

  /** Removing a label that occurs exactly once, at index k, cuts out exactly
      that entry and keeps the others in order. */
  lemma WithoutUnique(sel: seq<SelectedSeat>, seat: string, k: nat)
    requires k < |sel| && sel[k].seat == seat
    requires forall j :: 0 <= j < |sel| && j != k ==> sel[j].seat != seat
    ensures Without(sel, seat) == sel[..k] + sel[k + 1..]
  {
    var before, after := sel[..k], sel[k + 1..];
    assert sel == before + [sel[k]] + after;
    assert !Selected(before, seat) by {
      forall j | 0 <= j < |before| ensures before[j].seat != seat {
        assert before[j] == sel[j];
      }
    }
    assert !Selected(after, seat) by {
      forall j | 0 <= j < |after| ensures after[j].seat != seat {
        assert after[j] == sel[k + 1 + j];
      }
    }
    WithoutAbsent(before, seat);
    WithoutAbsent(after, seat);
    WithoutConcat(before + [sel[k]], after, seat);
    WithoutConcat(before, [sel[k]], seat);
    assert Without([sel[k]], seat) == [] by {
      assert [sel[k]][..0] == [];
    }
  }

  /** The reducer. `force` is the drag mode; without it the seat flips.
      Booked seats are ignored; selecting is a no-op for an already selected
      seat, a full party or a seat whose row belongs to no section (or to a
      section whose category is empty); deselecting is a no-op for a seat that
      is not selected. */
  function Toggle(show: Show, sel: seq<SelectedSeat>, seat: string, force: Option<Mode>): (r: seq<SelectedSeat>)
    ensures seat in show.booked ==> r == sel
    ensures |r| > |sel| ==>
              && !Selected(sel, seat) && |sel| < show.seatLimit && SectionType(show.layout, seat) != ""
              && r == sel + [SelectedSeat(seat, ResolveCategory(show.prices, SectionType(show.layout, seat)))]
    ensures |r| <= |sel| ==> r == sel || (Selected(sel, seat) && r == Without(sel, seat))
    ensures force == Some(Select) ==> Labels(sel) <= Labels(r)
    ensures force == Some(Deselect) ==> Labels(r) <= Labels(sel)
    ensures force == Some(Deselect) && seat !in show.booked ==> seat !in Labels(r)
    ensures seat !in show.booked && !Selected(sel, seat) && |sel| < show.seatLimit
            && SectionType(show.layout, seat) != "" && force != Some(Deselect) ==>
              r == sel + [SelectedSeat(seat, ResolveCategory(show.prices, SectionType(show.layout, seat)))]
    ensures seat !in show.booked && Selected(sel, seat) && force != Some(Select) ==> r == Without(sel, seat)
    ensures SectionType(show.layout, seat) == "" && !Selected(sel, seat) ==> r == sel
  {
    if seat in show.booked then sel
    else
      var present := Selected(sel, seat);
      var shouldSelect := if force.Some? then force.value == Select else !present;
      if shouldSelect then
        if present || |sel| >= show.seatLimit then sel
        else
          var sectionType := SectionType(show.layout, seat);
          if sectionType == "" then sel
          else
            var added := SelectedSeat(seat, ResolveCategory(show.prices, sectionType));
            LabelsAppend(sel, added);
            sel + [added]
      else if !present then sel
      else
        LabelsWithout(sel, seat);
        Without(sel, seat)
  }

  // ---------------------------------------------------------------------
  // The selection invariant
  // ---------------------------------------------------------------------

  predicate UniqueLabels(sel: seq<SelectedSeat>) {
    forall i, j :: 0 <= i < j < |sel| ==> sel[i].seat != sel[j].seat
  }

  /** What every reachable selection satisfies: labels are unique, the party
      size is respected, no booked seat is chosen and every chosen seat lies in
      a section with a category. */
  predicate Valid(show: Show, sel: seq<SelectedSeat>) {
    && UniqueLabels(sel)
    && |sel| <= show.seatLimit
    && (forall i :: 0 <= i < |sel| ==> sel[i].seat !in show.booked)
    && (forall i :: 0 <= i < |sel| ==> SectionType(show.layout, sel[i].seat) != "")
  }

  lemma UniqueAppend(w: seq<SelectedSeat>, x: SelectedSeat)
    requires UniqueLabels(w)
    requires forall i :: 0 <= i < |w| ==> w[i].seat != x.seat
    ensures UniqueLabels(w + [x])
  {
    var r := w + [x];
    forall i, j | 0 <= i < j < |r|
      ensures r[i].seat != r[j].seat
    {
      if j == |w| {
        assert r[i] == w[i];
      } else {
        assert r[i] == w[i] && r[j] == w[j];
      }
    }
  }

  lemma {:induction false} WithoutKeepsUnique(sel: seq<SelectedSeat>, seat: string)
    requires UniqueLabels(sel)
    ensures UniqueLabels(Without(sel, seat))
    decreases |sel|
  {
    if |sel| > 0 {
      var n := |sel| - 1;
      var init := sel[..n];
      assert UniqueLabels(init) by {
        forall i, j | 0 <= i < j < |init|
          ensures init[i].seat != init[j].seat
        {
          assert init[i] == sel[i] && init[j] == sel[j];
        }
      }
      WithoutKeepsUnique(init, seat);
      var w := Without(init, seat);
      if sel[n].seat != seat {
        forall i | 0 <= i < |w|
          ensures w[i].seat != sel[n].seat
        {
          assert w[i] in init;
          var j :| 0 <= j < |init| && init[j] == w[i];
          assert sel[j] == w[i];
        }
        UniqueAppend(w, sel[n]);
      }
    }
  }

  /** Every toggle keeps a valid selection valid. */
  lemma ToggleKeepsValid(show: Show, sel: seq<SelectedSeat>, seat: string, force: Option<Mode>)
    requires Valid(show, sel)
    ensures Valid(show, Toggle(show, sel, seat, force))
  {
    var r := Toggle(show, sel, seat, force);
    if |r| > |sel| {
      assert r[|sel|].seat == seat;
      assert !Selected(sel, seat);
    } else if r != sel {
      WithoutKeepsUnique(sel, seat);
      forall i | 0 <= i < |r|
        ensures r[i].seat !in show.booked && SectionType(show.layout, r[i].seat) != ""
      {
        assert r[i] in sel;
      }
    }
  }

  /** Toggling the same free seat twice, without a drag mode, gives back the
      same set of labels. */
  lemma ToggleTwice(show: Show, sel: seq<SelectedSeat>, seat: string)
    requires Valid(show, sel) && seat !in show.booked
    ensures Labels(Toggle(show, Toggle(show, sel, seat, None), seat, None)) == Labels(sel)
  {
    var once := Toggle(show, sel, seat, None);
    var twice := Toggle(show, once, seat, None);
    if Selected(sel, seat) {
      var k :| 0 <= k < |sel| && sel[k].seat == seat;
      assert once == Without(sel, seat);
      LabelsWithout(sel, seat);
      assert !Selected(once, seat);
      assert |once| < |sel|;
      var added := SelectedSeat(seat, ResolveCategory(show.prices, SectionType(show.layout, seat)));
      assert twice == once + [added];
      LabelsAppend(once, added);
    } else if once != sel {
      var added := SelectedSeat(seat, ResolveCategory(show.prices, SectionType(show.layout, seat)));
      assert once == sel + [added];
      LabelsAppend(sel, added);
      assert once[|sel|].seat == seat;
      assert twice == Without(once, seat);
      LabelsWithout(once, seat);
    }
  }

  // ---------------------------------------------------------------------
  // Booked seats
  // ---------------------------------------------------------------------

  /** An order attached to a show: `order.seatData?.seats`, None when either
      level is missing. */
  datatype ShowOrder = ShowOrder(seats: Option<seq<SeatData>>)

  function SeatLabels(seats: seq<SeatData>): set<string> {
    set j | 0 <= j < |seats| :: SeatLabel(seats[j].row, seats[j].column)
  }

  /** The booked set built by the two nested `forEach` loops. */
  function BookedSet(orders: seq<ShowOrder>): set<string> {
    if |orders| == 0 then {}
    else
      var last := orders[|orders| - 1];
      BookedSet(orders[..|orders| - 1]) + (if last.seats.Some? then SeatLabels(last.seats.value) else {})
  }

  /** A label is booked iff some seat of some order that carries seats renders
      to it. */
  lemma {:induction false} BookedSetMembers(orders: seq<ShowOrder>, tag: string)
    ensures tag in BookedSet(orders) <==>
              exists i, j :: 0 <= i < |orders| && orders[i].seats.Some? && 0 <= j < |orders[i].seats.value|
                             && SeatLabel(orders[i].seats.value[j].row, orders[i].seats.value[j].column) == tag
    decreases |orders|
  {
    if |orders| > 0 {
      var n := |orders| - 1;
      BookedSetMembers(orders[..n], tag);
      if tag in BookedSet(orders) && tag !in BookedSet(orders[..n]) {
        var j :| 0 <= j < |orders[n].seats.value| && SeatLabel(orders[n].seats.value[j].row, orders[n].seats.value[j].column) == tag;
      }
      if tag !in BookedSet(orders) {
        forall i, j | 0 <= i < |orders| && orders[i].seats.Some? && 0 <= j < |orders[i].seats.value|
          ensures SeatLabel(orders[i].seats.value[j].row, orders[i].seats.value[j].column) != tag
        {
          if i < n {
            assert orders[..n][i] == orders[i];
          }
        }
      }
    }
  }
}

=== FILE: session.dfy ===
/** The session store (src/auth/AuthContext.tsx): the token, e-mail and
    authentication flag, mirrored in browser storage under three keys; restored
    on mount unless expired, cleared on logout, on an expiry timer and on the
    first of a burst of unauthorized replies. Time is a parameter (milliseconds
    since the epoch) and storage is a map. */
module Session {
  import opened Common
  import opened Types

  const TokenKey: string := "accessToken"
  const ExpireKey: string := "expireAt"
  const EmailKey: string := "userEmail"

  const ExpiredText: string := "Session expired. Please login again."

  type Storage = map<string, string>

  /** The provider's state: React state, the `isHandlingUnauthorized` ref and
      the storage it mirrors. */
  datatype State = State(
    token: Option<string>,
    email: Option<string>,
    authenticated: bool,
    handling: bool,
    loading: bool,
    storage: Storage)

  /** A state change together with the toasts and navigations it causes. */
  datatype Transition = Transition(s: State, effects: seq<Effect>)

  /** Before the mount effect has run. */
  function Initial(storage: Storage): State {
    State(None, None, false, false, true, storage)
  }

  /** The children are rendered only once the stored session has been read. */
  predicate RendersChildren(s: State) {
    !s.loading
  }

  /** A storage lookup as `localStorage.getItem`: None for a missing key. */
  function Get(storage: Storage, key: string): Option<string> {
    if key in storage then Some(storage[key]) else None
  }

  /** The storage with all three session keys removed. */
  function Cleared(storage: Storage): (r: Storage)
    ensures TokenKey !in r && ExpireKey !in r && EmailKey !in r
    ensures forall k :: k in storage && k != TokenKey && k != ExpireKey && k != EmailKey ==> k in r && r[k] == storage[k]
    ensures forall k :: k in r ==> k in storage
  {
    storage - {TokenKey, ExpireKey, EmailKey}
  }

  /** What holds between every operation: the flag and the token agree, and an
      authenticated token is the one in storage. */
  predicate Consistent(s: State) {
    && (s.authenticated <==> s.token.Some?)
    && (s.token.Some? ==> Get(s.storage, TokenKey) == s.token)
  }

  // ---------------------------------------------------------------------
  // Expiry arithmetic
  // ---------------------------------------------------------------------

  /** The mount check `Math.floor(nowMs / 1000) < Number(expireAt)`. */
  predicate AliveAt(expireAt: Option<nat>, nowMs: nat) {
    expireAt.Some? && nowMs / 1000 < expireAt.value
  }

  /** The timer: `Number(expireAt) * 1000 - nowMs` is at most 0, or NaN (an
      unparsable value), in which case `setTimeout` fires at once as well. */
  predicate TimerDueAt(expireAt: Option<nat>, nowMs: nat) {
    expireAt.None? || expireAt.value * 1000 - nowMs <= 0
  }

  /** The mount check and the timer use different arithmetic (whole seconds
      against milliseconds) but agree: at any instant exactly one of them holds. */
  lemma AliveIffNotDue(expireAt: Option<nat>, nowMs: nat)
    ensures AliveAt(expireAt, nowMs) <==> !TimerDueAt(expireAt, nowMs)
  {
    if expireAt.Some? {
      var e := expireAt.value;
      var q := nowMs / 1000;
      assert q * 1000 <= nowMs < q * 1000 + 1000;
      if q < e {
        assert q + 1 <= e;
        MulMonotone(q + 1, e, 1000);
      } else {
        MulMonotone(e, q, 1000);
      }
    }
  }

  lemma MulMonotone(a: int, b: int, k: nat)
    requires a <= b
    ensures a * k <= b * k
  {
  }

  // ---------------------------------------------------------------------
  // Operations
  // ---------------------------------------------------------------------

  /** The mount effect: a stored token and expiry that are still alive are
      restored (with the e-mail when one is stored); a stored but expired or
      unparsable one is wiped; either way loading ends. */
  function Init(storage: Storage, nowMs: nat): (r: State)
    ensures RendersChildren(r) && !r.handling
    ensures Consistent(r)
    ensures r.authenticated <==>
              Truthy(Get(storage, TokenKey)) && Truthy(Get(storage, ExpireKey))
              && AliveAt(ParseNat(storage[ExpireKey]), nowMs)
    ensures r.authenticated ==> r.token == Get(storage, TokenKey) && r.storage == storage
    ensures r.authenticated ==> (r.email == if Truthy(Get(storage, EmailKey)) then Get(storage, EmailKey) else None)
    ensures !r.authenticated ==> r.token.None? && r.email.None?
    ensures !r.authenticated && Truthy(Get(storage, TokenKey)) && Truthy(Get(storage, ExpireKey)) ==>
              r.storage == Cleared(storage)
    ensures !(Truthy(Get(storage, TokenKey)) && Truthy(Get(storage, ExpireKey))) ==> r.storage == storage
  {
    var stored := Get(storage, TokenKey);
    var expire := Get(storage, ExpireKey);
    var email := Get(storage, EmailKey);
    if Truthy(stored) && Truthy(expire) then
      if AliveAt(ParseNat(expire.value), nowMs) then
        State(stored, if Truthy(email) then email else None, true, false, false, storage)
      else
        State(None, None, false, false, false, Cleared(storage))
    else
      State(None, None, false, false, false, storage)
  }

  /** `login(token, expireAt, email)`. The login page passes no e-mail, in
      which case the string "undefined" is what gets stored. Re-arms the
      unauthorized handler. */
  function Login(s: State, token: string, expireAt: nat, email: Option<string>): (r: State)
    ensures r.authenticated && r.token == Some(token) && r.email == email && !r.handling
    ensures Consistent(r)
    ensures Get(r.storage, ExpireKey) == Some(NatToString(expireAt))
    ensures Get(r.storage, EmailKey) == Some(if email.Some? then email.value else "undefined")
    ensures forall k :: k != TokenKey && k != ExpireKey && k != EmailKey ==> Get(r.storage, k) == Get(s.storage, k)
  {
    var storage := s.storage[TokenKey := token][ExpireKey := NatToString(expireAt)]
                   [EmailKey := if email.Some? then email.value else "undefined"];
    State(Some(token), email, true, false, s.loading, storage)
  }

  /** `logout()`: storage and state are cleared and the user is sent to the
      login page. The unauthorized guard is left as it was. */
  function Logout(s: State): (r: Transition)
    ensures !r.s.authenticated && r.s.token.None? && r.s.email.None?
    ensures r.s.storage == Cleared(s.storage)
    ensures r.s.handling == s.handling && r.s.loading == s.loading
    ensures Consistent(r.s)
    ensures r.effects == [Navigate("/login", false)]
  {
    Transition(State(None, None, false, s.handling, s.loading, Cleared(s.storage)), [Navigate("/login", false)])
  }

  /** An `auth:unauthorized` event: the first one toasts and logs out; further
      ones are ignored until the next login. */
  function Unauthorized(s: State): (r: Transition)
    ensures s.handling ==> r == Transition(s, [])
    ensures !s.handling ==> r.s.handling && !r.s.authenticated && r.s.storage == Cleared(s.storage)
    ensures !s.handling ==> r.effects == [Toast(Error, ExpiredText), Navigate("/login", false)]
    ensures Consistent(s) ==> Consistent(r.s)
  {
    if s.handling then Transition(s, [])
    else
      var out := Logout(s.(handling := true));
      Transition(out.s, [Toast(Error, ExpiredText)] + out.effects)
  }

  /** The auto-logout timer observed at `nowMs`: it fires for an authenticated
      session whose stored expiry is due (or unparsable), with an info toast
      and a logout. */
  function Tick(s: State, nowMs: nat): (r: Transition)
    ensures r.s != s <==> r.effects != []
    ensures r.effects != [] <==>
              s.authenticated && Truthy(Get(s.storage, ExpireKey))
              && TimerDueAt(ParseNat(s.storage[ExpireKey]), nowMs)
    ensures r.effects != [] ==> r.effects == [Toast(Info, ExpiredText), Navigate("/login", false)]
    ensures r.effects != [] ==> !r.s.authenticated && r.s.storage == Cleared(s.storage)
    ensures Consistent(s) ==> Consistent(r.s)
  {
    var expire := Get(s.storage, ExpireKey);
    if s.authenticated && Truthy(expire) && TimerDueAt(ParseNat(expire.value), nowMs) then
      var out := Logout(s);
      assert out.s != s by { assert out.s.authenticated != s.authenticated; }
      Transition(out.s, [Toast(Info, ExpiredText)] + out.effects)
    else
      Transition(s, [])
  }

  // ---------------------------------------------------------------------
  // Properties across operations
  // ---------------------------------------------------------------------

  /** A session stored by `login` is restored by the next mount as long as it
      has not expired: same token, same e-mail (when a real one was given). */
  lemma LoginThenInit(s: State, token: string, expireAt: nat, email: string, nowMs: nat)
    requires token != "" && email != ""
    requires nowMs / 1000 < expireAt
    ensures var r := Init(Login(s, token, expireAt, Some(email)).storage, nowMs);
            && r.authenticated && r.token == Some(token) && r.email == Some(email)
  {
    ParseNatToString(expireAt);
  }

  /** Once expired, the same stored session is wiped by the next mount instead. */
  lemma LoginThenInitExpired(s: State, token: string, expireAt: nat, email: Option<string>, nowMs: nat)
    requires token != ""
    requires expireAt <= nowMs / 1000
    ensures var stored := Login(s, token, expireAt, email).storage;
            var r := Init(stored, nowMs);
            && !r.authenticated && r.storage == Cleared(stored)
  {
    ParseNatToString(expireAt);
    assert NatToString(expireAt) != "";
  }

  /** A restored session is never due at the instant it is restored, so the
      timer cannot immediately undo the mount. */
  lemma InitNotImmediatelyDue(storage: Storage, nowMs: nat)
    requires Init(storage, nowMs).authenticated
    ensures Tick(Init(storage, nowMs), nowMs).effects == []
  {
    AliveIffNotDue(ParseNat(storage[ExpireKey]), nowMs);
  }

  /** A burst of unauthorized events. */
  function Burst(s: State, n: nat): Transition
    decreases n
  {
    if n == 0 then Transition(s, [])
    else
      var first := Unauthorized(s);
      var rest := Burst(first.s, n - 1);
      Transition(rest.s, first.effects + rest.effects)
  }

  /** However many unauthorized replies arrive together, the user sees one
      toast and is sent to the login page once. */
  lemma {:induction false} BurstHandledOnce(s: State, n: nat)
    requires !s.handling && n >= 1
    ensures var r := Burst(s, n);
            && CountToasts(r.effects, Error) == 1
            && CountNavigations(r.effects, "/login") == 1
            && !r.s.authenticated && r.s.handling
  {
    var first := Unauthorized(s);
    BurstIgnored(first.s, n - 1);
    var e := first.effects;
    CountsConcat([e[0]], [e[1]], Error, "/login");
    CountsSingle(e[0], Error, "/login");
    CountsSingle(e[1], Error, "/login");
    assert e + [] == e;
  }

  /** While the guard is set, unauthorized events change nothing. */
  lemma {:induction false} BurstIgnored(s: State, n: nat)
    requires s.handling
    ensures Burst(s, n) == Transition(s, [])
    decreases n
  {
    if n > 0 {
      BurstIgnored(s, n - 1);
    }
  }

  /** After a new login the guard is down again, so the next unauthorized
      reply is handled. */
  lemma LoginRearmsGuard(s: State, token: string, expireAt: nat, email: Option<string>)
    ensures Unauthorized(Login(s, token, expireAt, email)).effects != []
  {
  }
}

=== FILE: signup_page.dfy ===
/** The sign-up page (src/pages/Signup.tsx): four required fields, the same
    e-mail check as the login page, a password strength rule, then a
    registration request; success clears the form. */
module SignupPage {
  import opened Common
  import opened Types
  import opened Validation

  const MissingDetailsText: string := "Please Enter All Details"
  const BadEmailText: string := "Please enter a valid email address"
  const WeakPasswordText: string := "Password must be at least 8 characters long, include uppercase, lowercase, and a number"
  const RegisteredText: string := "Registration Successful! Please Login Now"
  const RegistrationFailedText: string := "Registration failed"
  const NetworkText: string := "Something went wrong. Try again."

  datatype Form = Form(firstName: string, lastName: string, email: string, password: string)

  const EmptyForm: Form := Form("", "", "", "")

  /** The registration reply: unreachable, or the `ok` flag with the server's
      optional message. */
  datatype SignupReply = Unreachable | Reply(ok: bool, message: Option<string>)

  datatype Registered = Registered(form: Form, requested: bool, effects: seq<Effect>)

  predicate Complete(f: Form) {
    f.firstName != "" && f.lastName != "" && f.email != "" && f.password != ""
  }

  /** The checks in the order the page runs them; the first failure decides. */
  predicate FormPasses(f: Form) {
    Complete(f) && EmailShaped(f.email) && PasswordStrong(f.password)
  }

  /** Pressing Register. A request is made only for a form passing every
      check; only a successful reply clears the form; one toast results. */
  function Register(f: Form, reply: SignupReply): (r: Registered)
    ensures r.requested <==> FormPasses(f)
    ensures |r.effects| == 1 && r.effects[0].Toast?
    ensures !Complete(f) ==> r.effects[0] == Toast(Warning, MissingDetailsText)
    ensures Complete(f) && !EmailShaped(f.email) ==> r.effects[0] == Toast(Error, BadEmailText)
    ensures Complete(f) && EmailShaped(f.email) && !PasswordStrong(f.password) ==> r.effects[0] == Toast(Error, WeakPasswordText)
    ensures r.form != f <==> r.requested && reply.Reply? && reply.ok
    ensures r.form != f ==> r.form == EmptyForm && r.effects[0] == Toast(Success, RegisteredText)
    ensures r.requested && reply.Reply? && !reply.ok ==> r.effects[0] == Toast(Error, OrElse(reply.message, RegistrationFailedText))
  {
    if !Complete(f) then Registered(f, false, [Toast(Warning, MissingDetailsText)])
    else if !EmailShaped(f.email) then Registered(f, false, [Toast(Error, BadEmailText)])
    else if !PasswordStrong(f.password) then Registered(f, false, [Toast(Error, WeakPasswordText)])
    else match reply
      case Unreachable => Registered(f, true, [Toast(Error, NetworkText)])
      case Reply(ok, message) =>
        if ok then Registered(EmptyForm, true, [Toast(Success, RegisteredText)])
        else Registered(f, true, [Toast(Error, OrElse(message, RegistrationFailedText))])
  }

  /** Pressing Register again right after a success sends nothing: the cleared
      form fails the first check. */
  lemma RegisterTwice(f: Form, first: SignupReply, second: SignupReply)
    requires FormPasses(f) && first.Reply? && first.ok
    ensures var again := Register(Register(f, first).form, second);
            && !again.requested
            && again.effects == [Toast(Warning, MissingDetailsText)]
  {
  }

  /** An authenticated visitor is sent home instead of seeing the form. */
  function RedirectIfSignedIn(authenticated: bool): (r: seq<Effect>)
    ensures authenticated <==> r == [Navigate("/home", false)]
    ensures !authenticated ==> r == []
  {
    if authenticated then [Navigate("/home", false)] else []
  }
}

=== FILE: theater_schedule.dfy ===
/** The theater page (src/components/TheaterDetails.tsx): every showtime of
    the theater's screens is bucketed by day and, within a day, by movie; the
    days are shown three at a time in a slider; a chosen slot enables Book Now
    on its own movie card and hands a party size on to the seat page. The
    day of a showtime and its rendered time are inputs (the browser's local
    calendar and clock format are not modelled). */
module TheaterSchedule {
  import opened Common
  import opened Types
  import opened Dates
  import opened Buckets
  import opened Pricing
  import opened ScreenPage

  datatype ShowTime = ShowTime(id: string, movieId: string, day: Date, time: string)
  datatype Movie = Movie(id: string, name: string, languages: seq<string>, category: Option<seq<string>>)
  datatype Slot = Slot(showId: string, time: string)
  datatype MovieSlot = MovieSlot(movieId: string, movieName: string, languages: seq<string>, categories: seq<string>, times: seq<Slot>)

  /** `movieMap.get(id)` after `movieMap.set(m.id, m)` over the list: the
      last movie with that id. */
  function LookupMovie(movies: seq<Movie>, id: string): (r: Option<Movie>)
    ensures r.Some? ==> r.value in movies && r.value.id == id
    ensures r.None? <==> forall i :: 0 <= i < |movies| ==> movies[i].id != id
  {
    if |movies| == 0 then None
    else if movies[|movies| - 1].id == id then Some(movies[|movies| - 1])
    else LookupMovie(movies[..|movies| - 1], id)
  }

  /** A showtime survives the two filters: its movie is one of the theater's
      and its day is today or later. */
  predicate Kept(movies: seq<Movie>, today: Date, s: ShowTime) {
    LookupMovie(movies, s.movieId).Some? && !Before(s.day, today)
  }

  // ---------------------------------------------------------------------
  // One day's bucket
  // ---------------------------------------------------------------------

  predicate MoviesUnique(bucket: seq<MovieSlot>) {
    forall i, j :: 0 <= i < j < |bucket| ==> bucket[i].movieId != bucket[j].movieId
  }

  function EntryOf(bucket: seq<MovieSlot>, movieId: string): Option<nat> {
    IndexWhere(bucket, (e: MovieSlot) => e.movieId == movieId)
  }

  /** The slots listed under a movie in a bucket, [] without an entry. */
  function TimesOf(bucket: seq<MovieSlot>, movieId: string): seq<Slot> {
    match EntryOf(bucket, movieId)
    case None => []
    case Some(j) => bucket[j].times
  }

  /** Find the movie's entry, creating it on first encounter, and append the
      slot to its times. */
  function AddToBucket(bucket: seq<MovieSlot>, m: Movie, slot: Slot): seq<MovieSlot> {
    match EntryOf(bucket, m.id)
    case None => bucket + [MovieSlot(m.id, m.name, m.languages, m.category.GetOr([]), [slot])]
    case Some(j) => bucket[j := bucket[j].(times := bucket[j].times + [slot])]
  }

  lemma EntryAt(bucket: seq<MovieSlot>, movieId: string, j: nat)
    requires MoviesUnique(bucket) && j < |bucket| && bucket[j].movieId == movieId
    ensures EntryOf(bucket, movieId) == Some(j)
  {
    var p := (e: MovieSlot) => e.movieId == movieId;
    assert p(bucket[j]);
    IndexWhereIs(bucket, p, j);
  }

  lemma EntryNone(bucket: seq<MovieSlot>, movieId: string)
    requires forall j :: 0 <= j < |bucket| ==> bucket[j].movieId != movieId
    ensures EntryOf(bucket, movieId).None?
  {
    var p := (e: MovieSlot) => e.movieId == movieId;
    assert forall j :: 0 <= j < |bucket| ==> !p(bucket[j]);
  }

  /** Adding a slot for movie m appends it to m's times, and only to them; the
      bucket keeps one entry per movie. */
  lemma AddToBucketTimes(bucket: seq<MovieSlot>, m: Movie, slot: Slot, movieId: string)
    requires MoviesUnique(bucket)
    ensures MoviesUnique(AddToBucket(bucket, m, slot))
    ensures TimesOf(AddToBucket(bucket, m, slot), movieId) ==
              TimesOf(bucket, movieId) + (if movieId == m.id then [slot] else [])
  {
    match EntryOf(bucket, m.id)
    case None => AddNewEntry(bucket, m, slot, movieId);
    case Some(i) => AddToEntry(bucket, m, slot, movieId, i);
  }

  /** A movie met for the first time gets a new entry at the end. */
  lemma AddNewEntry(bucket: seq<MovieSlot>, m: Movie, slot: Slot, movieId: string)
    requires MoviesUnique(bucket) && EntryOf(bucket, m.id).None?
    ensures MoviesUnique(AddToBucket(bucket, m, slot))
    ensures TimesOf(AddToBucket(bucket, m, slot), movieId) ==
              TimesOf(bucket, movieId) + (if movieId == m.id then [slot] else [])
  {
    var r := AddToBucket(bucket, m, slot);
    var p := (e: MovieSlot) => e.movieId == movieId;
    assert forall j :: 0 <= j < |bucket| ==> bucket[j].movieId != m.id by {
      var q := (e: MovieSlot) => e.movieId == m.id;
      assert forall j :: 0 <= j < |bucket| ==> !q(bucket[j]);
    }
    assert r[|bucket|].movieId == m.id;
    if movieId == m.id {
      EntryAt(r, movieId, |bucket|);
      EntryNone(bucket, movieId);
    } else if EntryOf(bucket, movieId).Some? {
      var j := EntryOf(bucket, movieId).value;
      assert p(bucket[j]);
      EntryAt(bucket, movieId, j);
      EntryAt(r, movieId, j);
    } else {
      assert forall j :: 0 <= j < |bucket| ==> !p(bucket[j]);
      EntryNone(r, movieId);
    }
  }

  /** A movie already listed gets the slot appended to its entry. */
  lemma AddToEntry(bucket: seq<MovieSlot>, m: Movie, slot: Slot, movieId: string, i: nat)
    requires MoviesUnique(bucket) && EntryOf(bucket, m.id) == Some(i)
    ensures MoviesUnique(AddToBucket(bucket, m, slot))
    ensures TimesOf(AddToBucket(bucket, m, slot), movieId) ==
              TimesOf(bucket, movieId) + (if movieId == m.id then [slot] else [])
  {
    var r := AddToBucket(bucket, m, slot);
    var p := (e: MovieSlot) => e.movieId == movieId;
    assert bucket[i].movieId == m.id by {
      var q := (e: MovieSlot) => e.movieId == m.id;
      assert q(bucket[i]);
    }
    assert forall j :: 0 <= j < |bucket| ==> r[j].movieId == bucket[j].movieId;
    if movieId == m.id {
      EntryAt(bucket, movieId, i);
      EntryAt(r, movieId, i);
    } else if EntryOf(bucket, movieId).Some? {
      var j := EntryOf(bucket, movieId).value;
      assert p(bucket[j]);
      EntryAt(bucket, movieId, j);
      EntryAt(r, movieId, j);
    } else {
      assert forall j :: 0 <= j < |bucket| ==> !p(bucket[j]);
      EntryNone(r, movieId);
    }
  }

  // ---------------------------------------------------------------------
  // The whole schedule
  // ---------------------------------------------------------------------

  /** `loadSchedule`'s loop over every showtime in order. */
  function Group(movies: seq<Movie>, today: Date, shows: seq<ShowTime>): Buckets<MovieSlot>
    decreases |shows|
  {
    if |shows| == 0 then []
    else
      var prev := Group(movies, today, shows[..|shows| - 1]);
      var s := shows[|shows| - 1];
      match LookupMovie(movies, s.movieId)
      case None => prev
      case Some(m) =>
        if Before(s.day, today) then prev
        else
          var key := DateKey(s.day);
          Put(prev, key, AddToBucket(Get(prev, key), m, Slot(s.id, s.time)))
  }

  /** The reference answer: the kept showtimes of one movie on one day, in
      encounter order. */
  function SlotsFor(movies: seq<Movie>, today: Date, shows: seq<ShowTime>, key: string, movieId: string): seq<Slot>
    decreases |shows|
  {
    if |shows| == 0 then []
    else
      var s := shows[|shows| - 1];
      SlotsFor(movies, today, shows[..|shows| - 1], key, movieId)
      + (if Kept(movies, today, s) && DateKey(s.day) == key && s.movieId == movieId then [Slot(s.id, s.time)] else [])
  }

  ghost predicate WellFormed(g: Buckets<MovieSlot>) {
    KeysUnique(g) && forall k :: MoviesUnique(Get(g, k))
  }

  /** One step of the loop: a kept showtime writes its day's bucket with the
      slot added; anything else leaves the schedule as it was. */
  lemma GroupStep(movies: seq<Movie>, today: Date, shows: seq<ShowTime>)
    requires |shows| > 0
    ensures var prev := Group(movies, today, shows[..|shows| - 1]);
            var s := shows[|shows| - 1];
            Group(movies, today, shows) ==
              if Kept(movies, today, s)
              then Put(prev, DateKey(s.day), AddToBucket(Get(prev, DateKey(s.day)), LookupMovie(movies, s.movieId).value, Slot(s.id, s.time)))
              else prev
  {
  }

  /** Keys stay unique and each day lists each movie at most once. */
  lemma {:induction false} GroupWellFormed(movies: seq<Movie>, today: Date, shows: seq<ShowTime>)
    ensures WellFormed(Group(movies, today, shows))
    decreases |shows|
  {
    var g := Group(movies, today, shows);
    if |shows| == 0 {
      forall k ensures MoviesUnique(Get(g, k)) { FindNone(g, k); }
    } else {
      var n := |shows| - 1;
      var prev := Group(movies, today, shows[..n]);
      var s := shows[n];
      GroupWellFormed(movies, today, shows[..n]);
      GroupStep(movies, today, shows);
      if Kept(movies, today, s) {
        var m := LookupMovie(movies, s.movieId).value;
        var sk := DateKey(s.day);
        var nb := AddToBucket(Get(prev, sk), m, Slot(s.id, s.time));
        PutGet(prev, sk, nb, sk);
        AddToBucketTimes(Get(prev, sk), m, Slot(s.id, s.time), m.id);
        forall k ensures MoviesUnique(Get(g, k)) {
          PutGet(prev, sk, nb, k);
        }
      }
    }
  }

  /** The times under (day, movie) are that movie's kept showtimes on that
      day in encounter order: unknown movies and past days leave no trace. */
  lemma {:induction false} GroupTimes(movies: seq<Movie>, today: Date, shows: seq<ShowTime>, key: string, movieId: string)
    ensures TimesOf(Get(Group(movies, today, shows), key), movieId) == SlotsFor(movies, today, shows, key, movieId)
    decreases |shows|
  {
    var g := Group(movies, today, shows);
    if |shows| == 0 {
      FindNone(g, key);
      assert EntryOf([], movieId).None?;
    } else {
      var n := |shows| - 1;
      var prev := Group(movies, today, shows[..n]);
      var s := shows[n];
      GroupTimes(movies, today, shows[..n], key, movieId);
      GroupWellFormed(movies, today, shows[..n]);
      GroupStep(movies, today, shows);
      if Kept(movies, today, s) {
        var m := LookupMovie(movies, s.movieId).value;
        var sk := DateKey(s.day);
        var nb := AddToBucket(Get(prev, sk), m, Slot(s.id, s.time));
        PutGet(prev, sk, nb, key);
        AddToBucketTimes(Get(prev, sk), m, Slot(s.id, s.time), movieId);
      }
    }
  }

  /** A kept showtime on day `key`. */
  predicate KeptOn(movies: seq<Movie>, today: Date, s: ShowTime, key: string) {
    Kept(movies, today, s) && DateKey(s.day) == key
  }

  /** Some kept showtime among `shows` falls on day `key`, scanning from
      the back. */
  predicate HasKeptOn(movies: seq<Movie>, today: Date, shows: seq<ShowTime>, key: string)
    decreases |shows|
  {
    |shows| > 0 &&
    (KeptOn(movies, today, shows[|shows| - 1], key) || HasKeptOn(movies, today, shows[..|shows| - 1], key))
  }

  /** The scan succeeds only at a showtime kept on that day. */
  lemma {:induction false} HasKeptOnWitness(movies: seq<Movie>, today: Date, shows: seq<ShowTime>, key: string)
    requires HasKeptOn(movies, today, shows, key)
    ensures exists i :: 0 <= i < |shows| && KeptOn(movies, today, shows[i], key)
    decreases |shows|
  {
    var n := |shows| - 1;
    if !KeptOn(movies, today, shows[n], key) {
      var init := shows[..n];
      HasKeptOnWitness(movies, today, init, key);
      var i :| 0 <= i < n && KeptOn(movies, today, init[i], key);
      assert shows[i] == init[i];
    }
  }

  /** The scan finds any showtime kept on that day. */
  lemma {:induction false} HasKeptOnFinds(movies: seq<Movie>, today: Date, shows: seq<ShowTime>, key: string, i: nat)
    requires i < |shows| && KeptOn(movies, today, shows[i], key)
    ensures HasKeptOn(movies, today, shows, key)
    decreases |shows|
  {
    var n := |shows| - 1;
    if i < n {
      var init := shows[..n];
      assert init[i] == shows[i];
      HasKeptOnFinds(movies, today, init, key, i);
    }
  }

  /** The schedule's days, against the backward scan. */
  lemma {:induction false} GroupDays(movies: seq<Movie>, today: Date, shows: seq<ShowTime>, key: string)
    ensures Has(Group(movies, today, shows), key) <==> HasKeptOn(movies, today, shows, key)
    decreases |shows|
  {
    if |shows| > 0 {
      var n := |shows| - 1;
      var prev := Group(movies, today, shows[..n]);
      var s := shows[n];
      GroupDays(movies, today, shows[..n], key);
      assert HasKeptOn(movies, today, shows, key) <==> KeptOn(movies, today, s, key) || HasKeptOn(movies, today, shows[..n], key);
      GroupWellFormed(movies, today, shows[..n]);
      GroupDaysStep(movies, today, prev, s, key);
      GroupStep(movies, today, shows);
    }
  }

  /** One step of GroupDays: adding showtime `s` to schedule `prev`. */
  lemma GroupDaysStep(movies: seq<Movie>, today: Date, prev: Buckets<MovieSlot>, s: ShowTime, key: string)
    requires KeysUnique(prev)
    ensures var g := if Kept(movies, today, s)
                     then Put(prev, DateKey(s.day), AddToBucket(Get(prev, DateKey(s.day)), LookupMovie(movies, s.movieId).value, Slot(s.id, s.time)))
                     else prev;
            Has(g, key) <==> KeptOn(movies, today, s, key) || Has(prev, key)
  {
    if Kept(movies, today, s) {
      var sk := DateKey(s.day);
      var nb := AddToBucket(Get(prev, sk), LookupMovie(movies, s.movieId).value, Slot(s.id, s.time));
      PutGet(prev, sk, nb, key);
    }
  }

  /** A day appears in the schedule iff some showtime of a listed movie,
      not in the past, falls on it. */
  lemma ScheduleDays(movies: seq<Movie>, today: Date, shows: seq<ShowTime>, key: string)
    ensures Has(Group(movies, today, shows), key) <==>
            exists i :: 0 <= i < |shows| && KeptOn(movies, today, shows[i], key)
  {
    GroupDays(movies, today, shows, key);
    if HasKeptOn(movies, today, shows, key) {
      HasKeptOnWitness(movies, today, shows, key);
    }
    if exists i :: 0 <= i < |shows| && KeptOn(movies, today, shows[i], key) {
      var i :| 0 <= i < |shows| && KeptOn(movies, today, shows[i], key);
      HasKeptOnFinds(movies, today, shows, key, i);
    }
  }

  // ---------------------------------------------------------------------
  // Page state
  // ---------------------------------------------------------------------

  /** `Object.keys(schedule).sort()`. */
  function AllDates(g: Buckets<MovieSlot>): seq<string> {
    SortKeys(Keys(g))
  }

  /** After a load: keep the previous active day if it is still listed,
      otherwise take the first sorted day; with no days leave it alone. */
  function ActiveDate(prev: string, dates: seq<string>): (r: string)
    ensures |dates| == 0 ==> r == prev
    ensures |dates| > 0 ==> r in dates
    ensures prev != "" && prev in dates ==> r == prev
  {
    if |dates| == 0 then prev
    else if prev != "" && prev in dates then prev
    else dates[0]
  }

  /** Without a usable previous choice the active day is the earliest key
      present in the schedule. */
  lemma ActiveDateIsEarliest(prev: string, g: Buckets<MovieSlot>)
    requires |g| > 0
    requires !(prev != "" && prev in AllDates(g))
    ensures Has(g, ActiveDate(prev, AllDates(g)))
    ensures forall k :: Has(g, k) ==> LexLeq(ActiveDate(prev, AllDates(g)), k)
  {
    SortedHeadIsLeast(Keys(g));
    var r := AllDates(g);
    assert r[0] in multiset(r);
  }

  /** The slider's first visible index stays within 0..max(0, n - 3). */
  predicate WindowOk(i: int, n: nat) {
    0 <= i && (i == 0 || i + 3 <= n)
  }

  /** `goNext`: only when a later day is hidden. */
  function GoNext(i: int, n: nat): (r: int)
    ensures r == i + 1 || r == i
    ensures r == i + 1 <==> i + 3 < n
  {
    if i + 3 < n then i + 1 else i
  }

  /** `goPrev`: only when an earlier day is hidden. */
  function GoPrev(i: int): (r: int)
    ensures r == i - 1 || r == i
    ensures r == i - 1 <==> i > 0
  {
    if i > 0 then i - 1 else i
  }

  /** `allDates.slice(i, i + 3)`. */
  function Visible(dates: seq<string>, i: int): (r: seq<string>)
    requires WindowOk(i, |dates|)
    ensures |r| == if |dates| < 3 then |dates| else 3
    ensures forall k :: 0 <= k < |r| ==> r[k] == dates[i + k]
  {
    if |dates| <= i + 3 then dates[i..] else dates[i..i + 3]
  }

  /** Both buttons keep the window valid, so the slider always shows three
      days when there are that many. */
  lemma WindowPreserved(i: int, n: nat)
    requires WindowOk(i, n)
    ensures WindowOk(GoNext(i, n), n) && WindowOk(GoPrev(i), n)
  {
  }

  /** Every day can be brought into view by some valid window. */
  lemma EveryDateReachable(dates: seq<string>, k: nat)
    requires k < |dates|
    ensures exists i :: WindowOk(i, |dates|) && dates[k] in Visible(dates, i)
  {
    var n := |dates|;
    var i := if k + 3 <= n then k else if n >= 3 then n - 3 else 0;
    assert Visible(dates, i)[k - i] == dates[k];
  }

  /** A chosen time slot and the movie card it belongs to. */
  datatype Selection = Selection(showId: string, movieId: string)

  /** Book Now is enabled only on the card of the movie owning the slot. */
  predicate BookNowEnabled(selected: Option<Selection>, card: MovieSlot) {
    selected.Some? && selected.value.movieId == card.movieId
  }

  /** In any day of a well-formed schedule at most one card is bookable. */
  lemma OneCardBookable(g: Buckets<MovieSlot>, key: string, selected: Option<Selection>, i: nat, j: nat)
    requires WellFormed(g)
    requires i < j < |Get(g, key)|
    ensures !(BookNowEnabled(selected, Get(g, key)[i]) && BookNowEnabled(selected, Get(g, key)[j]))
  {
    assert MoviesUnique(Get(g, key));
  }

  const SeatOptions: seq<int> := [1, 2, 3, 4, 5, 6, 7, 8, 9, 10]

  /** What Proceed hands to the seat page. */
  datatype Booking = Booking(path: string, seats: int, from: string, theaterName: string, theaterLocation: string)

  /** The modal's Proceed: go to the chosen show's seat page with the party
      size and a way back here. */
  function Proceed(selected: Selection, count: int, pathname: string, name: string, place: string): (r: Booking)
    requires count in SeatOptions
    ensures 1 <= r.seats <= 10 && r.seats == count
    ensures r.path == "/selectSeat/" + selected.showId && r.from == pathname
  {
    Booking("/selectSeat/" + selected.showId, count, pathname, name, place)
  }

  /** The seat page reading this hand-off asks for exactly the chosen number
      of seats and its back arrow returns to this page. */
  lemma ProceedArrival(selected: Selection, count: int, pathname: string, name: string, place: string)
    requires count in SeatOptions && pathname != ""
    ensures var b := Proceed(selected, count, pathname, name, place);
            var arrival := Arrival(Some(b.seats), Some(b.from));
            && SeatLimitOf(arrival.seats) == count
            && Back(arrival) == Navigate(pathname, false)
  {
  }

  // ---------------------------------------------------------------------
  // Loading
  // ---------------------------------------------------------------------

  const ScheduleFailedText: string := "Failed to load theater schedule due to a network error"

  /** The replies `loadSchedule` needs, or a failure of any of its requests,
      the theater-name fetch included. */
  datatype ScheduleReply = Failed | Replied(movies: seq<Movie>, screens: seq<Option<seq<ShowTime>>>)

  datatype PageState = PageState(requested: bool, loading: bool, schedule: Buckets<MovieSlot>, active: string, effects: seq<Effect>)

  /** Nothing is fetched without a token and a theater id, and the spinner
      then stays; a failure toasts and leaves the schedule empty; otherwise
      the schedule is the grouping of every showtime and the active day is
      chosen as above. */
  function LoadSchedule(token: Option<string>, theaterId: Option<string>, today: Date, prevActive: string, reply: ScheduleReply): (r: PageState)
    ensures r.requested <==> Truthy(token) && Truthy(theaterId)
    ensures r.loading <==> !r.requested
    ensures r.effects != [] <==> r.requested && reply.Failed?
    ensures r.effects != [] ==> r.effects == [Toast(Error, ScheduleFailedText)] && r.schedule == [] && r.active == prevActive
    ensures r.requested && reply.Replied? ==>
              r.schedule == Group(reply.movies, today, Flatten(reply.screens))
              && r.active == ActiveDate(prevActive, AllDates(r.schedule))
  {
    if !(Truthy(token) && Truthy(theaterId)) then PageState(false, true, [], prevActive, [])
    else match reply
      case Failed => PageState(true, false, [], prevActive, [Toast(Error, ScheduleFailedText)])
      case Replied(movies, screens) =>
        var g := Group(movies, today, Flatten(screens));
        PageState(true, false, g, ActiveDate(prevActive, AllDates(g)), [])
  }
}

=== FILE: ticket.dfy ===
/** The ticket view (src/features/booking/Ticket.tsx): either the order
    handed in by the caller, or the order named in the route looked up in
    the visitor's order list; then a pending card or the ticket card. */
module TicketView {
  import opened Common
  import opened Types
  import Orders

  const NotFoundText: string := "Order not found"
  const LoadFailedText: string := "Failed to load order"
  const LoadFailedToast: string := "Failed to load ticket details"
  const NetworkText: string := "Error loading ticket"
  const NetworkToast: string := "Network error while loading ticket"
  const InvalidIdText: string := "Invalid Ticket ID"

  datatype Loaded = Loaded(requested: bool, order: Option<Order>, error: Option<string>, effects: seq<Effect>)

  /** The order with the given id, first match as `Array.find`. */
  function FindOrder(orders: seq<Order>, id: string): (r: Option<Order>)
    ensures r.Some? ==> r.value in orders && r.value.id == id
    ensures r.None? <==> forall i :: 0 <= i < |orders| ==> orders[i].id != id
  {
    match IndexWhere(orders, (o: Order) => o.id == id)
    case Some(k) => Some(orders[k])
    case None => None
  }

  /** The effect that settles the view: a handed-in order wins, a missing
      route id settles with nothing, otherwise the list is fetched. */
  function Resolve(prop: Option<Order>, orderId: Option<string>, reply: Orders.OrdersReply): (r: Loaded)
    ensures r.requested <==> prop.None? && Truthy(orderId)
    ensures prop.Some? ==> r == Loaded(false, prop, None, [])
    ensures prop.None? && !Truthy(orderId) ==> r == Loaded(false, None, None, [])
    ensures r.order.Some? ==> r.error.None? && (prop.Some? || (reply.Listed? && r.order.value in reply.orders && r.order.value.id == orderId.value))
    ensures r.requested && reply.Listed? ==> (r.order.None? <==> forall i :: 0 <= i < |reply.orders| ==> reply.orders[i].id != orderId.value)
    ensures r.requested && reply.Listed? && r.order.None? ==> r.error == Some(NotFoundText) && r.effects == []
    ensures r.requested && reply.NotOk? ==> r == Loaded(true, None, Some(LoadFailedText), [Toast(Error, LoadFailedToast)])
    ensures r.requested && reply.Unreachable? ==> r == Loaded(true, None, Some(NetworkText), [Toast(Error, NetworkToast)])
  {
    if prop.Some? then Loaded(false, prop, None, [])
    else if !Truthy(orderId) then Loaded(false, None, None, [])
    else match reply
      case Listed(orders) =>
        (match FindOrder(orders, orderId.value)
         case Some(o) => Loaded(true, Some(o), None, [])
         case None => Loaded(true, None, Some(NotFoundText), []))
      case NotOk => Loaded(true, None, Some(LoadFailedText), [Toast(Error, LoadFailedToast)])
      case Unreachable => Loaded(true, None, Some(NetworkText), [Toast(Error, NetworkToast)])
  }

  // ---------------------------------------------------------------------
  // Text on the cards
  // ---------------------------------------------------------------------

  /** `parts.join(sep)`. */
  function Join(parts: seq<string>, sep: string): string
    decreases |parts|
  {
    if |parts| == 0 then ""
    else if |parts| == 1 then parts[0]
    else Join(parts[..|parts| - 1], sep) + sep + parts[|parts| - 1]
  }

  function CountChar(s: string, c: char): nat
    decreases |s|
  {
    if |s| == 0 then 0
    else CountChar(s[..|s| - 1], c) + (if s[|s| - 1] == c then 1 else 0)
  }

  lemma {:induction false} CountCharConcat(a: string, b: string, c: char)
    ensures CountChar(a + b, c) == CountChar(a, c) + CountChar(b, c)
    decreases |b|
  {
    if |b| == 0 {
      assert a + b == a;
    } else {
      var n := |b| - 1;
      assert (a + b)[..|a + b| - 1] == a + b[..n];
      CountCharConcat(a, b[..n], c);
    }
  }

  /** Joining comma-free parts with ", " puts exactly one comma between
      neighbours, so the parts can be counted back from the text. */
  lemma {:induction false} JoinCommas(parts: seq<string>)
    requires |parts| > 0
    requires forall i :: 0 <= i < |parts| ==> CountChar(parts[i], ',') == 0
    ensures CountChar(Join(parts, ", "), ',') == |parts| - 1
    decreases |parts|
  {
    if |parts| > 1 {
      var n := |parts| - 1;
      JoinCommas(parts[..n]);
      CountCharConcat(Join(parts[..n], ", "), ", ", ',');
      CountCharConcat(Join(parts[..n], ", ") + ", ", parts[n], ',');
      assert CountChar(", ", ',') == 1 by {
        assert ", "[..1] == ",";
        assert ","[..0] == "";
      }
    }
  }

  function SeatLabels(seats: seq<SeatData>): (r: seq<string>)
    ensures |r| == |seats|
    ensures forall i :: 0 <= i < |seats| ==> r[i] == SeatLabel(seats[i].row, seats[i].column)
  {
    seq(|seats|, i requires 0 <= i < |seats| => SeatLabel(seats[i].row, seats[i].column))
  }

  /** A digit string holds no comma. */
  lemma {:induction false} DigitsHaveNoComma(s: string)
    requires AllDigits(s)
    ensures CountChar(s, ',') == 0
    decreases |s|
  {
    if |s| > 0 {
      var init := s[..|s| - 1];
      assert AllDigits(init) by {
        forall i | 0 <= i < |init| ensures IsDigit(init[i]) {
          assert init[i] == s[i];
        }
      }
      DigitsHaveNoComma(init);
      assert IsDigit(s[|s| - 1]);
    }
  }

  /** With comma-free row letters, the seat text lists as many entries as
      the "Ticket (n)" count says. */
  lemma SeatTextMatchesCount(seats: seq<SeatData>)
    requires |seats| > 0
    requires forall i :: 0 <= i < |seats| ==> CountChar(seats[i].row, ',') == 0
    ensures CountChar(Join(SeatLabels(seats), ", "), ',') + 1 == |seats|
  {
    var labels := SeatLabels(seats);
    forall i | 0 <= i < |labels| ensures CountChar(labels[i], ',') == 0 {
      DigitsHaveNoComma(NatToString(seats[i].column));
      CountCharConcat(seats[i].row, NatToString(seats[i].column), ',');
    }
    JoinCommas(labels);
  }

  /** `order.id.slice(0, 8)`, the id shown on the pending card. */
  function ShortId(id: string): (r: string)
    ensures |r| <= 8 && r <= id
    ensures |id| >= 8 ==> |r| == 8
    ensures |r| == if |id| < 8 then |id| else 8
  {
    Prefix(id, 8)
  }

  /** The downloaded file's name. */
  function PdfName(id: string): (r: string)
    ensures r == "CinemaS-Ticket-" + ShortId(id) + ".pdf"
  {
    "CinemaS-Ticket-" + Prefix(id, 8) + ".pdf"
  }

  /** `order.id.toUpperCase().slice(0, 8)`, the "ORDER #" tag in the PDF. */
  function OrderTag(id: string): string {
    Prefix(Upper(id), 8)
  }

  /** The PDF tag is the upper-cased short id: slicing and upper-casing
      commute. */
  lemma OrderTagIsUpperShortId(id: string)
    ensures OrderTag(id) == Upper(ShortId(id))
  {
    var a := OrderTag(id);
    var b := Upper(ShortId(id));
    assert |a| == |b|;
    forall i | 0 <= i < |a| ensures a[i] == b[i] {
      assert a[i] == Upper(id)[i];
      assert ShortId(id)[i] == id[i];
    }
  }

  // ---------------------------------------------------------------------
  // What is shown
  // ---------------------------------------------------------------------

  datatype Screen =
    | Loading
    | NotFound(message: string)
    | PendingCard(movieName: string, shortId: string)
    | TicketCard(movieName: string, seatCount: nat, seatText: string, tag: string, theaterName: string)

  /** The view for a settled state (`loading` is the initial
      `!propOrder` until the effect runs). */
  function Render(loading: bool, l: Loaded): (r: Screen)
    ensures loading <==> r.Loading?
    ensures !loading && (l.error.Some? || l.order.None?) ==> r.NotFound?
    ensures r.NotFound? && l.error.None? ==> r.message == InvalidIdText
    ensures r.PendingCard? <==> !loading && l.error.None? && l.order.Some? && l.order.value.status == Pending
    ensures r.TicketCard? ==> r.seatCount == |l.order.value.seats| && r.tag == OrderTag(l.order.value.id)
  {
    if loading then Loading
    else if l.error.Some? || l.order.None? then NotFound(OrElse(l.error, InvalidIdText))
    else
      var o := l.order.value;
      if o.status == Pending then PendingCard(o.movieName, ShortId(o.id))
      else TicketCard(o.movieName, |o.seats|, Join(SeatLabels(o.seats), ", "), OrderTag(o.id), o.theaterName)
  }

  /** Every order listed on either tab of "My Tickets" renders as a full
      ticket card, never as the pending card. */
  lemma TabsShowTicketCards(orders: seq<Order>, now: int, o: Order)
    requires o in Orders.Upcoming(orders, now) || o in Orders.History(orders, now)
    ensures Render(false, Resolve(Some(o), None, Orders.Unreachable)).TicketCard?
  {
    Orders.TabsPartition(orders, now, o);
  }
}

=== FILE: types.dfy ===
/** The records the booking client exchanges with its server (src/types.ts),
    restricted to the fields the modelled logic reads, plus the user-visible
    side effects (toasts and navigation) that the pages emit. */
module Types {
  import opened Common

  /** One section of a screen layout. `kind` is the section's price category
      (`type` in the source); every row is a single character; only the second
      component of `columns` is ever read. */
  datatype LayoutBlock = LayoutBlock(kind: string, rows: seq<char>, columns: (int, int))

  /** One entry of a show's price table. */
  datatype PriceEntry = PriceEntry(price: int, layoutType: string)

  /** A seat as the server stores it inside an order. */
  datatype SeatData = SeatData(row: string, column: nat, layoutType: string)

  /** A seat chosen on the seat grid: its label and its resolved category. */
  datatype SelectedSeat = SelectedSeat(seat: string, layoutType: string)

  datatype Status = Pending | Completed | Cancelled

  /** An order. Timestamps are integer milliseconds since the epoch. */
  datatype Order = Order(
    id: string,
    status: Status,
    totalPrice: int,
    seats: seq<SeatData>,
    createdAt: int,
    startTime: int,
    movieName: string,
    theaterName: string)

  /** The label `${row}${column}` under which a seat is shown and booked. */
  function SeatLabel(row: string, column: nat): string {
    row + NatToString(column)
  }

  /** Severity of a toast notification. */
  datatype Level = Info | Success | Warning | Error

  /** A user-visible side effect of an operation. */
  datatype Effect =
    | Toast(level: Level, text: string)
    | Navigate(path: string, replace: bool)
    | NavigateBack
    | ExternalRedirect(url: string)

  /** Number of toasts of the given level in an effect list. */
  function CountToasts(effects: seq<Effect>, level: Level): nat {
    if |effects| == 0 then 0
    else
      var last := effects[|effects| - 1];
      CountToasts(effects[..|effects| - 1], level) + (if last.Toast? && last.level == level then 1 else 0)
  }

  /** Number of navigations to `path` in an effect list. */
  function CountNavigations(effects: seq<Effect>, path: string): nat {
    if |effects| == 0 then 0
    else
      var last := effects[|effects| - 1];
      CountNavigations(effects[..|effects| - 1], path) + (if last.Navigate? && last.path == path then 1 else 0)
  }

  /** Counting distributes over concatenation of effect lists. */
  lemma {:induction false} CountsConcat(a: seq<Effect>, b: seq<Effect>, level: Level, path: string)
    ensures CountToasts(a + b, level) == CountToasts(a, level) + CountToasts(b, level)
    ensures CountNavigations(a + b, path) == CountNavigations(a, path) + CountNavigations(b, path)
    decreases |b|
  {
    if |b| > 0 {
      var n := |b| - 1;
      assert (a + b)[..|a + b| - 1] == a + b[..n];
      CountsConcat(a, b[..n], level, path);
    } else {
      assert a + b == a;
    }
  }

  /** A single effect counts once toward its own level or path. */
  lemma CountsSingle(e: Effect, level: Level, path: string)
    ensures CountToasts([e], level) == (if e.Toast? && e.level == level then 1 else 0)
    ensures CountNavigations([e], path) == (if e.Navigate? && e.path == path then 1 else 0)
  {
    assert [e][..0] == [];
  }

  /** Whether any navigation happens. */
  predicate Navigates(effects: seq<Effect>) {
    exists i :: 0 <= i < |effects| && (effects[i].Navigate? || effects[i].ExternalRedirect?)
  }
}

=== FILE: validation.dfy ===
/** The two client-side input checks of the login and sign-up pages, stated
    as what their regular expressions accept and implemented by single scans.
    E-mail: `/^\S+@\S+\.\S+$/`. Password: `/^(?=.*[a-z])(?=.*[A-Z])(?=.*\d).{8,}$/`. */
module Validation {

  /** JavaScript's `\s`: the ASCII white space, the no-break spaces, the
      Unicode space separators, the line and paragraph separators and the
      byte-order mark. */
  predicate IsSpace(c: char) {
    || c == '\t' || c == '\n' || c == '\U{000B}' || c == '\U{000C}' || c == '\r' || c == ' '
    || c == '\U{00A0}' || c == '\U{1680}' || ('\U{2000}' <= c <= '\U{200A}')
    || c == '\U{2028}' || c == '\U{2029}' || c == '\U{202F}' || c == '\U{205F}' || c == '\U{3000}' || c == '\U{FEFF}'
  }

  /** The characters `.` does not match. */
  predicate IsLineTerminator(c: char) {
    c == '\n' || c == '\r' || c == '\U{2028}' || c == '\U{2029}'
  }

  /** What the e-mail expression accepts: no white space anywhere, a non-empty
      part before an `@`, a non-empty part between it and a later `.`, and a
      non-empty part after that dot. */
  predicate EmailShaped(s: string) {
    && (forall m :: 0 <= m < |s| ==> !IsSpace(s[m]))
    && exists i, j :: 1 <= i < |s| && i + 2 <= j < |s| && j + 2 <= |s| && s[i] == '@' && s[j] == '.'
  }

  /** The length JavaScript reports: a character beyond the Basic
      Multilingual Plane is two UTF-16 code units. */
  function CodeUnits(s: string): nat
    decreases |s|
  {
    if |s| == 0 then 0
    else CodeUnits(s[..|s| - 1]) + (if s[|s| - 1] as int > 0xFFFF then 2 else 1)
  }

  /** What the password expression accepts: at least eight UTF-16 code units
      (the expression has no `u` flag, so `.` matches one unit), none a line
      terminator, with a lower-case letter, an upper-case letter and a decimal
      digit among them. */
  predicate PasswordStrong(s: string) {
    && CodeUnits(s) >= 8
    && (forall m :: 0 <= m < |s| ==> !IsLineTerminator(s[m]))
    && (exists m :: 0 <= m < |s| && 'a' <= s[m] <= 'z')
    && (exists m :: 0 <= m < |s| && 'A' <= s[m] <= 'Z')
    && (exists m :: 0 <= m < |s| && '0' <= s[m] <= '9')
  }

  /** One pass keeps the first `@` past position 0 and the last `.` that still
      has a character after it; the input is an e-mail exactly when those two
      are far enough apart and no white space was seen. */
  method CheckEmail(s: string) returns (ok: bool)
    ensures ok <==> EmailShaped(s)
  {
    var spaced := false;
    var at := -1;
    var dot := -1;
    var k := 0;
    while k < |s|
      invariant 0 <= k <= |s|
      invariant spaced <==> exists m :: 0 <= m < k && IsSpace(s[m])
      invariant at == -1 ==> forall m :: 1 <= m < k ==> s[m] != '@'
      invariant at != -1 ==> 1 <= at < k && s[at] == '@' && forall m :: 1 <= m < at ==> s[m] != '@'
      invariant dot == -1 ==> forall m :: 0 <= m < k && m + 2 <= |s| ==> s[m] != '.'
      invariant dot != -1 ==> 0 <= dot < k && dot + 2 <= |s| && s[dot] == '.'
      invariant dot != -1 ==> forall m :: dot < m < k && m + 2 <= |s| ==> s[m] != '.'
    {
      if IsSpace(s[k]) {
        spaced := true;
      }
      if s[k] == '@' && k >= 1 && at == -1 {
        at := k;
      }
      if s[k] == '.' && k + 2 <= |s| {
        dot := k;
      }
      k := k + 1;
    }
    ok := !spaced && at != -1 && dot != -1 && at + 2 <= dot;
  }

  /** One pass with a flag per character class. */
  method CheckPassword(s: string) returns (ok: bool)
    ensures ok <==> PasswordStrong(s)
  {
    var broken := false;
    var lower := false;
    var upper := false;
    var digit := false;
    var units := 0;
    var k := 0;
    while k < |s|
      invariant 0 <= k <= |s|
      invariant units == CodeUnits(s[..k])
      invariant broken <==> exists m :: 0 <= m < k && IsLineTerminator(s[m])
      invariant lower <==> exists m :: 0 <= m < k && 'a' <= s[m] <= 'z'
      invariant upper <==> exists m :: 0 <= m < k && 'A' <= s[m] <= 'Z'
      invariant digit <==> exists m :: 0 <= m < k && '0' <= s[m] <= '9'
    {
      var c := s[k];
      broken := broken || IsLineTerminator(c);
      lower := lower || 'a' <= c <= 'z';
      upper := upper || 'A' <= c <= 'Z';
      digit := digit || '0' <= c <= '9';
      assert s[..k + 1][..k] == s[..k];
      units := units + (if c as int > 0xFFFF then 2 else 1);
      k := k + 1;
    }
    assert s[..k] == s;
    ok := units >= 8 && !broken && lower && upper && digit;
  }

  /** The smallest accepted address shape, and rejections the expression is
      known for: nothing before `@`, nothing between `@` and `.`, nothing after
      the dot, an inner space. */
  lemma EmailExamples()
    ensures EmailShaped("a@b.c")
    ensures !EmailShaped("@b.c")
    ensures !EmailShaped("a@.c")
    ensures !EmailShaped("a@b.")
    ensures !EmailShaped("a b@c.d")
  {
    assert "a@b.c"[1] == '@' && "a@b.c"[3] == '.';
    assert !IsSpace("a b@c.d"[1]) ==> false;
  }

  /** The password shape needs all three classes; length alone is not enough. */
  lemma PasswordExamples()
    ensures PasswordStrong("Abcdefg1")
    ensures !PasswordStrong("abcdefg1")
    ensures !PasswordStrong("Abcdef1")
    ensures PasswordStrong("Ab1\U{1F600}\U{1F600}\U{1F600}")
  {
    assert "Abcdefg1"[1] == 'b' && "Abcdefg1"[0] == 'A' && "Abcdefg1"[7] == '1';
    CodeUnitsOfPlane("Abcdefg1");
    CodeUnitsOfPlane("abcdefg1");
    CodeUnitsOfPlane("Abcdef1");
    var e := "Ab1\U{1F600}\U{1F600}\U{1F600}";
    assert e[0] == 'A' && e[1] == 'b' && e[2] == '1';
    CodeUnitsOfPlane(e[..3]);
    assert e[..6][..5] == e[..5] && e[..5][..4] == e[..4] && e[..4][..3] == e[..3] && e[..6] == e;
  }

  /** Without characters beyond the Basic Multilingual Plane the reported
      length is the number of characters. */
  lemma {:induction false} CodeUnitsOfPlane(s: string)
    requires forall m :: 0 <= m < |s| ==> s[m] as int <= 0xFFFF
    ensures CodeUnits(s) == |s|
    decreases |s|
  {
    if |s| > 0 {
      CodeUnitsOfPlane(s[..|s| - 1]);
    }
  }
}
